=== FILE: README.md ===
# Session replay viewer: the client-side replay engine

This project models the browser half of a session-recording viewer in Dafny.
A recording consists of a screen video, console records and network requests.
The viewer plays the video and keeps two side panels in step with the video clock.

- **Console panel.** It shows every console record on the video clock. Records the clock has not reached are hidden. The record nearest to the playhead is highlighted when it is within 1.5 s.
- **Network panel.** It does the same for requests. It also has facet filters by resource type, a "shown/total" summary, an expandable detail pane with headers, a response body and a cURL command, and a WebSocket frame table.
- **Player.** It throttles its time updates to one per 250 ms and reports every finished seek at once. It draws a coloured dot on the progress bar for every console error and every request.
- **Page script.** It reads the recording id from the address, formats the recording's duration and builds the marker list.

Modules follow the source files:

- `Reveal` holds the scan that both panels share.
- `ConsoleViewer`, `RemoteObjects` and `StackFrames` model `public/js/console-viewer.js`.
- `NetworkViewer` and `NetworkDetail` model `public/js/network-viewer.js`.
- `TimelineSync` models `public/js/timeline-sync.js`.
- `VideoPlayer` models `public/js/video-player.js`.
- `Viewer` models `public/js/viewer.js`.
- `Text`, `TimeFormat`, `StableSort` and `JsValues` hold the string, number, sorting and JavaScript-value helpers they share.

Panels are immutable values. Each event handler is a pure function from the old panel to the new panel.

- A DOM row is reduced to its offset, its facet tag and its CSS class flags (`time-hidden`, `filter-hidden`, `active`, an open detail pane).
- `scrollIntoView` becomes the index of the row to scroll to.
- Rendered HTML is kept as strings.
- Times are integer milliseconds.
- JavaScript's `||` defaults are written out explicitly. An absent string field is `""`, which is falsy just as `undefined` is.

The reveal pass is written twice:

- once as the loop the source runs (`ConsoleViewer.RevealLoop`), with its invariants;
- once as a pure function (`RevealAtTime`) whose properties the other lemmas state.

The loop is proved equal to the function.

Behaviour worth noting, as the code has it:

- Object previews are rendered recursively, to whatever depth the captured preview has. There is no depth cap.
- An empty preview is drawn as `{}` or `[]` even when the capture marked it as overflowing. The ", ..." marker is dropped.
- The synchronisation glue has no failure isolation. Both panels are called in sequence from one handler.
- Only the network panel exempts rows with an open detail pane from time-hiding. Because of this, the network panel's state after a run of ticks can depend on earlier ticks; see `NetworkViewer.OpenDetailSurvivesSeekBack`.
- The console panel sorts its entries by raw timestamp. The network panel sorts by offset.
- Statuses below 200 that are non-zero (1xx and negative values) are classed as `status-5xx`.
- Protocol-format arguments that are not an array are emitted through `String()` without escaping.

## Model

| member | source | states |
|---|---|---|
| Text.EscapeHtml | public/js/network-viewer.js:185-191 | the escaped text has no `<`, `>` or `"`; text without special characters is unchanged; unescaping gives back exactly the input; the console panel's copy of the routine (`console-viewer.js`, lines 231-237) is identical |
| Text.EscapeHtmlCharwise | public/js/console-viewer.js:231-237 | the four chained global replacements (`&` first) equal a one-pass, per-character escape |
| Text.UnescapeEscape | public/js/console-viewer.js:231-237 | escaping loses no information: reading the entities back yields the original text |
| Text.SingleQuotedRoundTrip | public/js/network-viewer.js:515 | a string wrapped in single quotes with every `'` written as `'\''` is read by the shell's quoting rules as exactly the original string |
| Text.QuoteBody | public/js/network-viewer.js:515 | the quote escape grows the text by three characters per single quote it contains |
| Text.Split | public/js/viewer.js:21 | `split` gives one more piece than there are separators, and no piece contains the separator |
| Text.JoinSplit | public/js/viewer.js:21 | joining the pieces of a split with the separator rebuilds the string |
| Text.SplitJoin | public/js/network-viewer.js:168-170 | splitting a join of separator-free pieces gives the pieces back |
| Text.JoinLayout | public/js/network-viewer.js:540 | `parts.join(sep)` lays the parts end to end: part i starts at the combined length of the parts before it and their separators, and exactly one separator fills each gap |
| Text.PaddedNumeralRoundTrip | public/js/console-viewer.js:74-76 | a zero-padded numeral (`padStart(n, "0")`) is all digits and reads back as the number |
| Text.Take | public/js/viewer.js:87 | `slice(0, n)` is a prefix of at most n characters, the whole string when it is short enough |
| Text.IntToString | public/js/viewer.js:125 | the decimal text of an integer reads back: a non-negative integer gives only digits that parse to it; a negative one gives a minus followed by digits that parse to its magnitude |
| Text.UpperAscii | public/js/console-viewer.js:253 | upper-casing maps exactly the letters a-z to A-Z and keeps length and every other character |
| JsValues.FloorDiv | public/js/viewer.js:121-122 | `Math.floor(a / b)` for a positive divisor: the greatest r with r·b ≤ a |
| JsValues.JsRem | public/js/viewer.js:123 | JavaScript's `%` for a positive divisor: the result takes the dividend's sign and is smaller than the divisor in magnitude |
| JsValues.JsRemQuotient | public/js/viewer.js:123 | the remainder is the one of division truncated toward zero: some quotient of the dividend's sign gives a = q·b + a % b, which together with the bounds fixes the remainder |
| StableSort.Sort | public/js/console-viewer.js:28 | the sort returns a permutation, ordered by key, that keeps the input order within every key |
| StableSort.StableSortIsUnique | public/js/console-viewer.js:28 | any key-ordered arrangement that keeps each key's input order is the one `Sort` returns, so a stable sort's result is fully determined |
| StableSort.SortedByKeyUnique | public/js/network-viewer.js:59 | two key-ordered sequences that agree on every key's subsequence are equal |
| StableSort.InsertSorted | public/js/network-viewer.js:59 | inserting one element into a key-ordered sequence keeps it ordered |
| Reveal.LastVisible | public/js/console-viewer.js:43-45 | the scan's last-visible index is a reached row (offset ≤ t) after which no row is reached; there is none exactly when no row is reached |
| Reveal.Nearest | public/js/console-viewer.js:47-51 | the candidate for highlighting is a reached row of minimal distance to t, the first such one; there is none exactly when no row is reached |
| Reveal.Active | public/js/console-viewer.js:59-61 | the highlighted row is the nearest reached row and lies strictly within 1500 ms; there is none iff every reached row is at least 1500 ms away |
| Reveal.LastVisibleStep | public/js/console-viewer.js:43-45 | one more loop iteration moves the last-visible index to the new row exactly when that row is reached |
| Reveal.NearestStep | public/js/console-viewer.js:47-51 | one more loop iteration replaces the nearest candidate only with a reached row strictly closer than the current one |
| Reveal.VisiblePrefix | public/js/console-viewer.js:39-54 | over offsets in ascending order the reached rows are exactly a prefix, and the last-visible index is the end of that prefix |
| Reveal.VisibleCountMonotone | public/js/console-viewer.js:43-54 | a later time never reveals fewer rows |
| Reveal.SeekAcrossEntryChangesCount | public/js/console-viewer.js:43-45 | moving the clock past an entry's offset strictly increases the number of revealed rows |
| RemoteObjects.RenderRemoteObject | public/js/console-viewer.js:114-137 | a missing argument reads "undefined"; strings and symbols are shown escaped inside their class span; numbers show their description or value unescaped, and bigints the same followed by "n"; booleans show their value; a function shows "ƒ " and its escaped name or "anonymous"; an object is rendered as an object; an unknown type shows its escaped description or value |
| RemoteObjects.RemoteObjectReadsBack | public/js/console-viewer.js:122-136 | in every escaping branch (string, symbol, function, unknown type) the rendering is a fixed prefix, a text with no tag characters, and a fixed suffix, and that text unescapes to exactly the shown value |
| RemoteObjects.RenderObject | public/js/console-viewer.js:140-161 | null, error, regexp and date objects show their fixed token or their escaped description; other objects show their preview under their class name when there is one, and otherwise their description, class name or "Object" |
| RemoteObjects.ObjectReadsBack | public/js/console-viewer.js:143-160 | an error, regexp, date or preview-less object reads back: the text between its fixed prefix and suffix has no tag characters and unescapes to exactly the shown label |
| RemoteObjects.RenderPreview | public/js/console-viewer.js:164-182 | an empty preview is the bare bracket pair; otherwise the text opens with the array or object bracket and closes with ", ..." exactly when the preview overflowed |
| RemoteObjects.ItemTexts | public/js/console-viewer.js:174-177 | one rendered item per property, in property order: the bare value in an array, the escaped name and ": " before it in an object |
| RemoteObjects.ItemsAreJoin | public/js/console-viewer.js:174-178 | the items from any index on are exactly their renderings joined by ", " |
| RemoteObjects.PreviewIsJoin | public/js/console-viewer.js:170-181 | a non-empty preview is exactly the opening bracket, every item whole and in order with one ", " between neighbours, the overflow marker, and the closing bracket |
| RemoteObjects.RenderPreviewValue | public/js/console-viewer.js:184-207 | a property with a nested preview shows that preview under its own description; otherwise a string is quoted and escaped, numbers, bigints and booleans show their value text raw inside their class span, undefined and functions show fixed tokens, null shows the null token, other objects their escaped description or "Object", and an unknown type its escaped value |
| RemoteObjects.PreviewValueReadsBack | public/js/console-viewer.js:189-206 | a string leaf, an object leaf and an unknown-type leaf read back: the text between the fixed prefix and suffix has no tag characters and unescapes to exactly the value shown |
| RemoteObjects.NestedPreviewInside | public/js/console-viewer.js:174-187 | a property's nested preview appears whole inside the joined items of its parent, right after the property's name part at that item's place in the join |
| RemoteObjects.EmptyPreviewDropsOverflow | public/js/console-viewer.js:165-167 | for an empty preview the overflow flag makes no difference to the output |
| RemoteObjects.OverflowMarker | public/js/console-viewer.js:180-181 | a non-empty preview ends in ", ..." and the closing bracket iff it overflowed |
| RemoteObjects.ItemsIgnoreOverflow | public/js/console-viewer.js:174-178 | the rendered items themselves do not depend on the overflow flag |
| RemoteObjects.ArrayItemsIgnoreNames | public/js/console-viewer.js:174-178 | an array preview's rendering does not depend on its property names (indices are not shown) |
| RemoteObjects.ObjectItemShowsName | public/js/console-viewer.js:177 | an object preview item starts with its escaped property name and a colon |
| StackFrames.ConsoleLocation | public/js/console-viewer.js:220-222 | a frame's location is the mapped source with its 1-based line and column when there is a mapped source, else the URL with its 1-based line and column when there is a URL, else empty |
| StackFrames.ConsoleLocationReadsBack | public/js/console-viewer.js:220-222 | the last two colon-separated fields of a location, mapped or raw, are numerals that read back as the line and column it shows plus one |
| StackFrames.ConsoleFrame | public/js/console-viewer.js:215-225 | an async-boundary frame renders only its escaped boundary label between dashes; any other frame renders as `at` with the escaped source-mapped name (else the function name) and its location |
| StackFrames.FrameLine | public/js/console-viewer.js:223-225 | a frame line opens with `at` and the escaped function name in its span and closes the frame div; the location span, holding the escaped location in parentheses, appears iff the location is non-empty |
| StackFrames.RenderStackTrace | public/js/console-viewer.js:210-229 | no frames render as nothing; otherwise the collapsible block holds the renderings of all frames, concatenated in order |
| StackFrames.StackTraceInOrder | public/js/console-viewer.js:213-227 | frame i's rendering sits right after the opening tags at the combined length of the frames before it, so every frame appears whole and in order with nothing in between |
| StackFrames.SourceMapWins | public/js/console-viewer.js:220-222 | with a mapped source, the raw URL, line and column have no effect on the rendered frame |
| StackFrames.PlusOne | public/js/console-viewer.js:221-222 | a missing position shows as "NaN", as `undefined + 1` does; a present position from -1 up is shown as a numeral that reads back as the position plus one, and a lower one with a minus sign |
| StackFrames.InitiatorLocation | public/js/network-viewer.js:492-494 | the initiator frame's location is the mapped source, else the URL, each followed by 1-based line and column where a missing position counts as 0, and is empty when there is neither |
| StackFrames.PlusOneOrFirst | public/js/network-viewer.js:493-494 | `(n \|\| 0) + 1`: a missing position shows as "1"; a position from -1 up reads back as itself plus one |
| StackFrames.InitiatorLocationReadsBack | public/js/network-viewer.js:492-494 | the last two colon-separated fields of an initiator location, mapped or raw, read back as the 1-based line and column, a missing position as 1 |
| StackFrames.RenderInitiatorStack | public/js/network-viewer.js:485-509 | the initiator stack renders as nothing iff it has no frames and no parent; without a parent it is the block of its frames in order; with one it is its frames, the parent's async marker (description or "async") and the parent's whole rendering, in one block |
| StackFrames.InitiatorStackLength | public/js/network-viewer.js:501-505 | every parent level adds its async marker, so the output grows at least linearly with the depth of the parent chain |
| TimeFormat.Field | public/js/console-viewer.js:74-76 | a padded field is all digits, exactly as wide as asked when the value fits, and reads back as the value |
| TimeFormat.MinSec | public/js/video-player.js:339-344 | "mm:ss" of a clamped time: digits around one colon, with a two-digit seconds field below 60 and a minutes field that is two digits or has no leading zero, whose minutes·60 + seconds equal the whole seconds; the network panel's offset label (`network-viewer.js`, lines 177-183) is the same function |
| TimeFormat.Clamp | public/js/video-player.js:340 | negative times count as zero and others are kept |
| ConsoleViewer.Init | public/js/console-viewer.js:21-32 | the entries are the records, each tagged with its offset from the recording start, in a stable ascending order by timestamp (a permutation of the input keeping equal-time records in input order); missing logs give none |
| ConsoleViewer.InitIsTheStableOrder | public/js/console-viewer.js:28 | any stable ascending arrangement of the annotated records is the one `Init` produces |
| ConsoleViewer.Level | public/js/console-viewer.js:239-246 | exceptions are errors; browser messages default to "info" and the rest to "log"; the level is never empty |
| ConsoleViewer.LevelLabel | public/js/console-viewer.js:248-254 | the badge reads EXCEPTION or BROWSER for those sources and otherwise has the level's length |
| ConsoleViewer.FilterLevel | public/js/console-viewer.js:256-262 | the facet tag is "exception" or "browser" for those sources and otherwise the level, defaulting to "log" |
| ConsoleViewer.SourceOverridesLevel | public/js/console-viewer.js:256-262 | for exception and browser records the recorded level has no effect on the facet |
| ConsoleViewer.LabelIsUpperTag | public/js/console-viewer.js:248-262 | for ordinary records the badge is the facet tag in upper case |
| ConsoleViewer.RenderLegacyArg | public/js/console-viewer.js:101-109 | null and undefined become their words; errors show their escaped message and stack; any other string and any number or boolean show as their escaped text; objects show their escaped serialisation; only a value `JSON.stringify` rejects is emitted raw |
| ConsoleViewer.RenderArgs | public/js/console-viewer.js:86-111 | exception and browser records show the escaped message; protocol and legacy argument arrays are their renderings joined by spaces; a non-array protocol `args` is its text raw when truthy and "" otherwise, a non-array legacy one its escaped text |
| ConsoleViewer.LegacyArgsEscaped | public/js/console-viewer.js:99-110 | when every legacy argument goes through escaping, the argument line contains no markup characters |
| ConsoleViewer.LegacyArgsSplitBack | public/js/console-viewer.js:100-110 | when no rendered argument contains a space, splitting the line on spaces recovers the arguments |
| ConsoleViewer.FormatTime | public/js/console-viewer.js:71-78 | "mm:ss.mmm" reads back: the minutes, seconds (below 60) and milliseconds fields recompose the clamped offset exactly, and the minutes field is two digits or has no leading zero |
| ConsoleViewer.Load | public/js/console-viewer.js:21-32 | loading yields one fresh row per entry, in ascending offset order, forgets the scroll position and keeps the chosen facet |
| ConsoleViewer.ApplyFilter | public/js/console-viewer.js:430-439 | time-hidden rows are left alone; a row is on screen afterwards iff the clock reached it and it matches the facet |
| ConsoleViewer.ApplyFilterIdempotent | public/js/console-viewer.js:430-439 | filtering twice with the same facet is the same as filtering once |
| ConsoleViewer.SetFilter | public/js/console-viewer.js:11-18 | a facet click remembers the facet, keeps the scroll position and re-filters the rows |
| ConsoleViewer.ScrollTarget | public/js/console-viewer.js:63-66 | the panel scrolls only when the last reached row differs from the one it last scrolled to, and then to that row |
| ConsoleViewer.RevealAtTime | public/js/console-viewer.js:34-69 | a row is time-hidden iff its offset is past t; the scroll target and remembered position follow the last reached row; the facet is kept |
| ConsoleViewer.RevealRow | public/js/console-viewer.js:39-61 | each row keeps its offset and tag and is active iff it is the highlighted row |
| ConsoleViewer.RevealHighlight | public/js/console-viewer.js:36-61 | at most one row is active: the first nearest reached row, and only within 1500 ms; none is active iff all reached rows are at least 1500 ms away |
| ConsoleViewer.RevealShown | public/js/console-viewer.js:39-68 | after a reveal exactly the reached rows that match the facet are on screen |
| ConsoleViewer.RevealLoop | public/js/console-viewer.js:34-69 | the source's single imperative pass computes the same panel and scroll target as the functional reveal |
| ConsoleViewer.ScanRows | public/js/console-viewer.js:39-57 | the loop sets each row's time flag, clears highlights, and finds the last reached row and the nearest reached row together with its distance |
| ConsoleViewer.RevealPathIndependent | public/js/console-viewer.js:39-54 | revealing t1 then t2 gives the same visibility, highlight and on-screen rows as revealing t2 directly |
| ConsoleViewer.RevealIdempotent | public/js/console-viewer.js:34-69 | revealing the same time twice changes nothing and does not scroll again |
| ConsoleViewer.RevealByFrame | public/js/console-viewer.js:34-69 | a reveal keeps the rows and facet, and its flags depend only on them and the time |
| NetworkViewer.RawEntries | public/js/network-viewer.js:41-46 | the entry list is the HAR `log.entries` when present, the bare array when given one, and empty otherwise |
| NetworkViewer.Offset | public/js/network-viewer.js:51-56 | a request's offset is taken from its wall time if truthy, else its timestamp if truthy, else 0 |
| NetworkViewer.Init | public/js/network-viewer.js:37-59 | the entries are the raw records with their offsets, a permutation in stable ascending order of offset |
| NetworkViewer.InitIsTheStableOrder | public/js/network-viewer.js:59 | records of equal offset keep their input order, and `Init` is the only such ascending order |
| NetworkViewer.FilterType | public/js/network-viewer.js:108-114 | the facet is "other" iff no table entry lists the resource type |
| NetworkViewer.FilterTypeIsFirstKey | public/js/network-viewer.js:110-112 | any other facet is the key of the first table entry that lists the resource type: that entry lists it and no earlier one does |
| NetworkViewer.FilterTypeTable | public/js/network-viewer.js:14-23 | the facet table spelled out: exactly which resource types land in fetch, doc, css, js, img, font, media, ws and other |
| NetworkViewer.Load | public/js/network-viewer.js:37-66 | loading yields one fresh row per entry in ascending offset order, nothing scrolled, the facet kept and the WebSocket count recorded |
| NetworkViewer.FilterRows | public/js/network-viewer.js:116-126 | time-hidden rows are left alone; a row is on screen afterwards iff the clock reached it and it matches the facet |
| NetworkViewer.CountIsShown | public/js/network-viewer.js:117-127 | the count the filter loop accumulates equals the number of rows on screen afterwards |
| NetworkViewer.Summary | public/js/network-viewer.js:130-139 | the summary begins "shown/total requests"; then comes " (facet)" unless the facet is "all"; it ends with " \| n WS" when there are n > 0 connections; with neither note it is just the counts; its length is exactly the counts plus the notes present, so nothing else is in it |
| NetworkViewer.SummaryReadsBack | public/js/network-viewer.js:133 | the number before the first slash of the summary reads back as the shown count |
| NetworkViewer.SummaryNotes | public/js/network-viewer.js:134-137 | the facet note appears iff the facet is not "all", and the WebSocket note iff there are connections |
| NetworkViewer.ApplyTypeFilter | public/js/network-viewer.js:116-128 | the rows are re-filtered without scrolling, and the summary's shown count is the number of matching reached rows |
| NetworkViewer.SetTypeFilter | public/js/network-viewer.js:26-33 | a facet click remembers the facet, shows exactly the reached rows whose type matches it, asks for no scroll, and sets the summary to the matching count out of all rows |
| NetworkViewer.TimeHidden | public/js/network-viewer.js:77-91 | reached rows are never time-hidden; unreached rows are hidden unless their detail pane is open, in which case they keep their flag |
| NetworkViewer.ScrollTarget | public/js/network-viewer.js:100-103 | the panel scrolls only when the last reached row is not the last row already counted visible, and then to that row |
| NetworkViewer.RevealAtTime | public/js/network-viewer.js:68-106 | each row's time flag follows `TimeHidden`; the visible count moves with the scroll target; facet and WebSocket count are kept; the summary counts the rows on screen |
| NetworkViewer.RevealRow | public/js/network-viewer.js:73-98 | each row keeps its offset, facet and detail state; it is active iff highlighted and on screen iff unhidden and matching |
| NetworkViewer.RevealHighlight | public/js/network-viewer.js:93-98 | the highlight follows the console panel's rule: at most one row, the nearest reached one, within 1500 ms |
| NetworkViewer.OpenDetailSurvivesSeekBack | public/js/network-viewer.js:86-91 | a row whose detail pane is open stays visible after a seek back before its offset |
| NetworkViewer.OpenDetailStaysVisible | public/js/network-viewer.js:86-91 | for any panel, row and time, a row on screen with its detail pane open is not time-hidden by a reveal, and its pane stays open |
| NetworkViewer.RevealWithoutOpenDetail | public/js/network-viewer.js:77-91 | with no detail pane open, a reveal hides exactly the rows past the clock |
| NetworkViewer.RevealByFrame | public/js/network-viewer.js:68-106 | two panels over the same rows show the same flags after a reveal; without open details the reveal keeps the frame |
| NetworkViewer.ToggleDetail | public/js/network-viewer.js:331-339 | a click closes the row's own pane if it was open; otherwise it opens it and closes every other pane; nothing else in the rows changes |
| NetworkViewer.ToggleKeepsOneOpen | public/js/network-viewer.js:338-339 | toggling keeps at most one detail pane open |
| NetworkDetail.FormatSize | public/js/network-viewer.js:141-146 | a missing or non-positive size shows as a dash; sizes below 1024 are shown in bytes, below 1024² in KB, and from there on in MB, always of the given size |
| NetworkDetail.ByteSizeText | public/js/network-viewer.js:142-143 | the dash and the "n B" texts are produced exactly; the KB and MB texts are not modelled |
| NetworkDetail.FormatSizeMonotone | public/js/network-viewer.js:141-146 | a larger size never gets a smaller unit |
| NetworkDetail.StatusClass | public/js/network-viewer.js:148-154 | a falsy status is class 0; 2xx, 3xx and 4xx map to their class; everything else, including 1xx, maps to 5xx |
| NetworkDetail.StatusClassIsHundreds | public/js/network-viewer.js:150-153 | for statuses 200-599 the class names the status's hundreds digit |
| NetworkDetail.RequestHeaders | public/js/network-viewer.js:367 | the request block's headers are used when truthy, else the entry's own |
| NetworkDetail.FormatHeaders | public/js/network-viewer.js:166-175 | missing headers read "(none)"; a list is one "name: value" line per header; a primitive is its text |
| NetworkDetail.HeaderLinesSplitBack | public/js/network-viewer.js:168-170 | without line breaks in names or values, splitting the header text on newlines gives one line per header |
| NetworkDetail.ThreeQuarters | public/js/network-viewer.js:545 | `Math.round(n * 0.75)`: the integer nearest to 3n/4, with halves rounded up |
| NetworkDetail.BodyText | public/js/network-viewer.js:553-561 | the pretty-printed JSON exactly when the MIME type mentions JSON and the text parses; the raw text otherwise |
| NetworkDetail.RenderResponseBody | public/js/network-viewer.js:543-575 | base64 bodies show only an estimated size; text bodies are shown escaped, with no tag characters, and unescape to the body cut at 10240 characters (escaping that again gives back the shown text); they offer "Show full" with the full size exactly when cut |
| NetworkDetail.DisplayedPrefix | public/js/network-viewer.js:563-569 | a text body within the cap is shown whole; a longer one shows exactly its first 10240 characters |
| NetworkDetail.CurlMethod | public/js/network-viewer.js:514 | the cURL method is the request block's when non-empty, else the entry's when non-empty, else GET; never empty |
| NetworkDetail.HeaderList | public/js/network-viewer.js:522-526 | a header list (an array, or an object's entries in order) is used as is; a non-string primitive header value contributes no headers |
| NetworkDetail.HeaderArg | public/js/network-viewer.js:528 | a header argument is `-H` followed by one shell word whose value is exactly "name: value" |
| NetworkDetail.HeaderArgsAgree | public/js/network-viewer.js:528 | for a header name without a single quote, the corrected argument is the same text the source produces |
| NetworkDetail.HeaderNameQuoteBreaks | public/js/network-viewer.js:528 | with the header name "a'b", the argument as the source writes it is not a well-formed quoted word |
| NetworkDetail.CurlPostData | public/js/network-viewer.js:533-535 | an object post body (a null one included) gives its text and never falls back to the entry's; a non-empty string body is used as is; an empty or missing one falls back to the entry's post body |
| NetworkDetail.CurlParts | public/js/network-viewer.js:511-538 | the arguments in order: curl and the quoted URL, `-X method` unless GET, one `-H` per header, and `--data-raw` with the quoted body when there is one |
| NetworkDetail.MethodFlagIffNotGet | public/js/network-viewer.js:517-519 | some argument is a `-X` flag iff the method is not GET |
| NetworkDetail.CurlWordsRoundTrip | public/js/network-viewer.js:515-537 | the shell reads the URL argument and the body argument back as exactly the URL and the body |
| NetworkDetail.GenerateCurl | public/js/network-viewer.js:511-541 | the command starts with curl and the quoted URL; it is that single argument iff there are no others, and otherwise the next argument follows after a backslash-newline continuation and a two-space indent |
| NetworkDetail.CurlLayout | public/js/network-viewer.js:540 | every argument appears whole and in order in the command, at the combined length of the earlier arguments and separators, with exactly one continuation between neighbours |
| NetworkDetail.GenerateCurlAsWritten | public/js/network-viewer.js:511-541 | the command as the source builds it, header names unescaped, is the same text as the corrected command whenever no header name contains a single quote |
| NetworkDetail.TruncatePayload | public/js/network-viewer.js:317-318 | payloads up to 200 characters are kept; longer ones become their first 200 characters followed by "..." |
| NetworkDetail.FrameTableOf | public/js/network-viewer.js:308-323 | the table shows the first min(n, 100) frames, each with its direction and its capped payload shown escaped (no tag characters, unescaping to the capped payload, and escaping back to the shown text), and counts the remaining frames |
| TimelineSync.Calls | public/js/timeline-sync.js:8-11 | each player event reveals the console panel, then the network panel, at the event's time |
| TimelineSync.SameHandler | public/js/timeline-sync.js:8-17 | a tick and a seek to the same time trigger the same calls |
| TimelineSync.Step | public/js/timeline-sync.js:8-17 | after one event each panel is what its reveal at the event's time produces |
| TimelineSync.ConsoleLastEventWins | public/js/timeline-sync.js:8-17 | after any run of events the console panel shows exactly what one reveal at the last event's time shows |
| TimelineSync.NetworkLastEventWins | public/js/timeline-sync.js:8-17 | the same holds for the network panel when no detail pane is open |
| VideoPlayer.FanOut | public/js/video-player.js:51-57 | every registered listener is called once, in registration order, with the same time |
| VideoPlayer.OnTimeUpdate | public/js/video-player.js:292-298 | a time update within 250 ms of the last fan-out is dropped; otherwise it records the instant and calls every time listener with the playhead |
| VideoPlayer.OnSeeked | public/js/video-player.js:300-303 | a seek is never throttled: every seek listener is called with the playhead |
| VideoPlayer.Emissions | public/js/video-player.js:292-298 | fan-outs happen only at event instants, at least 250 ms apart, and there is one iff some event comes 250 ms after the last fan-out |
| VideoPlayer.FiredAreEmissions | public/js/video-player.js:292-298 | feeding events one by one through the handler fans out at exactly those instants |
| VideoPlayer.SeekTo | public/js/video-player.js:47-49 | a seek to a negative time lands at the start |
| VideoPlayer.ArrowSeek | public/js/video-player.js:261-268 | Right adds 5 s (10 s with Shift) to the playhead, clamped at 0; Left subtracts the step when the playhead is at least that far in and otherwise goes to 0 |
| VideoPlayer.ArrowRoundTrip | public/js/video-player.js:261-268 | forward then back returns to the playhead; back then forward does too unless the start was hit |
| VideoPlayer.DurationMs | public/js/video-player.js:76-80 | the media's own duration is used when finite and positive, else the recording's known duration |
| VideoPlayer.DurationSources | public/js/video-player.js:76-80 | the effective duration is positive iff the media's or the recording's is; once the media reports a positive duration the recording's no longer matters; it is always one of the two |
| VideoPlayer.OnBar | public/js/video-player.js:326-327 | the test `pct < 0 \|\| pct > 100` skips exactly the markers outside the recording |
| VideoPlayer.RenderMarkers | public/js/video-player.js:319-335 | no duration or no markers gives no dots; otherwise every marker inside the recording gets a dot and every dot belongs to such a marker |
| Viewer.RecordingId | public/js/viewer.js:21-27 | the id is a non-empty, slash-free segment of the path: the last one, or the one before a trailing slash; it is missing exactly when both are empty |
| Viewer.RecordingIdOfViewPath | public/js/viewer.js:21-22 | the address `/view/<id>`, with or without a trailing slash, yields `<id>` |
| Viewer.FormatDuration | public/js/viewer.js:120-126 | a missing (zero) duration gives an empty label, and every other duration gives a non-empty one |
| Viewer.DurationReadsBack | public/js/viewer.js:120-126 | a positive duration's label splits into an "Nm" and an "Ns" field whose values recompose the whole seconds, with the seconds below 60 |
| Viewer.ErrorText | public/js/viewer.js:87 | an error marker's text is "Error: " followed by the start of the message, or else of the first argument's description, of length exactly the smaller of 80 and that text's length |
| Viewer.FirstArgDescription | public/js/viewer.js:87 | for protocol-format records, the first argument's description when every link of the optional chain exists, and "" when any is missing |
| Viewer.ConsoleMarkers | public/js/viewer.js:80-90 | exactly the error-level console entries get a marker |
| Viewer.RequestText | public/js/viewer.js:94-99 | a request marker's text is the start of "method url", of length exactly the smaller of 80 and that text's length |
| Viewer.NetworkMarkers | public/js/viewer.js:93-101 | every request gets one marker, in entry order |
| Viewer.Markers | public/js/viewer.js:77-103 | the player's marker list is the console error markers first, in their order, then one marker per request with request i at the position just after the error markers plus i |
| Viewer.MarkersContents | public/js/viewer.js:77-103 | every request and every error has its marker, and every marker is red (an error) or blue (a request) |
| Viewer.TimelineDots | public/js/viewer.js:76-104 | on a timeline of positive length every request and error inside the recording gets a dot, and every dot is red or blue |

## Left out

- DOM construction, event wiring, `innerHTML` and `scrollIntoView`. Rows are modelled as their class flags, and scrolling as a returned row index.
- The player's controls: clicks, play/pause, speed, volume, bar dragging, tooltips and mouse seeking. Also `_updateProgress`. These are presentation only.
- `toFixed` number formatting. `NetworkDetail.FormatSize` keeps the choice of unit and the value it formats, not the decimal text, because floating-point printing is out of scope.
- `JSON.parse` and `JSON.stringify`. They are taken as inputs: the pretty-printed body or `None` when parsing throws, and a legacy object's serialisation or `None` when serialising fails.
- `_truncateUrl`, the status, type, size and time cell texts of a network row, and the redirect-chain and timing sections of the detail pane. These are display text with no behaviour the panel depends on.
- Date parsing, `fetch` of the recording, clipboard writes and `setTimeout`. These are I/O. `performance.now()` is an integer parameter.
- NetworkViewer.Offset: `wallTime` and `timestamp` are taken as whole milliseconds, with the source's seconds-to-milliseconds scaling already applied, because fractional seconds are out of scope.
- Fractional times. Every time is an integer number of milliseconds, and `_getDurationSec` is modelled in milliseconds.
- NaN timestamps.
- The console detail pane (`_toggleDetail`, `public/js/console-viewer.js:333-407`), `_renderFullRemoteObject` and the source-location span of a console row (302-316). These are display-only.
- The `_renderInitiator` wrapper around the initiator stack.
- Text.UpperAscii: upper-cases only the ASCII letters, because facet tags and levels are ASCII words.
- Viewer.FirstArgDescription: legacy-format arguments carry no `description` field in the model, so a legacy record whose first argument is an object with a `description` gives "" where the source gives that description.
- NetworkDetail.HeaderList: headers given as a string are not told apart from other primitives. `Object.entries` of a string yields one header per character (its index as the name); the model gives no headers for any primitive.
- A `postData` of a type other than string or object.
- The WebSocket detail toggle and its DOM. Only the frame table's content is modelled.
- `server.js`, `routes/` and `storage/`. The server side is not part of this model.
- A row's initial flags. Freshly built rows start neither time-hidden nor filter-hidden, until the first reveal.
- Text.Take: lengths count Unicode scalar values, not the UTF-16 code units JavaScript's `slice` counts, so text outside the Basic Multilingual Plane is cut at a different place.
- NetworkDetail.RenderResponseBody: the 10240-character cap counts Unicode scalar values, not UTF-16 code units.
- NetworkDetail.DisplayedPrefix: the displayed prefix counts Unicode scalar values, not UTF-16 code units.
- NetworkDetail.TruncatePayload: the 200-character cap counts Unicode scalar values, not UTF-16 code units.
- Viewer.ErrorText: the 80-character cap counts Unicode scalar values, not UTF-16 code units.
- Viewer.RequestText: the 80-character cap counts Unicode scalar values, not UTF-16 code units.
- NetworkDetail.CurlParts: builds each `-H` argument with the corrected quoting of the Findings section. For a header name containing `'` its text differs from the source's line 528. NetworkDetail.GenerateCurlAsWritten is the source's text.
- NetworkDetail.GenerateCurl: joins the corrected arguments, so it differs from the source's command exactly when a header name contains `'`. NetworkDetail.GenerateCurlAsWritten proves the two agree otherwise.
- NetworkViewer.SummaryNotes: the "iff" is stated for facets without `(` or `|`, which holds for every facet of the table. NetworkViewer.Summary states the whole text for every facet.
- TimelineSync.NetworkLastEventWins: holds only without open detail panes, because with an open pane the network panel keeps rows visible that an earlier reveal showed.

## Findings

| source | as written | input that shows it | evidently intended | confidence | as-written member | corrected member |
|---|---|---|---|---|---|---|
| public/js/network-viewer.js:528 | the `-H` argument places the header name inside the opening single quote but escapes only the value's quotes | a header named `a'b` with value `v` gives `-H 'a'b: v'`, which leaves an unterminated quote; RFC 9110 section 5.6.2 allows `'` in a header name | quote the whole "name: value" with every `'` written as `'\''`, as the URL and body are quoted (POSIX.1-2017 Shell Command Language, section 2.2.2) | not executed | NetworkDetail.HeaderArgAsWritten (shown broken by NetworkDetail.HeaderNameQuoteBreaks) | NetworkDetail.HeaderArg (equal to the source for quote-free names, NetworkDetail.HeaderArgsAgree and NetworkDetail.GenerateCurlAsWritten; used by NetworkDetail.CurlParts) |

=== FILE: console_viewer.dfy ===
/**
 * The console panel: normalising captured console records onto the video
 * clock, tagging them by level, rendering their arguments, and the
 * reveal/filter state of the rendered rows.
 *
 * A record is either in the protocol format (it carries a `source`: the
 * arguments are `Runtime.RemoteObject`s) or in the legacy format (plain
 * JSON values).
 */
module ConsoleViewer {

  import opened JsValues
  import opened Text
  import opened StableSort
  import opened Reveal
  import opened RemoteObjects
  import opened StackFrames
  import opened TimeFormat

  // ---------------------------------------------------------------------------
  // Records
  // ---------------------------------------------------------------------------

  /** A legacy argument: a plain JSON value as captured. */
  datatype PlainValue =
    | PNull
    | PUndefined
    | PString(s: string)
    | PError(message: Option<string>, stack: string)    // an object with `type: "Error"`
    | PObject(json: Option<string>, text: string)       // `JSON.stringify`, None when it throws; `String(arg)`
    | PScalar(text: string)                             // a number or boolean, as `String(arg)`

  /** The `args` field: an array, or some other value (its `String()` form and its truthiness). */
  datatype Args<T> = Items(items: seq<T>) | NotArray(text: string, truthy: bool)

  datatype Format =
    | Legacy(plain: Args<PlainValue>)
    | Protocol(source: string, remote: Args<Option<RemoteObject>>)

  /** A captured console record; `level` and `message` are "" when absent. */
  datatype ConsoleRecord = ConsoleRecord(
    timestamp: int,
    level: string,
    message: string,
    format: Format,
    stackTrace: seq<CallFrame>)

  /** A record placed on the video clock. */
  datatype ConsoleEntry = ConsoleEntry(record: ConsoleRecord, relativeMs: int)

  // ---------------------------------------------------------------------------
  // Normalisation (`init`)
  // ---------------------------------------------------------------------------

  function ByTimestamp(e: ConsoleEntry): int
  {
    e.record.timestamp
  }

  /** Every record with its offset from the recording start, in input order. */
  function Annotate(logs: seq<ConsoleRecord>, startTime: int): (r: seq<ConsoleEntry>)
    ensures |r| == |logs|
    ensures forall i :: 0 <= i < |r| ==> r[i].record == logs[i]
    ensures forall i :: 0 <= i < |r| ==> r[i].relativeMs == logs[i].timestamp - startTime
  {
    seq(|logs|, i requires 0 <= i < |logs| => ConsoleEntry(logs[i], logs[i].timestamp - startTime))
  }

  function EntryRels(es: seq<ConsoleEntry>): (r: seq<int>)
    ensures |r| == |es| && forall i :: 0 <= i < |es| ==> r[i] == es[i].relativeMs
  {
    seq(|es|, i requires 0 <= i < |es| => es[i].relativeMs)
  }

  /**
   * `init`: a missing log list reads as empty; every record gets
   * `relativeMs = timestamp - startTime`; the result is the input stably
   * sorted by timestamp, hence also ascending in `relativeMs`.
   */
  function Init(logs: Option<seq<ConsoleRecord>>, startTime: int): (r: seq<ConsoleEntry>)
    ensures logs.None? ==> r == []
    ensures |r| == |logs.GetOr([])|
    ensures multiset(r) == multiset(Annotate(logs.GetOr([]), startTime))
    ensures forall i :: 0 <= i < |r| ==> r[i].relativeMs == r[i].record.timestamp - startTime
    ensures Sorted(r, ByTimestamp)
    ensures Ascending(EntryRels(r))
    ensures forall k :: WithKey(r, ByTimestamp, k) == WithKey(Annotate(logs.GetOr([]), startTime), ByTimestamp, k)
  {
    var a := Annotate(logs.GetOr([]), startTime);
    var r := Sort(a, ByTimestamp);
    OffsetsKept(a, r, startTime);
    r
  }

  /** A permutation of offset-annotated entries is still offset-annotated, and sorted by time it is ascending. */
  lemma OffsetsKept(a: seq<ConsoleEntry>, r: seq<ConsoleEntry>, startTime: int)
    requires forall i :: 0 <= i < |a| ==> a[i].relativeMs == a[i].record.timestamp - startTime
    requires multiset(r) == multiset(a)
    requires Sorted(r, ByTimestamp)
    ensures forall i :: 0 <= i < |r| ==> r[i].relativeMs == r[i].record.timestamp - startTime
    ensures Ascending(EntryRels(r))
  {
    forall i | 0 <= i < |r| ensures r[i].relativeMs == r[i].record.timestamp - startTime {
      assert r[i] in multiset(r);
      assert r[i] in a;
      var j :| 0 <= j < |a| && a[j] == r[i];
    }
    var rel := EntryRels(r);
    forall i, j | 0 <= i < j < |rel| ensures rel[i] <= rel[j] {
      assert ByTimestamp(r[i]) <= ByTimestamp(r[j]);
    }
  }

  /** Any stable ascending ordering of the annotated records is the one `Init` produces. */
  lemma InitIsTheStableOrder(logs: seq<ConsoleRecord>, startTime: int, r: seq<ConsoleEntry>)
    requires Sorted(r, ByTimestamp)
    requires forall k :: WithKey(r, ByTimestamp, k) == WithKey(Annotate(logs, startTime), ByTimestamp, k)
    ensures r == Init(Some(logs), startTime)
  {
    StableSortIsUnique(Annotate(logs, startTime), r, ByTimestamp);
  }

  // ---------------------------------------------------------------------------
  // Levels and facet tags
  // ---------------------------------------------------------------------------

  predicate IsException(rec: ConsoleRecord)
  {
    rec.format.Protocol? && rec.format.source == "exception"
  }

  predicate IsBrowser(rec: ConsoleRecord)
  {
    rec.format.Protocol? && rec.format.source == "browser"
  }

  /** `_getLevel`: exceptions are errors; browser messages default to "info", others to "log". */
  function Level(rec: ConsoleRecord): (r: string)
    ensures r != ""
    ensures IsException(rec) ==> r == "error"
    ensures IsBrowser(rec) ==> r == OrStr(rec.level, "info")
    ensures !IsException(rec) && !IsBrowser(rec) ==> r == OrStr(rec.level, "log")
  {
    if IsException(rec) then "error"
    else if IsBrowser(rec) then OrStr(rec.level, "info")
    else OrStr(rec.level, "log")
  }

  /** `_getLevelLabel`: the badge text. */
  function LevelLabel(rec: ConsoleRecord): (r: string)
    ensures IsException(rec) ==> r == "EXCEPTION"
    ensures IsBrowser(rec) ==> r == "BROWSER"
    ensures |r| == |Level(rec)| || IsException(rec) || IsBrowser(rec)
  {
    if IsException(rec) then "EXCEPTION"
    else if IsBrowser(rec) then "BROWSER"
    else UpperAscii(OrStr(Level(rec), "log"))
  }

  /** `_getFilterLevel`: the facet tag; the source takes precedence over the level. */
  function FilterLevel(rec: ConsoleRecord): (r: string)
    ensures r != ""
    ensures IsException(rec) ==> r == "exception"
    ensures IsBrowser(rec) ==> r == "browser"
    ensures !IsException(rec) && !IsBrowser(rec) ==> r == OrStr(rec.level, "log")
  {
    if IsException(rec) then "exception"
    else if IsBrowser(rec) then "browser"
    else Level(rec)
  }

  /** For exception and browser records the tag ignores the recorded level. */
  lemma SourceOverridesLevel(rec: ConsoleRecord, level: string)
    requires IsException(rec) || IsBrowser(rec)
    ensures FilterLevel(rec.(level := level)) == FilterLevel(rec)
  {
  }

  /** Elsewhere the badge is the tag in upper case. */
  lemma LabelIsUpperTag(rec: ConsoleRecord)
    requires !IsException(rec) && !IsBrowser(rec)
    ensures LevelLabel(rec) == UpperAscii(FilterLevel(rec))
  {
  }

  // ---------------------------------------------------------------------------
  // Arguments (`_renderArgs`)
  // ---------------------------------------------------------------------------

  /** One legacy argument. Only a value `JSON.stringify` rejects is emitted unescaped. */
  function RenderLegacyArg(v: PlainValue): (r: string)
    ensures v.PNull? ==> r == "null"
    ensures v.PUndefined? || v == PString("undefined") ==> r == "undefined"
    ensures v.PString? && v.s != "undefined" ==> r == EscapeHtml(v.s)
    ensures v.PScalar? ==> r == EscapeHtml(v.text)
    ensures v.PError? ==> r == EscapeHtml(ToStr(v.message) + "\n" + v.stack)
    ensures v.PObject? && v.json.Some? ==> r == EscapeHtml(v.json.value)
    ensures v.PObject? && v.json.None? ==> r == v.text
    ensures !(v.PObject? && v.json.None?) ==> NoTagChars(r)
  {
    match v
    case PNull => "null"
    case PUndefined => "undefined"
    case PString(s) => if s == "undefined" then "undefined" else EscapeHtml(s)
    case PError(message, stack) => EscapeHtml(ToStr(message) + "\n" + stack)
    case PObject(json, text) => if json.Some? then EscapeHtml(json.value) else text
    case PScalar(text) => EscapeHtml(text)
  }

  function LegacyParts(xs: seq<PlainValue>): (r: seq<string>)
    ensures |r| == |xs| && forall i :: 0 <= i < |xs| ==> r[i] == RenderLegacyArg(xs[i])
  {
    seq(|xs|, i requires 0 <= i < |xs| => RenderLegacyArg(xs[i]))
  }

  function RemoteParts(xs: seq<Option<RemoteObject>>): (r: seq<string>)
    ensures |r| == |xs| && forall i :: 0 <= i < |xs| ==> r[i] == RenderRemoteObject(xs[i])
  {
    seq(|xs|, i requires 0 <= i < |xs| => RenderRemoteObject(xs[i]))
  }

  /**
   * `_renderArgs`: exception and browser records show their escaped message;
   * other protocol records join their rendered RemoteObjects with spaces (a
   * non-array `args` is emitted raw); legacy records join their rendered
   * plain values with spaces (a non-array is escaped).
   */
  function RenderArgs(rec: ConsoleRecord): (r: string)
    ensures IsException(rec) || IsBrowser(rec) ==> r == EscapeHtml(rec.message)
    ensures rec.format.Protocol? && !IsException(rec) && !IsBrowser(rec) && rec.format.remote.Items? ==>
              r == Join(RemoteParts(rec.format.remote.items), " ")
    ensures rec.format.Protocol? && !IsException(rec) && !IsBrowser(rec) && rec.format.remote.NotArray? ==>
              r == (if rec.format.remote.truthy then rec.format.remote.text else "")
    ensures rec.format.Legacy? && rec.format.plain.Items? ==> r == Join(LegacyParts(rec.format.plain.items), " ")
    ensures rec.format.Legacy? && rec.format.plain.NotArray? ==> r == EscapeHtml(rec.format.plain.text)
  {
    match rec.format
    case Protocol(source, remote) =>
      if source == "exception" || source == "browser" then EscapeHtml(rec.message)
      else (match remote
            case NotArray(text, truthy) => if truthy then text else ""
            case Items(xs) => Join(RemoteParts(xs), " "))
    case Legacy(plain) =>
      match plain
      case NotArray(text, _) => EscapeHtml(text)
      case Items(xs) => Join(LegacyParts(xs), " ")
  }

  /** Legacy arguments that all go through the escaping routine yield markup-free text. */
  lemma LegacyArgsEscaped(rec: ConsoleRecord)
    requires rec.format.Legacy? && rec.format.plain.Items?
    requires forall i :: 0 <= i < |rec.format.plain.items| ==>
               !(rec.format.plain.items[i].PObject? && rec.format.plain.items[i].json.None?)
    ensures NoTagChars(RenderArgs(rec))
  {
    JoinNoTagChars(LegacyParts(rec.format.plain.items), " ");
  }

  /** When no rendered argument contains a space, splitting the line on spaces gives the arguments back. */
  lemma LegacyArgsSplitBack(rec: ConsoleRecord)
    requires rec.format.Legacy? && rec.format.plain.Items?
    requires forall i :: 0 <= i < |rec.format.plain.items| ==> ' ' !in RenderLegacyArg(rec.format.plain.items[i])
    requires |rec.format.plain.items| > 0
    ensures Split(RenderArgs(rec), ' ') == LegacyParts(rec.format.plain.items)
  {
    SplitJoin(LegacyParts(rec.format.plain.items), ' ');
  }

  // ---------------------------------------------------------------------------
  // Clock label (`_formatTime`)
  // ---------------------------------------------------------------------------

  /** "mm:ss.mmm" for an offset; negative offsets show as zero. */
  function FormatTime(relativeMs: int): (r: string)
    ensures MillisLabelOf(r, Clamp(relativeMs))
  {
    FormatTimeLabel(relativeMs);
    MinSec(relativeMs) + "." + Field(Clamp(relativeMs) % 1000, 3)
  }

  lemma FormatTimeLabel(ms: int)
    ensures MillisLabelOf(MinSec(ms) + "." + Field(Clamp(ms) % 1000, 3), Clamp(ms))
  {
    var m := Clamp(ms);
    var millis := Field(m % 1000, 3);
    MillisField(m);
    MillisLabel(MinSec(ms), millis, m);
  }

  // ---------------------------------------------------------------------------
  // Rows: reveal and facet filter
  // ---------------------------------------------------------------------------

  /** A rendered row's state: its offset, its facet tag and its three class flags. */
  datatype Row = Row(relativeMs: int, tag: string, timeHidden: bool, filterHidden: bool, active: bool)

  /** The panel: its rows, the last row scrolled to (-1 for none) and the chosen facet. */
  datatype Panel = Panel(rows: seq<Row>, visibleUpTo: int, activeFilter: string)

  /** What a reveal produces: the new panel and the row to scroll into view, if any. */
  datatype RevealOutcome = RevealOutcome(panel: Panel, scroll: Option<nat>)

  function Rels(rows: seq<Row>): (r: seq<int>)
    ensures |r| == |rows| && forall i :: 0 <= i < |rows| ==> r[i] == rows[i].relativeMs
  {
    seq(|rows|, i requires 0 <= i < |rows| => rows[i].relativeMs)
  }

  /** A panel before any recording is loaded. */
  const EmptyPanel: Panel := Panel([], -1, "all")

  /** `init` followed by `_buildDOM`: fresh rows, nothing scrolled to, the facet kept. */
  function Load(p: Panel, logs: Option<seq<ConsoleRecord>>, startTime: int): (q: Panel)
    ensures q.activeFilter == p.activeFilter && q.visibleUpTo == -1
    ensures |q.rows| == |Init(logs, startTime)|
    ensures forall i :: 0 <= i < |q.rows| ==>
              var e := Init(logs, startTime)[i];
              q.rows[i] == Row(e.relativeMs, FilterLevel(e.record), false, false, false)
    ensures Ascending(Rels(q.rows))
  {
    var es := Init(logs, startTime);
    var rows := seq(|es|, i requires 0 <= i < |es| => Row(es[i].relativeMs, FilterLevel(es[i].record), false, false, false));
    assert Rels(rows) == EntryRels(es);
    Panel(rows, -1, p.activeFilter)
  }

  /** Shown on screen: neither time-hidden nor filter-hidden. */
  predicate Shown(row: Row)
  {
    !row.timeHidden && !row.filterHidden
  }

  /**
   * `_applyFilter`: rows the clock has hidden are skipped; every other row is
   * filter-hidden exactly when it does not match the facet. Nothing else changes.
   */
  function ApplyFilter(rows: seq<Row>, filter: string): (r: seq<Row>)
    ensures |r| == |rows|
    ensures forall i :: 0 <= i < |rows| && rows[i].timeHidden ==> r[i] == rows[i]
    ensures forall i :: 0 <= i < |rows| && !rows[i].timeHidden ==>
              r[i] == rows[i].(filterHidden := !Matches(rows[i].tag, filter))
    ensures forall i :: 0 <= i < |rows| ==> (Shown(r[i]) <==> !rows[i].timeHidden && Matches(rows[i].tag, filter))
  {
    seq(|rows|, i requires 0 <= i < |rows| =>
      if rows[i].timeHidden then rows[i] else rows[i].(filterHidden := !Matches(rows[i].tag, filter)))
  }

  lemma ApplyFilterIdempotent(rows: seq<Row>, filter: string)
    ensures ApplyFilter(ApplyFilter(rows, filter), filter) == ApplyFilter(rows, filter)
  {
  }

  /** A click on a facet button: remember the facet and re-filter. */
  function SetFilter(p: Panel, filter: string): (q: Panel)
    ensures q.activeFilter == filter && q.visibleUpTo == p.visibleUpTo
    ensures q.rows == ApplyFilter(p.rows, filter)
  {
    p.(activeFilter := filter, rows := ApplyFilter(p.rows, filter))
  }

  /** The rows after the scan, before the filter: time flags set, the active flag on `active` only. */
  function Scanned(rows: seq<Row>, t: int, active: Option<nat>): (r: seq<Row>)
    ensures |r| == |rows|
    ensures forall i :: 0 <= i < |rows| ==>
              r[i] == rows[i].(timeHidden := rows[i].relativeMs > t, active := active == Some(i))
  {
    seq(|rows|, i requires 0 <= i < |rows| =>
      rows[i].(timeHidden := rows[i].relativeMs > t, active := active == Some(i)))
  }

  /** The scroll target moves only when the last reached row differs from the last one scrolled to. */
  function ScrollTarget(last: Option<nat>, visibleUpTo: int): (r: Option<nat>)
    ensures r.Some? <==> last.Some? && last.value != visibleUpTo
    ensures r.Some? ==> r == last
  {
    if last.Some? && last.value != visibleUpTo then last else None
  }

  /**
   * `revealAtTime(t)`: row `i` is time-hidden iff its offset is past `t`; the
   * scroll target moves only when the last reached row changes; the facet is
   * re-applied afterwards. The highlight is described by `RevealHighlight`
   * and the on-screen rows by `RevealShown`.
   */
  function RevealAtTime(p: Panel, t: int): (r: RevealOutcome)
    ensures |r.panel.rows| == |p.rows| && r.panel.activeFilter == p.activeFilter
    ensures forall i :: 0 <= i < |p.rows| ==> (r.panel.rows[i].timeHidden <==> p.rows[i].relativeMs > t)
    ensures r.scroll == ScrollTarget(LastVisible(Rels(p.rows), t), p.visibleUpTo)
    ensures r.panel.visibleUpTo == if r.scroll.Some? then r.scroll.value else p.visibleUpTo
  {
    var rel := Rels(p.rows);
    var scroll := ScrollTarget(LastVisible(rel, t), p.visibleUpTo);
    var rows := ApplyFilter(Scanned(p.rows, t, Active(rel, t)), p.activeFilter);
    RevealOutcome(Panel(rows, if scroll.Some? then scroll.value else p.visibleUpTo, p.activeFilter), scroll)
  }

  /** Each row keeps its offset and tag; its active flag is set iff it is the highlighted row. */
  lemma RevealRow(p: Panel, t: int, i: nat)
    requires i < |p.rows|
    ensures var row := RevealAtTime(p, t).panel.rows[i];
            && row.relativeMs == p.rows[i].relativeMs && row.tag == p.rows[i].tag
            && (row.active <==> Active(Rels(p.rows), t) == Some(i))
            && (row.timeHidden ==> row.filterHidden == p.rows[i].filterHidden)
            && (Shown(row) <==> p.rows[i].relativeMs <= t && Matches(p.rows[i].tag, p.activeFilter))
  {
    var s := Scanned(p.rows, t, Active(Rels(p.rows), t));
    assert s[i] == p.rows[i].(timeHidden := p.rows[i].relativeMs > t, active := Active(Rels(p.rows), t) == Some(i));
  }

  /**
   * At most one row is active: the first reached row nearest to `t`, and only
   * when it is within 1500 ms; no row is active iff every reached row is at
   * least 1500 ms away.
   */
  lemma RevealHighlight(p: Panel, t: int)
    ensures var rows := RevealAtTime(p, t).panel.rows;
            && (forall i :: 0 <= i < |rows| && rows[i].active ==>
                  IsNearest(Rels(p.rows), t, i) && Dist(p.rows[i].relativeMs, t) < ActiveWindowMs)
            && (forall i, j :: 0 <= i < j < |rows| ==> !(rows[i].active && rows[j].active))
            && ((forall i :: 0 <= i < |rows| ==> !rows[i].active) <==>
                (forall i :: 0 <= i < |p.rows| && p.rows[i].relativeMs <= t ==> Dist(p.rows[i].relativeMs, t) >= ActiveWindowMs))
  {
    var rows := RevealAtTime(p, t).panel.rows;
    var act := Active(Rels(p.rows), t);
    forall i | 0 <= i < |rows| ensures rows[i].active <==> act == Some(i) {
      RevealRow(p, t, i);
    }
  }

  /** On screen after a reveal: exactly the reached rows that match the facet. */
  lemma RevealShown(p: Panel, t: int)
    ensures var rows := RevealAtTime(p, t).panel.rows;
            forall i :: 0 <= i < |rows| ==>
              (Shown(rows[i]) <==> p.rows[i].relativeMs <= t && Matches(p.rows[i].tag, p.activeFilter))
  {
    var rows := RevealAtTime(p, t).panel.rows;
    forall i | 0 <= i < |rows|
      ensures Shown(rows[i]) <==> p.rows[i].relativeMs <= t && Matches(p.rows[i].tag, p.activeFilter)
    {
      RevealRow(p, t, i);
    }
  }

  /** `-1` for no index, as the scan keeps it. */
  function IndexOr(o: Option<nat>): (r: int)
    ensures o.None? ==> r == -1
    ensures o.Some? ==> r == o.value
  {
    if o.Some? then o.value else -1
  }

  /**
   * The scan as written: one pass keeping the last reached index and the
   * nearest reached index with its distance (`Infinity` until a row is
   * reached), then the highlight, the scroll and the filter.
   */
  method RevealLoop(p: Panel, t: int) returns (q: Panel, scroll: Option<nat>)
    ensures RevealOutcome(q, scroll) == RevealAtTime(p, t)
  {
    ghost var rel := Rels(p.rows);
    var rows, lastVisible, closestIdx, closestDist := ScanRows(p.rows, t);
    if closestIdx >= 0 && closestDist < ActiveWindowMs {
      rows := rows[closestIdx := rows[closestIdx].(active := true)];
    }
    assert rows == Scanned(p.rows, t, Active(rel, t));
    var upTo := p.visibleUpTo;
    scroll := None;
    if lastVisible >= 0 && lastVisible != upTo {
      upTo := lastVisible;
      scroll := Some(lastVisible);
    }
    q := Panel(ApplyFilter(rows, p.activeFilter), upTo, p.activeFilter);
  }

  /** The pass itself: time flags set, active flags cleared, the last reached and the nearest index found. */
  method ScanRows(rows0: seq<Row>, t: int) returns (rows: seq<Row>, lastVisible: int, closestIdx: int, closestDist: int)
    ensures |rows| == |rows0|
    ensures forall j :: 0 <= j < |rows| ==> rows[j] == rows0[j].(timeHidden := rows0[j].relativeMs > t, active := false)
    ensures lastVisible == IndexOr(LastVisible(Rels(rows0), t))
    ensures closestIdx == IndexOr(Nearest(Rels(rows0), t))
    ensures closestIdx >= 0 ==> closestIdx < |rows0| && closestDist == Dist(rows0[closestIdx].relativeMs, t)
  {
    ghost var rel := Rels(rows0);
    rows := rows0;
    lastVisible := -1;
    closestIdx := -1;
    closestDist := 0;
    var i := 0;
    while i < |rows|
      invariant 0 <= i <= |rows| == |rows0|
      invariant forall j :: 0 <= j < i ==> rows[j] == rows0[j].(timeHidden := rel[j] > t, active := false)
      invariant forall j :: i <= j < |rows| ==> rows[j] == rows0[j]
      invariant lastVisible == IndexOr(LastVisible(rel[..i], t))
      invariant closestIdx == IndexOr(Nearest(rel[..i], t))
      invariant closestIdx >= 0 ==> closestIdx < i && closestDist == Dist(rel[closestIdx], t)
    {
      LastVisibleStep(rel, t, i);
      NearestStep(rel, t, i);
      var el := rows[i];
      if el.relativeMs <= t {
        el := el.(timeHidden := false);
        lastVisible := i;
        var dist := Dist(el.relativeMs, t);
        if closestIdx < 0 || dist < closestDist {
          closestDist := dist;
          closestIdx := i;
        }
      } else {
        el := el.(timeHidden := true);
      }
      el := el.(active := false);
      rows := rows[i := el];
      i := i + 1;
    }
    assert rel[..i] == rel;
  }

  /**
   * Which rows the clock reveals, which one is highlighted and which are on
   * screen depend only on the latest time, not on earlier ticks or seeks.
   */
  lemma RevealPathIndependent(p: Panel, t1: int, t2: int)
    ensures var q := RevealAtTime(RevealAtTime(p, t1).panel, t2).panel;
            var r := RevealAtTime(p, t2).panel;
            |q.rows| == |r.rows| &&
            forall i :: 0 <= i < |q.rows| ==>
              q.rows[i].timeHidden == r.rows[i].timeHidden
              && q.rows[i].active == r.rows[i].active
              && Shown(q.rows[i]) == Shown(r.rows[i])
  {
    var p1 := RevealAtTime(p, t1).panel;
    var q := RevealAtTime(p1, t2).panel;
    var r := RevealAtTime(p, t2).panel;
    forall i | 0 <= i < |p.rows| ensures p1.rows[i].relativeMs == p.rows[i].relativeMs && p1.rows[i].tag == p.rows[i].tag {
      RevealRow(p, t1, i);
    }
    assert Rels(p1.rows) == Rels(p.rows);
    forall i | 0 <= i < |q.rows|
      ensures q.rows[i].timeHidden == r.rows[i].timeHidden
      ensures q.rows[i].active == r.rows[i].active
      ensures Shown(q.rows[i]) == Shown(r.rows[i])
    {
      RevealRow(p1, t2, i);
      RevealRow(p, t2, i);
    }
  }

  /** Revealing the same time twice changes nothing and does not scroll again. */
  lemma RevealIdempotent(p: Panel, t: int)
    ensures var q := RevealAtTime(p, t).panel;
            RevealAtTime(q, t) == RevealOutcome(q, None)
  {
    var q := RevealAtTime(p, t).panel;
    forall i | 0 <= i < |p.rows| ensures q.rows[i].relativeMs == p.rows[i].relativeMs && q.rows[i].tag == p.rows[i].tag {
      RevealRow(p, t, i);
    }
    assert Rels(q.rows) == Rels(p.rows);
    var r := RevealAtTime(q, t);
    forall i | 0 <= i < |q.rows| ensures r.panel.rows[i] == q.rows[i] {
      RevealRow(p, t, i);
      RevealRow(q, t, i);
    }
    assert r.panel.rows == q.rows;
  }

  /** Two panels over the same rows (offsets and tags) and the same facet. */
  predicate SameFrame(a: Panel, b: Panel)
  {
    && |a.rows| == |b.rows| && a.activeFilter == b.activeFilter
    && forall i :: 0 <= i < |a.rows| ==> a.rows[i].relativeMs == b.rows[i].relativeMs && a.rows[i].tag == b.rows[i].tag
  }

  /** Two panels that agree on every row's visibility and highlight. */
  predicate SameFlags(a: Panel, b: Panel)
  {
    && |a.rows| == |b.rows|
    && forall i :: 0 <= i < |a.rows| ==>
         a.rows[i].timeHidden == b.rows[i].timeHidden && a.rows[i].active == b.rows[i].active && Shown(a.rows[i]) == Shown(b.rows[i])
  }

  /** A reveal keeps the frame, and what it shows depends on the frame and the time only. */
  lemma RevealByFrame(a: Panel, b: Panel, t: int)
    requires SameFrame(a, b)
    ensures SameFrame(RevealAtTime(a, t).panel, a)
    ensures SameFlags(RevealAtTime(a, t).panel, RevealAtTime(b, t).panel)
  {
    assert Rels(a.rows) == Rels(b.rows);
    forall i | 0 <= i < |a.rows|
      ensures RevealAtTime(a, t).panel.rows[i].relativeMs == a.rows[i].relativeMs
      ensures RevealAtTime(a, t).panel.rows[i].tag == a.rows[i].tag
      ensures RevealAtTime(a, t).panel.rows[i].timeHidden == RevealAtTime(b, t).panel.rows[i].timeHidden
      ensures RevealAtTime(a, t).panel.rows[i].active == RevealAtTime(b, t).panel.rows[i].active
      ensures Shown(RevealAtTime(a, t).panel.rows[i]) == Shown(RevealAtTime(b, t).panel.rows[i])
    {
      RevealRow(a, t, i);
      RevealRow(b, t, i);
    }
  }
}

=== FILE: js_values.dfy ===
/**
 * The small part of JavaScript's value semantics the replay viewer relies on:
 * optional values, the truthiness test behind `a || b`, `String(x)` of a
 * possibly-undefined value, and the integer operators `%` (truncating) and
 * `Math.floor(a / b)`.
 */
module JsValues {

  /** A value that may be `undefined`. */
  datatype Option<+T> = None | Some(value: T)
  {
    function GetOr(default: T): T
    {
      match this
      case Some(v) => v
      case None => default
    }
  }

  /** A JavaScript string that may be missing: it is truthy iff present and non-empty. */
  predicate Truthy(o: Option<string>)
  {
    o.Some? && o.value != ""
  }

  /** `a || b` on two possibly-missing strings. */
  function Or(a: Option<string>, b: Option<string>): (r: Option<string>)
    ensures Truthy(a) ==> r == a
    ensures !Truthy(a) ==> r == b
  {
    if Truthy(a) then a else b
  }

  /** `a || d` where the fallback `d` is a literal string. */
  function OrStr(a: string, d: string): (r: string)
    ensures a != "" ==> r == a
    ensures a == "" ==> r == d
  {
    if a != "" then a else d
  }

  /** `String(x)` for a string that may be `undefined`. */
  function ToStr(o: Option<string>): (r: string)
    ensures o.Some? ==> r == o.value
    ensures o.None? ==> r == "undefined"
  {
    match o
    case Some(s) => s
    case None => "undefined"
  }

  /**
   * JavaScript's `a % b` for a positive divisor: the remainder takes the sign
   * of the dividend (Dafny's `%` is Euclidean and never negative).
   */
  function JsRem(a: int, b: int): (r: int)
    requires b > 0
    ensures a >= 0 ==> 0 <= r < b
    ensures a < 0 ==> -b < r <= 0
  {
    if a >= 0 then a % b else -((-a) % b)
  }

  /** The remainder completes a division truncated toward zero: `a == q * b + a % b`. */
  lemma JsRemQuotient(a: int, b: int) returns (q: int)
    requires b > 0
    ensures a == q * b + JsRem(a, b)
    ensures a >= 0 ==> q >= 0
    ensures a < 0 ==> q <= 0
  {
    q := if a >= 0 then a / b else -((-a) / b);
  }

  /**
   * `Math.floor(a / b)` for a positive divisor. For a positive divisor Dafny's
   * Euclidean division already rounds toward negative infinity.
   */
  function FloorDiv(a: int, b: int): (r: int)
    requires b > 0
    ensures r * b <= a < r * b + b
  {
    a / b
  }
}

=== FILE: network_detail.dfy ===
/**
 * The network panel's detail helpers: size labels, status classes, header
 * text, the response-body display policy, the generated cURL command and the
 * WebSocket frame table.
 */
module NetworkDetail {

  import opened JsValues
  import opened Text
  import opened NetworkViewer

  // ---------------------------------------------------------------------------
  // Sizes (`_formatSize`)
  // ---------------------------------------------------------------------------

  /**
   * The unit `_formatSize` picks. Only the byte case is rendered here
   * ("n B"); the kilobyte and megabyte figures go through `toFixed(1)`.
   */
  datatype SizeLabel = NoSize | Bytes(n: nat) | Kilobytes(bytes: nat) | Megabytes(bytes: nat)
  {
    function Rank(): nat
    {
      match this
      case NoSize => 0
      case Bytes(_) => 1
      case Kilobytes(_) => 2
      case Megabytes(_) => 3
    }
  }

  /** `_formatSize`: "-" for a missing or non-positive size, then B below 1024, KB below 1024², else MB. */
  function FormatSize(bytes: int): (r: SizeLabel)
    ensures r == NoSize <==> bytes <= 0
    ensures r.Bytes? <==> 0 < bytes < 1024
    ensures r.Kilobytes? <==> 1024 <= bytes < 1024 * 1024
    ensures r.Megabytes? <==> bytes >= 1024 * 1024
    ensures r.Bytes? ==> r.n == bytes
    ensures r.Kilobytes? || r.Megabytes? ==> r.bytes == bytes
  {
    if bytes <= 0 then NoSize
    else if bytes < 1024 then Bytes(bytes)
    else if bytes < 1024 * 1024 then Kilobytes(bytes)
    else Megabytes(bytes)
  }

  /** The text of the byte-sized labels. */
  function ByteSizeText(r: SizeLabel): (s: Option<string>)
    ensures r.NoSize? ==> s == Some("-")
    ensures r.Bytes? ==> s == Some(NatToString(r.n) + " B")
    ensures r.Kilobytes? || r.Megabytes? ==> s.None?
  {
    match r
    case NoSize => Some("-")
    case Bytes(n) => Some(NatToString(n) + " B")
    case _ => None
  }

  /** A larger size never gets a smaller unit. */
  lemma FormatSizeMonotone(a: int, b: int)
    requires a <= b
    ensures FormatSize(a).Rank() <= FormatSize(b).Rank()
  {
  }

  // ---------------------------------------------------------------------------
  // Status classes (`_getStatusClass`)
  // ---------------------------------------------------------------------------

  /**
   * `_getStatusClass`: a missing status (0) gets "status-0"; the 2xx, 3xx and
   * 4xx ranges get their class; everything else, 1xx and negative codes
   * included, falls into "status-5xx".
   */
  function StatusClass(status: int): (r: string)
    ensures status == 0 ==> r == "status-0"
    ensures 200 <= status < 300 ==> r == "status-2xx"
    ensures 300 <= status < 400 ==> r == "status-3xx"
    ensures 400 <= status < 500 ==> r == "status-4xx"
    ensures status != 0 && !(200 <= status < 500) ==> r == "status-5xx"
  {
    if status == 0 then "status-0"
    else if 200 <= status < 300 then "status-2xx"
    else if 300 <= status < 400 then "status-3xx"
    else if 400 <= status < 500 then "status-4xx"
    else "status-5xx"
  }

  /** For the 2xx to 5xx ranges the class names the code's hundreds digit. */
  lemma StatusClassIsHundreds(status: int)
    requires 200 <= status < 600
    ensures StatusClass(status) == "status-" + NatToString(status / 100) + "xx"
  {
  }

  // ---------------------------------------------------------------------------
  // Headers (`_formatHeaders`)
  // ---------------------------------------------------------------------------

  /** `request.headers || entry.requestHeaders`. */
  function RequestHeaders(rec: NetworkRecord): (h: Headers)
    ensures !rec.request.headers.NoHeaders? ==> h == rec.request.headers
    ensures rec.request.headers.NoHeaders? ==> h == rec.requestHeaders
  {
    if !rec.request.headers.NoHeaders? then rec.request.headers else rec.requestHeaders
  }

  function HeaderLine(h: Header): string
  {
    h.name + ": " + h.value
  }

  function HeaderLines(items: seq<Header>): (r: seq<string>)
    ensures |r| == |items| && forall i :: 0 <= i < |items| ==> r[i] == HeaderLine(items[i])
  {
    seq(|items|, i requires 0 <= i < |items| => HeaderLine(items[i]))
  }

  /** `_formatHeaders`: "(none)" when absent, one "name: value" line per header, or the value's text. */
  function FormatHeaders(h: Headers): (r: string)
    ensures h.NoHeaders? ==> r == "(none)"
    ensures h.Listed? ==> r == Join(HeaderLines(h.items), "\n")
    ensures h.Primitive? ==> r == h.text
  {
    match h
    case NoHeaders => "(none)"
    case Listed(items) => Join(HeaderLines(items), "\n")
    case Primitive(text) => text
  }

  /** Without line breaks inside names and values, splitting the text on newlines gives one line per header. */
  lemma HeaderLinesSplitBack(items: seq<Header>)
    requires |items| >= 1
    requires forall i :: 0 <= i < |items| ==> '\n' !in items[i].name && '\n' !in items[i].value
    ensures Split(FormatHeaders(Listed(items)), '\n') == HeaderLines(items)
  {
    var lines := HeaderLines(items);
    forall i | 0 <= i < |lines| ensures '\n' !in lines[i] {
      var h := items[i];
      assert lines[i] == h.name + ": " + h.value;
    }
    SplitJoin(lines, '\n');
  }

  // ---------------------------------------------------------------------------
  // Response bodies (`_renderResponseBody`)
  // ---------------------------------------------------------------------------

  /** Characters of a text body shown before "Show full". */
  const MaxDisplay: nat := 10240

  /** `haystack.includes(needle)`. */
  predicate Includes(haystack: string, needle: string)
    decreases |haystack|
  {
    StartsWith(haystack, needle) || (haystack != [] && Includes(haystack[1..], needle))
  }

  /** `Math.round(n * 0.75)`: the nearest integer, halves rounded up. */
  function ThreeQuarters(n: nat): (r: nat)
    ensures 4 * r <= 3 * n + 2 < 4 * r + 4
  {
    (3 * n + 2) / 4
  }

  /**
   * What the body section shows: for base64 bodies only an estimated size;
   * otherwise the escaped text up to the display cap, and the full size on a
   * "Show full" button exactly when the text is longer than the cap.
   */
  datatype BodyView = Binary(estimate: SizeLabel) | Textual(display: string, truncated: bool, showFull: Option<SizeLabel>)

  /**
   * The text to display: the pretty-printed JSON when the MIME type mentions
   * JSON and parsing succeeded (`pretty` is `JSON.stringify(JSON.parse(text),
   * null, 2)`, `None` when parsing throws), else the raw text.
   */
  function BodyText(content: Content, pretty: Option<string>): (r: string)
    ensures !Includes(content.mimeType, "json") || pretty.None? ==> r == content.text
    ensures Includes(content.mimeType, "json") && pretty.Some? ==> r == pretty.value
  {
    if Includes(content.mimeType, "json") && pretty.Some? then pretty.value else content.text
  }

  /** `_renderResponseBody`. */
  function RenderResponseBody(content: Content, pretty: Option<string>): (r: BodyView)
    ensures content.encoding == "base64" ==>
              r == Binary(FormatSize(if content.text != "" then ThreeQuarters(|content.text|) else 0))
    ensures content.encoding != "base64" ==> r.Textual?
    ensures r.Textual? ==> (r.truncated <==> |BodyText(content, pretty)| > MaxDisplay)
    ensures r.Textual? ==> (r.showFull.Some? <==> r.truncated)
    ensures r.Textual? && r.truncated ==> r.showFull == Some(FormatSize(|BodyText(content, pretty)|))
    ensures r.Textual? ==> UnescapeHtml(r.display) == Take(BodyText(content, pretty), MaxDisplay)
    ensures r.Textual? ==> NoTagChars(r.display)
    ensures r.Textual? ==> EscapeHtml(UnescapeHtml(r.display)) == r.display
  {
    if content.encoding == "base64" then
      Binary(FormatSize(if content.text != "" then ThreeQuarters(|content.text|) else 0))
    else
      var body := BodyText(content, pretty);
      var truncated := |body| > MaxDisplay;
      Textual(EscapeHtml(Take(body, MaxDisplay)), truncated, if truncated then Some(FormatSize(|body|)) else None)
  }

  /** A text body within the cap is shown whole; a longer one shows exactly its first 10240 characters. */
  lemma DisplayedPrefix(content: Content, pretty: Option<string>)
    requires content.encoding != "base64"
    ensures var r := RenderResponseBody(content, pretty);
            var body := BodyText(content, pretty);
            && (|body| <= MaxDisplay ==> UnescapeHtml(r.display) == body)
            && (|body| > MaxDisplay ==> UnescapeHtml(r.display) == body[..MaxDisplay] && |UnescapeHtml(r.display)| == MaxDisplay)
  {
  }

  // ---------------------------------------------------------------------------
  // cURL (`_generateCurl`)
  // ---------------------------------------------------------------------------

  /** Joins the command's arguments: backslash-newline continuations with two-space indents. */
  const CurlSeparator: string := " \\\n  "

  /** `request.url || entry.url || ""`. */
  function CurlUrl(rec: NetworkRecord): string
  {
    OrStr(rec.request.url, rec.url)
  }

  /** `request.method || entry.method || "GET"`. */
  function CurlMethod(rec: NetworkRecord): (m: string)
    ensures m != ""
    ensures rec.request.verb != "" ==> m == rec.request.verb
    ensures rec.request.verb == "" && rec.verb != "" ==> m == rec.verb
    ensures rec.request.verb == "" && rec.verb == "" ==> m == "GET"
  {
    OrStr(rec.request.verb, OrStr(rec.verb, "GET"))
  }

  /**
   * The body: the `text` of an object `request.postData` (a `null` one reads
   * as ""), else `request.postData || entry.postData`.
   */
  function CurlPostData(rec: NetworkRecord): (r: string)
    ensures rec.request.postData.PostObject? ==> r == rec.request.postData.text
    ensures rec.request.postData.PostText? && rec.request.postData.text != "" ==> r == rec.request.postData.text
    ensures rec.request.postData.PostText? && rec.request.postData.text == "" ==> r == rec.postData
    ensures rec.request.postData.NoPostData? ==> r == rec.postData
  {
    match rec.request.postData
    case PostObject(text) => text
    case PostText(text) => OrStr(text, rec.postData)
    case NoPostData => rec.postData
  }

  /** Headers as a list: an array as is, an object's entries in order; a primitive has none. */
  function HeaderList(h: Headers): (r: seq<Header>)
    ensures h.Listed? ==> r == h.items
    ensures !h.Listed? ==> r == []
  {
    if h.Listed? then h.items else []
  }

  /** The header argument as the source writes it: the value is escaped, the name is not. */
  function HeaderArgAsWritten(h: Header): string
  {
    "-H '" + h.name + ": " + QuoteBody(h.value) + "'"
  }

  /** The header argument with the whole "name: value" quoted. */
  function HeaderArg(h: Header): (r: string)
    ensures |r| >= 3 && r[..3] == "-H " && WordValue(r[3..], false) == Some(h.name + ": " + h.value)
  {
    var w := SingleQuoted(h.name + ": " + h.value);
    SingleQuotedRoundTrip(h.name + ": " + h.value);
    assert ("-H " + w)[3..] == w;
    "-H " + w
  }

  /** For any header name without a single quote, both forms are the same text. */
  lemma HeaderArgsAgree(h: Header)
    requires '\'' !in h.name
    ensures HeaderArg(h) == HeaderArgAsWritten(h)
  {
    var n, v := h.name, h.value;
    QuoteHeaderLine(n, v);
    var q := QuoteBody(v);
    assert HeaderArg(h) == "-H " + SingleQuoted(n + ": " + v);
    assert "-H " + ("'" + (n + ": " + q) + "'") == "-H '" + n + ": " + q + "'";
  }

  /** Quoting "name: value" only touches the value when the name has no quote. */
  lemma QuoteHeaderLine(n: string, v: string)
    requires '\'' !in n
    ensures QuoteBody(n + ": " + v) == n + ": " + QuoteBody(v)
  {
    var rep := "'\\''";
    ReplaceAllAppend(n + ": ", v, '\'', rep);
    ReplaceAllAppend(n, ": ", '\'', rep);
    assert ReplaceAll(n, '\'', rep) == n;
    assert ReplaceAll(": ", '\'', rep) == ": ";
  }

  /**
   * As written, a quote in a header name ends the quoted word early: for the
   * name "a'b" the shell sees an unterminated quote instead of "a'b: v".
   */
  lemma HeaderNameQuoteBreaks()
    ensures var h := Header("a'b", "v");
            HeaderArgAsWritten(h)[..3] == "-H "
            && WordValue(HeaderArgAsWritten(h)[3..], false).None?
  {
    var h := Header("a'b", "v");
    assert QuoteBody("v") == "v";
    var w := HeaderArgAsWritten(h)[3..];
    assert w == "'a'b: v'";
    assert WordValue("", true).None?;
    assert WordValue("'", false).None?;
    assert WordValue("v'", false).None?;
    assert WordValue(" v'", false).None?;
    assert WordValue(": v'", false).None?;
    assert WordValue("b: v'", false).None?;
    assert WordValue("'b: v'", true).None?;
    assert WordValue("a'b: v'", true).None?;
  }

  function HeaderArgs(items: seq<Header>): (r: seq<string>)
    ensures |r| == |items| && forall i :: 0 <= i < |items| ==> r[i] == HeaderArg(items[i])
  {
    seq(|items|, i requires 0 <= i < |items| => HeaderArg(items[i]))
  }

  /**
   * The command's arguments, in order: `curl` and the quoted URL; `-X method`
   * unless the method is GET; one `-H` per header; `--data-raw` and the
   * quoted body when there is one.
   */
  function CurlParts(rec: NetworkRecord): (r: seq<string>)
    ensures var hs := HeaderList(RequestHeaders(rec));
            var x := if CurlMethod(rec) != "GET" then 1 else 0;
            && |r| == 1 + x + |hs| + (if CurlPostData(rec) != "" then 1 else 0)
            && r[0] == "curl " + SingleQuoted(CurlUrl(rec))
            && (CurlMethod(rec) != "GET" ==> r[1] == "-X " + CurlMethod(rec))
            && (forall j :: 0 <= j < |hs| ==> r[1 + x + j] == HeaderArg(hs[j]))
            && (CurlPostData(rec) != "" ==> r[|r| - 1] == "--data-raw " + SingleQuoted(CurlPostData(rec)))
  {
    var verb := CurlMethod(rec);
    var post := CurlPostData(rec);
    ["curl " + SingleQuoted(CurlUrl(rec))]
      + (if verb != "GET" then ["-X " + verb] else [])
      + HeaderArgs(HeaderList(RequestHeaders(rec)))
      + (if post != "" then ["--data-raw " + SingleQuoted(post)] else [])
  }

  /** A `-X` argument appears exactly when the method is not GET. */
  lemma MethodFlagIffNotGet(rec: NetworkRecord)
    ensures (exists i :: 0 <= i < |CurlParts(rec)| && StartsWith(CurlParts(rec)[i], "-X ")) <==> CurlMethod(rec) != "GET"
  {
    var r := CurlParts(rec);
    var hs := HeaderList(RequestHeaders(rec));
    var x := if CurlMethod(rec) != "GET" then 1 else 0;
    var post := CurlPostData(rec);
    if CurlMethod(rec) != "GET" {
      assert StartsWith(r[1], "-X ");
    } else {
      forall i | 0 <= i < |r| ensures !StartsWith(r[i], "-X ") {
        if i == 0 {
          assert r[0][1] == 'u';
        } else if i < 1 + |hs| {
          HeaderArgIsFlag(hs[i - 1]);
        } else {
          assert post != "" && r[i] == "--data-raw " + SingleQuoted(post);
          assert r[i][1] == '-';
        }
      }
    }
  }

  lemma HeaderArgIsFlag(h: Header)
    ensures !StartsWith(HeaderArg(h), "-X ")
  {
    assert HeaderArg(h)[1] == 'H';
  }

  /** Every quoted argument reads back, through the shell's quoting rules, as the original text. */
  lemma CurlWordsRoundTrip(rec: NetworkRecord)
    ensures var r := CurlParts(rec);
            && r[0][..5] == "curl " && WordValue(r[0][5..], false) == Some(CurlUrl(rec))
            && (CurlPostData(rec) != "" ==>
                  r[|r| - 1][..11] == "--data-raw " && WordValue(r[|r| - 1][11..], false) == Some(CurlPostData(rec)))
  {
    var r := CurlParts(rec);
    SingleQuotedRoundTrip(CurlUrl(rec));
    assert r[0][5..] == SingleQuoted(CurlUrl(rec));
    if CurlPostData(rec) != "" {
      SingleQuotedRoundTrip(CurlPostData(rec));
      assert r[|r| - 1][11..] == SingleQuoted(CurlPostData(rec));
    }
  }

  /** `_generateCurl`: the arguments joined by line continuations. */
  function GenerateCurl(rec: NetworkRecord): (r: string)
    ensures StartsWith(r, "curl " + SingleQuoted(CurlUrl(rec)))
    ensures |CurlParts(rec)| == 1 <==> r == CurlParts(rec)[0]
    ensures |CurlParts(rec)| > 1 ==> StartsWith(r, CurlParts(rec)[0] + CurlSeparator)
  {
    var parts := CurlParts(rec);
    JoinHead(parts, CurlSeparator);
    Join(parts, CurlSeparator)
  }

  /**
   * Every argument appears whole, in order, each at the combined length of
   * the ones before it and their separators, with a line continuation
   * between consecutive arguments.
   */
  lemma CurlLayout(rec: NetworkRecord)
    ensures JoinedLayout(GenerateCurl(rec), CurlParts(rec), CurlSeparator)
  {
    var parts := CurlParts(rec);
    assert GenerateCurl(rec) == Join(parts, CurlSeparator);
    JoinLayout(parts, CurlSeparator);
  }

  /** The header arguments exactly as the source writes them. */
  function HeaderArgsAsWritten(items: seq<Header>): (r: seq<string>)
    ensures |r| == |items| && forall i :: 0 <= i < |items| ==> r[i] == HeaderArgAsWritten(items[i])
  {
    seq(|items|, i requires 0 <= i < |items| => HeaderArgAsWritten(items[i]))
  }

  /** The command as the source builds it, with each header's name left outside the value's escaping. */
  function GenerateCurlAsWritten(rec: NetworkRecord): (r: string)
    ensures (forall j :: 0 <= j < |HeaderList(RequestHeaders(rec))| ==> '\'' !in HeaderList(RequestHeaders(rec))[j].name)
            ==> r == GenerateCurl(rec)
  {
    var verb := CurlMethod(rec);
    var post := CurlPostData(rec);
    var hs := HeaderList(RequestHeaders(rec));
    var parts := ["curl " + SingleQuoted(CurlUrl(rec))]
      + (if verb != "GET" then ["-X " + verb] else [])
      + HeaderArgsAsWritten(hs)
      + (if post != "" then ["--data-raw " + SingleQuoted(post)] else []);
    assert (forall j :: 0 <= j < |hs| ==> '\'' !in hs[j].name) ==> parts == CurlParts(rec) by {
      if forall j :: 0 <= j < |hs| ==> '\'' !in hs[j].name {
        forall j | 0 <= j < |hs| ensures HeaderArgAsWritten(hs[j]) == HeaderArg(hs[j]) {
          HeaderArgsAgree(hs[j]);
        }
        assert HeaderArgsAsWritten(hs) == HeaderArgs(hs);
      }
    }
    Join(parts, CurlSeparator)
  }

  /** A join starts with its first part, and is exactly that part only when there is no other. */
  lemma JoinHead(parts: seq<string>, sep: string)
    requires |parts| >= 1 && sep != ""
    ensures StartsWith(Join(parts, sep), parts[0])
    ensures |parts| == 1 <==> Join(parts, sep) == parts[0]
    ensures |parts| > 1 ==> StartsWith(Join(parts, sep), parts[0] + sep)
  {
    var r := Join(parts, sep);
    if |parts| > 1 {
      assert r == parts[0] + (sep + Join(parts[1..], sep));
      assert |r| > |parts[0]|;
      assert r[..|parts[0] + sep|] == parts[0] + sep;
    }
    assert r[..|parts[0]|] == parts[0];
  }

  // ---------------------------------------------------------------------------
  // WebSocket frames (`_toggleWsDetail`)
  // ---------------------------------------------------------------------------

  const MaxFrames: nat := 100
  const MaxPayload: nat := 200

  datatype WsFrame = WsFrame(direction: string, payloadData: string)

  /** One table row: the direction arrow (sent or received) and the escaped payload. */
  datatype FrameRow = FrameRow(sent: bool, data: string)

  /** The frame table: its rows and how many frames were left out ("... n more frames"; 0 for no such row). */
  datatype FrameTable = FrameTable(rows: seq<FrameRow>, more: nat)

  /** Payloads longer than 200 characters are cut to 200 and marked with "...". */
  function TruncatePayload(p: string): (r: string)
    ensures |p| <= MaxPayload ==> r == p
    ensures |p| > MaxPayload ==> |r| == MaxPayload + 3 && r[..MaxPayload] == p[..MaxPayload] && r[MaxPayload..] == "..."
  {
    if |p| > MaxPayload then p[..MaxPayload] + "..." else p
  }

  /** At most the first 100 frames, each with a capped payload, then a count of the rest. */
  function FrameTableOf(frames: seq<WsFrame>): (t: FrameTable)
    ensures |t.rows| == if |frames| > MaxFrames then MaxFrames else |frames|
    ensures |t.rows| + t.more == |frames|
    ensures t.more > 0 <==> |frames| > MaxFrames
    ensures forall i :: 0 <= i < |t.rows| ==>
              t.rows[i].sent == (frames[i].direction == "sent")
              && UnescapeHtml(t.rows[i].data) == TruncatePayload(frames[i].payloadData)
              && NoTagChars(t.rows[i].data)
              && EscapeHtml(UnescapeHtml(t.rows[i].data)) == t.rows[i].data
  {
    var n := if |frames| > MaxFrames then MaxFrames else |frames|;
    var rows := seq(n, i requires 0 <= i < n => FrameRow(frames[i].direction == "sent", EscapeHtml(TruncatePayload(frames[i].payloadData))));
    FrameTable(rows, |frames| - n)
  }
}

=== FILE: network_viewer.dfy ===
/**
 * The network panel's list: ingesting captured requests onto the video
 * clock, the resource-type facet, the reveal/filter state of the rows with
 * its open-detail exemption, and the summary line.
 *
 * `wallTime` and `timestamp` are carried in milliseconds (the `* 1000` of the
 * source already applied); `None` and `Some(0)` are both falsy.
 */
module NetworkViewer {

  import opened JsValues
  import opened Text
  import opened StableSort
  import opened Reveal

  // ---------------------------------------------------------------------------
  // Records
  // ---------------------------------------------------------------------------

  /** One header; `value` is its `String()` form. */
  datatype Header = Header(name: string, value: string)

  /** A header collection: absent, a list (or an object's entries), or some other truthy primitive. */
  datatype Headers = NoHeaders | Listed(items: seq<Header>) | Primitive(text: string)

  /** `request.postData`: absent, an object with a `text` field ("" when missing), or a string. */
  datatype PostData = NoPostData | PostObject(text: string) | PostText(text: string)

  /** The HAR request block (`verb` is its `method`); an absent block is all defaults. Strings are "" when absent. */
  datatype Request = Request(verb: string, url: string, headers: Headers, postData: PostData)

  /** The HAR response content block; strings are "" when absent. */
  datatype Content = Content(text: string, encoding: string, mimeType: string)

  /** A captured request, with the fields the viewer reads (`verb` is its `method`). Strings are "" when absent. */
  datatype NetworkRecord = NetworkRecord(
    wallTime: Option<int>,
    timestamp: Option<int>,
    resourceType: string,
    request: Request,
    verb: string,
    url: string,
    requestHeaders: Headers,
    postData: string,
    content: Content)

  /** The `networkData` argument. */
  datatype NetworkInput =
    | HarLog(entries: Option<seq<NetworkRecord>>)   // an object; `log.entries` may be missing
    | BareArray(items: seq<NetworkRecord>)
    | NotAList                                      // null, undefined or anything else

  /** A request placed on the video clock. */
  datatype NetworkEntry = NetworkEntry(record: NetworkRecord, relativeMs: int)

  // ---------------------------------------------------------------------------
  // Ingestion (`init`)
  // ---------------------------------------------------------------------------

  /** The HAR `log.entries` list when present, else the array itself, else nothing. */
  function RawEntries(data: NetworkInput): (r: seq<NetworkRecord>)
    ensures data.HarLog? && data.entries.Some? ==> r == data.entries.value
    ensures data.BareArray? ==> r == data.items
    ensures data.NotAList? || data == HarLog(None) ==> r == []
  {
    match data
    case HarLog(es) => es.GetOr([])
    case BareArray(xs) => xs
    case NotAList => []
  }

  predicate TruthyTime(t: Option<int>)
  {
    t.Some? && t.value != 0
  }

  /** `wallTime` if truthy, else `timestamp` if truthy, else offset 0. */
  function Offset(rec: NetworkRecord, startTime: int): (r: int)
    ensures TruthyTime(rec.wallTime) ==> r == rec.wallTime.value - startTime
    ensures !TruthyTime(rec.wallTime) && TruthyTime(rec.timestamp) ==> r == rec.timestamp.value - startTime
    ensures !TruthyTime(rec.wallTime) && !TruthyTime(rec.timestamp) ==> r == 0
  {
    if TruthyTime(rec.wallTime) then rec.wallTime.value - startTime
    else if TruthyTime(rec.timestamp) then rec.timestamp.value - startTime
    else 0
  }

  function Annotate(rs: seq<NetworkRecord>, startTime: int): (r: seq<NetworkEntry>)
    ensures |r| == |rs|
    ensures forall i :: 0 <= i < |r| ==> r[i] == NetworkEntry(rs[i], Offset(rs[i], startTime))
  {
    seq(|rs|, i requires 0 <= i < |rs| => NetworkEntry(rs[i], Offset(rs[i], startTime)))
  }

  function ByOffset(e: NetworkEntry): int
  {
    e.relativeMs
  }

  function EntryRels(es: seq<NetworkEntry>): (r: seq<int>)
    ensures |r| == |es| && forall i :: 0 <= i < |es| ==> r[i] == es[i].relativeMs
  {
    seq(|es|, i requires 0 <= i < |es| => es[i].relativeMs)
  }

  /**
   * `init`: every raw record with its offset, stably sorted by offset. Unlike
   * the console panel the sort key is the offset itself, so records without
   * a usable time (offset 0) sort among those at the recording start.
   */
  function Init(data: NetworkInput, startTime: int): (r: seq<NetworkEntry>)
    ensures |r| == |RawEntries(data)|
    ensures multiset(r) == multiset(Annotate(RawEntries(data), startTime))
    ensures forall i :: 0 <= i < |r| ==> r[i].relativeMs == Offset(r[i].record, startTime)
    ensures Ascending(EntryRels(r))
    ensures forall k :: WithKey(r, ByOffset, k) == WithKey(Annotate(RawEntries(data), startTime), ByOffset, k)
  {
    var a := Annotate(RawEntries(data), startTime);
    var r := Sort(a, ByOffset);
    OffsetsKept(a, r, startTime);
    r
  }

  lemma OffsetsKept(a: seq<NetworkEntry>, r: seq<NetworkEntry>, startTime: int)
    requires forall i :: 0 <= i < |a| ==> a[i].relativeMs == Offset(a[i].record, startTime)
    requires multiset(r) == multiset(a)
    requires Sorted(r, ByOffset)
    ensures forall i :: 0 <= i < |r| ==> r[i].relativeMs == Offset(r[i].record, startTime)
    ensures Ascending(EntryRels(r))
  {
    forall i | 0 <= i < |r| ensures r[i].relativeMs == Offset(r[i].record, startTime) {
      assert r[i] in multiset(r);
      assert r[i] in a;
      var j :| 0 <= j < |a| && a[j] == r[i];
    }
    var rel := EntryRels(r);
    forall i, j | 0 <= i < j < |rel| ensures rel[i] <= rel[j] {
      assert ByOffset(r[i]) <= ByOffset(r[j]);
    }
  }

  /** Records of equal offset keep their input order: `Init` is the one stable ascending order. */
  lemma InitIsTheStableOrder(data: NetworkInput, startTime: int, r: seq<NetworkEntry>)
    requires Sorted(r, ByOffset)
    requires forall k :: WithKey(r, ByOffset, k) == WithKey(Annotate(RawEntries(data), startTime), ByOffset, k)
    ensures r == Init(data, startTime)
  {
    StableSortIsUnique(Annotate(RawEntries(data), startTime), r, ByOffset);
  }

  // ---------------------------------------------------------------------------
  // Resource-type facet (`_typeMap`, `_getFilterType`)
  // ---------------------------------------------------------------------------

  /** The facet table, in declaration order: facet key and the resource types it covers. */
  const TypeMap: seq<(string, seq<string>)> := [
    ("fetch", ["XHR", "Fetch"]),
    ("js", ["Script"]),
    ("css", ["Stylesheet"]),
    ("img", ["Image"]),
    ("doc", ["Document"]),
    ("font", ["Font"]),
    ("media", ["Media"]),
    ("ws", ["WebSocket"])
  ]

  /** The first table key whose list includes `resourceType`, scanning from `i`; "other" if none. */
  function LookupFrom(resourceType: string, i: nat): (r: string)
    requires i <= |TypeMap|
    ensures r == "other" <==> forall j :: i <= j < |TypeMap| ==> resourceType !in TypeMap[j].1
    ensures r != "other" ==> exists j :: i <= j < |TypeMap| && TypeMap[j].0 == r && resourceType in TypeMap[j].1
    decreases |TypeMap| - i
  {
    if i == |TypeMap| then "other"
    else if resourceType in TypeMap[i].1 then TypeMap[i].0
    else LookupFrom(resourceType, i + 1)
  }

  /** `_getFilterType`: a missing resource type reads as "" and maps to "other". */
  function FilterType(rec: NetworkRecord): (r: string)
    ensures r == "other" <==> forall j :: 0 <= j < |TypeMap| ==> rec.resourceType !in TypeMap[j].1
  {
    LookupFrom(rec.resourceType, 0)
  }

  /** The scan stops at the first entry listing the type: no earlier entry lists it. */
  lemma {:induction false} LookupFromFirst(resourceType: string, i: nat) returns (j: nat)
    requires i <= |TypeMap| && LookupFrom(resourceType, i) != "other"
    ensures i <= j < |TypeMap| && TypeMap[j].0 == LookupFrom(resourceType, i) && resourceType in TypeMap[j].1
    ensures forall k :: i <= k < j ==> resourceType !in TypeMap[k].1
    decreases |TypeMap| - i
  {
    if resourceType in TypeMap[i].1 {
      j := i;
    } else {
      assert LookupFrom(resourceType, i) == LookupFrom(resourceType, i + 1);
      j := LookupFromFirst(resourceType, i + 1);
      forall k | i <= k < j ensures resourceType !in TypeMap[k].1 {
        if k > i {
          assert i + 1 <= k < j;
        }
      }
    }
  }

  /** A facet other than "other" is the key of the first table entry that lists the resource type. */
  lemma FilterTypeIsFirstKey(rec: NetworkRecord) returns (j: nat)
    requires FilterType(rec) != "other"
    ensures j < |TypeMap| && TypeMap[j].0 == FilterType(rec) && rec.resourceType in TypeMap[j].1
    ensures forall k :: 0 <= k < j ==> rec.resourceType !in TypeMap[k].1
  {
    j := LookupFromFirst(rec.resourceType, 0);
  }

  /** The table spelled out: each facet and exactly the resource types that land in it. */
  lemma FilterTypeTable(rec: NetworkRecord)
    ensures var rt, f := rec.resourceType, FilterType(rec);
      && (f == "fetch" <==> rt == "XHR" || rt == "Fetch")
      && (f == "js" <==> rt == "Script")
      && (f == "css" <==> rt == "Stylesheet")
      && (f == "img" <==> rt == "Image")
      && (f == "doc" <==> rt == "Document")
      && (f == "font" <==> rt == "Font")
      && (f == "media" <==> rt == "Media")
      && (f == "ws" <==> rt == "WebSocket")
      && (f == "other" <==> rt !in ["XHR", "Fetch", "Script", "Stylesheet", "Image", "Document", "Font", "Media", "WebSocket"])
  {
    var rt := rec.resourceType;
    var f := if rt == "XHR" || rt == "Fetch" then "fetch"
             else if rt == "Script" then "js"
             else if rt == "Stylesheet" then "css"
             else if rt == "Image" then "img"
             else if rt == "Document" then "doc"
             else if rt == "Font" then "font"
             else if rt == "Media" then "media"
             else if rt == "WebSocket" then "ws"
             else "other";
    assert FilterType(rec) == f;
  }

  // ---------------------------------------------------------------------------
  // Rows: reveal, facet filter and summary
  // ---------------------------------------------------------------------------

  /** A rendered row: its offset, its facet, its class flags and whether its detail pane is open. */
  datatype Row = Row(relativeMs: int, filterType: string, timeHidden: bool, filterHidden: bool, active: bool, detailOpen: bool)

  /**
   * The panel: its rows, the count of rows up to the last one scrolled to
   * (0 for none), the chosen facet, and the number of WebSocket connections.
   */
  datatype Panel = Panel(rows: seq<Row>, visibleCount: nat, typeFilter: string, wsCount: nat)

  /** What a reveal or a filter produces: the panel, the row to scroll to, the summary text. */
  datatype Outcome = Outcome(panel: Panel, scroll: Option<nat>, summary: string)

  function Rels(rows: seq<Row>): (r: seq<int>)
    ensures |r| == |rows| && forall i :: 0 <= i < |rows| ==> r[i] == rows[i].relativeMs
  {
    seq(|rows|, i requires 0 <= i < |rows| => rows[i].relativeMs)
  }

  /** `init` followed by `_buildDOM`: one fresh row per entry, nothing scrolled to, the facet kept. */
  function Load(p: Panel, data: NetworkInput, startTime: int, webSocketCount: nat): (q: Panel)
    ensures q.typeFilter == p.typeFilter && q.visibleCount == 0 && q.wsCount == webSocketCount
    ensures |q.rows| == |RawEntries(data)|
    ensures forall i :: 0 <= i < |q.rows| ==>
              var e := Init(data, startTime)[i];
              q.rows[i] == Row(e.relativeMs, FilterType(e.record), false, false, false, false)
    ensures Ascending(Rels(q.rows))
  {
    var es := Init(data, startTime);
    var rows := seq(|es|, i requires 0 <= i < |es| => Row(es[i].relativeMs, FilterType(es[i].record), false, false, false, false));
    assert Rels(rows) == EntryRels(es);
    Panel(rows, 0, p.typeFilter, webSocketCount)
  }

  /** On screen: neither time-hidden nor filter-hidden. */
  predicate Shown(row: Row)
  {
    !row.timeHidden && !row.filterHidden
  }

  /** Rows counted by the summary: shown ones. */
  function ShownCount(rows: seq<Row>): (n: nat)
    ensures n <= |rows|
  {
    if rows == [] then 0 else (if Shown(rows[0]) then 1 else 0) + ShownCount(rows[1..])
  }

  /** `_applyTypeFilter`'s row update: time-hidden rows are skipped, others are filter-hidden iff they miss the facet. */
  function FilterRows(rows: seq<Row>, filter: string): (r: seq<Row>)
    ensures |r| == |rows|
    ensures forall i :: 0 <= i < |rows| && rows[i].timeHidden ==> r[i] == rows[i]
    ensures forall i :: 0 <= i < |rows| && !rows[i].timeHidden ==>
              r[i] == rows[i].(filterHidden := !Matches(rows[i].filterType, filter))
    ensures forall i :: 0 <= i < |rows| ==> (Shown(r[i]) <==> !rows[i].timeHidden && Matches(rows[i].filterType, filter))
  {
    seq(|rows|, i requires 0 <= i < |rows| =>
      if rows[i].timeHidden then rows[i] else rows[i].(filterHidden := !Matches(rows[i].filterType, filter)))
  }

  /** The rows `_applyTypeFilter` counts: not time-hidden and matching the facet. */
  function MatchingCount(rows: seq<Row>, filter: string): (n: nat)
    ensures n <= |rows|
  {
    if rows == [] then 0
    else (if !rows[0].timeHidden && Matches(rows[0].filterType, filter) then 1 else 0) + MatchingCount(rows[1..], filter)
  }

  /** The count `_applyTypeFilter` accumulates is the number of rows shown afterwards. */
  lemma {:induction false} CountIsShown(rows: seq<Row>, filter: string)
    ensures ShownCount(FilterRows(rows, filter)) == MatchingCount(rows, filter)
  {
    if rows != [] {
      CountIsShown(rows[1..], filter);
      assert FilterRows(rows, filter)[1..] == FilterRows(rows[1..], filter);
    }
  }

  /**
   * `_updateSummary`: the counts, then the facet in parentheses unless it is
   * "all", then the WebSocket count when there are connections.
   */
  function Summary(shown: nat, total: nat, filter: string, wsCount: nat): (r: string)
    ensures StartsWith(r, NatToString(shown) + "/" + NatToString(total) + " requests")
    ensures var n := |NatToString(shown) + "/" + NatToString(total) + " requests"|;
            filter != "all" ==> n + |filter| + 3 <= |r| && r[n..n + |filter| + 3] == " (" + filter + ")"
    ensures wsCount > 0 ==> EndsWith(r, " | " + NatToString(wsCount) + " WS")
    ensures |r| == |NatToString(shown) + "/" + NatToString(total) + " requests"|
                   + (if filter != "all" then |filter| + 3 else 0)
                   + (if wsCount > 0 then |NatToString(wsCount)| + 6 else 0)
    ensures filter == "all" && wsCount == 0 ==> r == NatToString(shown) + "/" + NatToString(total) + " requests"
  {
    var head := NatToString(shown) + "/" + NatToString(total) + " requests";
    var fnote := if filter != "all" then " (" + filter + ")" else "";
    var wnote := if wsCount > 0 then " | " + NatToString(wsCount) + " WS" else "";
    var r := head + fnote + wnote;
    assert r[..|head|] == head;
    assert r[|head|..|head| + |fnote|] == fnote;
    assert r[|r| - |wnote|..] == wnote;
    r
  }

  /** The summary reads back: the count before the slash is the shown count. */
  lemma SummaryReadsBack(shown: nat, total: nat, filter: string, wsCount: nat)
    ensures var parts := Split(Summary(shown, total, filter, wsCount), '/');
            forall i :: 0 <= i < |parts[0]| ==> IsDigit(parts[0][i])
    ensures ParseNat(Split(Summary(shown, total, filter, wsCount), '/')[0]) == shown
  {
    var n := NatToString(shown);
    var r := Summary(shown, total, filter, wsCount);
    assert '/' !in n by {
      forall i | 0 <= i < |n| ensures n[i] != '/' { assert IsDigit(n[i]); }
    }
    var rest := r[|n| + 1..];
    assert r == n + ['/'] + rest;
    SplitAfterPrefix(n, rest, '/');
    ParseNatToString(shown);
  }

  /** The facet note appears iff the facet is not "all"; the WebSocket note iff there are connections. */
  lemma SummaryNotes(shown: nat, total: nat, filter: string, wsCount: nat)
    requires '(' !in filter && '|' !in filter
    ensures '(' in Summary(shown, total, filter, wsCount) <==> filter != "all"
    ensures '|' in Summary(shown, total, filter, wsCount) <==> wsCount > 0
  {
    var head := NatToString(shown) + "/" + NatToString(total) + " requests";
    var w := NatToString(wsCount);
    SummaryPieces(shown, total, filter, wsCount);
    HeadUnmarked(shown, total);
    DigitsUnmarked(w);
    NotesMarked(head, filter, w, filter != "all", wsCount > 0);
  }

  /** The summary is the head followed by whichever notes apply. */
  lemma SummaryPieces(shown: nat, total: nat, filter: string, wsCount: nat)
    ensures Summary(shown, total, filter, wsCount)
         == NatToString(shown) + "/" + NatToString(total) + " requests"
            + (if filter != "all" then " (" + filter + ")" else "")
            + (if wsCount > 0 then " | " + NatToString(wsCount) + " WS" else "")
  {
  }

  /** A numeral holds neither `(` nor `|`. */
  lemma DigitsUnmarked(s: string)
    requires AllDigits(s)
    ensures '(' !in s && '|' !in s
  {
    assert forall i :: 0 <= i < |s| ==> IsDigit(s[i]);
  }

  /** Nor does the summary's head. */
  lemma HeadUnmarked(shown: nat, total: nat)
    ensures var head := NatToString(shown) + "/" + NatToString(total) + " requests";
            '(' !in head && '|' !in head
  {
    var a, b := NatToString(shown), NatToString(total);
    DigitsUnmarked(a);
    DigitsUnmarked(b);
    assert '(' !in "/" && '|' !in "/" && '(' !in " requests" && '|' !in " requests";
  }

  /** The two notes carry the only `(` and `|` of the summary. */
  lemma NotesMarked(head: string, filter: string, w: string, facet: bool, ws: bool)
    requires '(' !in head && '|' !in head && '(' !in filter && '|' !in filter && '(' !in w && '|' !in w
    ensures var s := head + (if facet then " (" + filter + ")" else "") + (if ws then " | " + w + " WS" else "");
            ('(' in s <==> facet) && ('|' in s <==> ws)
  {
    var fnote := if facet then " (" + filter + ")" else "";
    var wnote := if ws then " | " + w + " WS" else "";
    assert '(' !in wnote;
    assert '|' !in fnote;
    if facet {
      assert fnote[1] == '(';
    }
    if ws {
      assert wnote[1] == '|';
    }
  }

  /**
   * `_applyTypeFilter` with `_updateSummary`: re-filter the rows, then count
   * the shown ones; the count never exceeds the number of requests.
   */
  function ApplyTypeFilter(p: Panel): (r: Outcome)
    ensures r.panel == p.(rows := FilterRows(p.rows, p.typeFilter)) && r.scroll.None?
    ensures r.summary == Summary(ShownCount(r.panel.rows), |p.rows|, p.typeFilter, p.wsCount)
    ensures ShownCount(r.panel.rows) == MatchingCount(p.rows, p.typeFilter) <= |p.rows|
  {
    var rows := FilterRows(p.rows, p.typeFilter);
    CountIsShown(p.rows, p.typeFilter);
    Outcome(p.(rows := rows), None, Summary(ShownCount(rows), |p.rows|, p.typeFilter, p.wsCount))
  }

  /** A click on a facet button. */
  function SetTypeFilter(p: Panel, filter: string): (r: Outcome)
    ensures r.panel == p.(typeFilter := filter, rows := FilterRows(p.rows, filter)) && r.scroll.None?
    ensures forall i :: 0 <= i < |p.rows| ==>
              (Shown(r.panel.rows[i]) <==> !p.rows[i].timeHidden && Matches(p.rows[i].filterType, filter))
    ensures r.summary == Summary(MatchingCount(p.rows, filter), |p.rows|, filter, p.wsCount)
  {
    ApplyTypeFilter(p.(typeFilter := filter))
  }

  /** The scan's time flag: reached rows are shown; others are hidden unless their detail pane is open. */
  function TimeHidden(row: Row, t: int): (h: bool)
    ensures row.relativeMs <= t ==> !h
    ensures row.relativeMs > t && !row.detailOpen ==> h
    ensures row.relativeMs > t && row.detailOpen ==> h == row.timeHidden
  {
    if row.relativeMs <= t then false
    else if row.detailOpen then row.timeHidden
    else true
  }

  function Scanned(rows: seq<Row>, t: int, active: Option<nat>): (r: seq<Row>)
    ensures |r| == |rows|
    ensures forall i :: 0 <= i < |rows| ==>
              r[i] == rows[i].(timeHidden := TimeHidden(rows[i], t), active := active == Some(i))
  {
    seq(|rows|, i requires 0 <= i < |rows| =>
      rows[i].(timeHidden := TimeHidden(rows[i], t), active := active == Some(i)))
  }

  /** The scroll target moves only when the last reached row is not the last one scrolled to. */
  function ScrollTarget(last: Option<nat>, visibleCount: nat): (r: Option<nat>)
    ensures r.Some? <==> last.Some? && last.value != visibleCount - 1
    ensures r.Some? ==> r == last
  {
    if last.Some? && last.value != visibleCount - 1 then last else None
  }

  /**
   * `revealAtTime(t)` on the network panel: as on the console panel, except
   * that a row whose detail pane is open is never newly hidden. The scroll
   * state is kept as a count (last index + 1); the facet and summary are
   * re-applied afterwards.
   */
  function RevealAtTime(p: Panel, t: int): (r: Outcome)
    ensures |r.panel.rows| == |p.rows|
    ensures r.panel.typeFilter == p.typeFilter && r.panel.wsCount == p.wsCount
    ensures forall i :: 0 <= i < |p.rows| ==> r.panel.rows[i].timeHidden == TimeHidden(p.rows[i], t)
    ensures r.scroll == ScrollTarget(LastVisible(Rels(p.rows), t), p.visibleCount)
    ensures r.panel.visibleCount == if r.scroll.Some? then r.scroll.value + 1 else p.visibleCount
    ensures r.summary == Summary(ShownCount(r.panel.rows), |p.rows|, p.typeFilter, p.wsCount)
  {
    var rel := Rels(p.rows);
    var scroll := ScrollTarget(LastVisible(rel, t), p.visibleCount);
    var scanned := Scanned(p.rows, t, Active(rel, t));
    var q := Panel(scanned, if scroll.Some? then scroll.value + 1 else p.visibleCount, p.typeFilter, p.wsCount);
    var f := ApplyTypeFilter(q);
    Outcome(f.panel, scroll, f.summary)
  }

  /** Per row: offset, facet and detail state kept; active iff highlighted; shown iff unhidden and matching. */
  lemma RevealRow(p: Panel, t: int, i: nat)
    requires i < |p.rows|
    ensures var row := RevealAtTime(p, t).panel.rows[i];
            && row.relativeMs == p.rows[i].relativeMs && row.filterType == p.rows[i].filterType
            && row.detailOpen == p.rows[i].detailOpen
            && (row.active <==> Active(Rels(p.rows), t) == Some(i))
            && (Shown(row) <==> !TimeHidden(p.rows[i], t) && Matches(p.rows[i].filterType, p.typeFilter))
  {
    var s := Scanned(p.rows, t, Active(Rels(p.rows), t));
    assert s[i] == p.rows[i].(timeHidden := TimeHidden(p.rows[i], t), active := Active(Rels(p.rows), t) == Some(i));
  }

  /** The highlight follows the console panel's rule exactly: at most one row, nearest and within 1500 ms. */
  lemma RevealHighlight(p: Panel, t: int)
    ensures var rows := RevealAtTime(p, t).panel.rows;
            && (forall i :: 0 <= i < |rows| && rows[i].active ==>
                  IsNearest(Rels(p.rows), t, i) && Dist(p.rows[i].relativeMs, t) < ActiveWindowMs)
            && (forall i, j :: 0 <= i < j < |rows| ==> !(rows[i].active && rows[j].active))
            && ((forall i :: 0 <= i < |rows| ==> !rows[i].active) <==>
                (forall i :: 0 <= i < |p.rows| && p.rows[i].relativeMs <= t ==> Dist(p.rows[i].relativeMs, t) >= ActiveWindowMs))
  {
    var rows := RevealAtTime(p, t).panel.rows;
    var act := Active(Rels(p.rows), t);
    forall i | 0 <= i < |rows| ensures rows[i].active <==> act == Some(i) {
      RevealRow(p, t, i);
    }
  }

  /**
   * The exemption in action: a row that was on screen with its detail open
   * stays on screen when the clock is moved back before it, whereas the
   * console panel would hide it.
   */
  lemma OpenDetailSurvivesSeekBack()
    ensures var row := Row(1000, "fetch", false, false, false, true);
            var p := Panel([row], 1, "all", 0);
            var r := RevealAtTime(p, 0);
            !r.panel.rows[0].timeHidden && Shown(r.panel.rows[0]) && r.scroll.None?
  {
    var row := Row(1000, "fetch", false, false, false, true);
    var p := Panel([row], 1, "all", 0);
    RevealRow(p, 0, 0);
  }

  /**
   * The exemption in general: whatever the clock, a row on screen with its
   * detail open is not hidden by a reveal, and its detail stays open.
   */
  lemma OpenDetailStaysVisible(p: Panel, i: nat, t: int)
    requires i < |p.rows| && p.rows[i].detailOpen && !p.rows[i].timeHidden
    ensures !RevealAtTime(p, t).panel.rows[i].timeHidden
    ensures RevealAtTime(p, t).panel.rows[i].detailOpen
  {
  }

  /** With no detail pane open, a reveal hides exactly the rows past the clock, as on the console panel. */
  lemma RevealWithoutOpenDetail(p: Panel, t: int)
    requires forall i :: 0 <= i < |p.rows| ==> !p.rows[i].detailOpen
    ensures forall i :: 0 <= i < |p.rows| ==> (RevealAtTime(p, t).panel.rows[i].timeHidden <==> p.rows[i].relativeMs > t)
  {
  }

  // ---------------------------------------------------------------------------
  // Detail panes (`_toggleDetail`)
  // ---------------------------------------------------------------------------

  /**
   * Two panels over the same rows (offsets, facets, open details, and the
   * hidden state of rows whose detail is open) and the same facet choice.
   */
  predicate SameFrame(a: Panel, b: Panel)
  {
    && |a.rows| == |b.rows| && a.typeFilter == b.typeFilter && a.wsCount == b.wsCount
    && forall i :: 0 <= i < |a.rows| ==>
         a.rows[i].relativeMs == b.rows[i].relativeMs && a.rows[i].filterType == b.rows[i].filterType
         && a.rows[i].detailOpen == b.rows[i].detailOpen
         && (a.rows[i].detailOpen ==> a.rows[i].timeHidden == b.rows[i].timeHidden)
  }

  predicate NoOpenDetail(p: Panel)
  {
    forall i :: 0 <= i < |p.rows| ==> !p.rows[i].detailOpen
  }

  /** Two panels that agree on every row's visibility and highlight. */
  predicate SameFlags(a: Panel, b: Panel)
  {
    && |a.rows| == |b.rows|
    && forall i :: 0 <= i < |a.rows| ==>
         a.rows[i].timeHidden == b.rows[i].timeHidden && a.rows[i].active == b.rows[i].active && Shown(a.rows[i]) == Shown(b.rows[i])
  }

  /**
   * What a reveal shows depends on the frame and the time only; without open
   * details the frame itself is kept.
   */
  lemma RevealByFrame(a: Panel, b: Panel, t: int)
    requires SameFrame(a, b)
    ensures SameFrame(RevealAtTime(a, t).panel, RevealAtTime(b, t).panel)
    ensures SameFlags(RevealAtTime(a, t).panel, RevealAtTime(b, t).panel)
    ensures NoOpenDetail(a) ==> SameFrame(RevealAtTime(a, t).panel, a)
  {
    var ra := RevealAtTime(a, t).panel;
    var rb := RevealAtTime(b, t).panel;
    assert Rels(a.rows) == Rels(b.rows);
    forall i | 0 <= i < |a.rows|
      ensures ra.rows[i].relativeMs == a.rows[i].relativeMs == rb.rows[i].relativeMs
      ensures ra.rows[i].filterType == a.rows[i].filterType == rb.rows[i].filterType
      ensures ra.rows[i].detailOpen == a.rows[i].detailOpen == rb.rows[i].detailOpen
      ensures ra.rows[i].timeHidden == rb.rows[i].timeHidden
      ensures ra.rows[i].active == rb.rows[i].active
      ensures Shown(ra.rows[i]) == Shown(rb.rows[i])
    {
      RevealRow(a, t, i);
      RevealRow(b, t, i);
      assert TimeHidden(a.rows[i], t) == TimeHidden(b.rows[i], t);
    }
  }

  predicate AtMostOneOpen(rows: seq<Row>)
  {
    forall i, j :: 0 <= i < j < |rows| ==> !(rows[i].detailOpen && rows[j].detailOpen)
  }

  /** A click on row `k`: close its pane if open; otherwise close every other pane and open its own. */
  function ToggleDetail(rows: seq<Row>, k: nat): (r: seq<Row>)
    requires k < |rows|
    ensures |r| == |rows|
    ensures r[k].detailOpen == !rows[k].detailOpen
    ensures forall i :: 0 <= i < |rows| && i != k ==> r[i].detailOpen == (rows[i].detailOpen && rows[k].detailOpen)
    ensures forall i :: 0 <= i < |rows| ==> r[i] == rows[i].(detailOpen := r[i].detailOpen)
  {
    if rows[k].detailOpen then rows[k := rows[k].(detailOpen := false)]
    else seq(|rows|, i requires 0 <= i < |rows| => rows[i].(detailOpen := i == k))
  }

  /** Toggling keeps at most one detail pane open. */
  lemma ToggleKeepsOneOpen(rows: seq<Row>, k: nat)
    requires k < |rows| && AtMostOneOpen(rows)
    ensures AtMostOneOpen(ToggleDetail(rows, k))
  {
  }
}

=== FILE: remote_objects.dfy ===
/**
 * Rendering of Chrome DevTools Protocol values captured with the console
 * stream: `Runtime.RemoteObject`, `Runtime.ObjectPreview` and
 * `Runtime.PropertyPreview`, as the console panel turns them into markup.
 * Previews are an inductive datatype, so the recursion through nested
 * `valuePreview`s terminates structurally; there is no depth cap.
 */
module RemoteObjects {

  import opened JsValues
  import opened Text

  /** The `value` field of a RemoteObject: `String(value)` is what gets shown. */
  datatype JsValue = Undefined | Null | Str(s: string) | Scalar(text: string)
  {
    /** `String(value)`. */
    function Show(): string
    {
      match this
      case Undefined => "undefined"
      case Null => "null"
      case Str(s) => s
      case Scalar(t) => t
    }

    /** `value != null`. */
    predicate Present()
    {
      Str? || Scalar?
    }
  }

  /**
   * A RemoteObject. String fields that the renderer only reads through `||`
   * or a truthiness test hold "" when the field is absent.
   */
  datatype RemoteObject = RemoteObject(
    kind: string,          // `type`
    subtype: string,
    value: JsValue,
    description: string,
    className: string,
    preview: Option<ObjectPreview>)

  datatype ObjectPreview = ObjectPreview(
    subtype: string,
    description: string,
    overflow: bool,
    properties: seq<PropertyPreview>)   // an absent list reads as empty

  datatype PropertyPreview = PropertyPreview(
    name: string,
    kind: string,          // `type`
    subtype: string,
    value: Option<string>,
    valuePreview: Option<ObjectPreview>)

  /** `<span class="cls">`. */
  function SpanOpen(cls: string): string
  {
    "<span class=\"" + cls + "\">"
  }

  /** `<span class="cls">content</span>`. */
  function Span(cls: string, content: string): string
  {
    SpanOpen(cls) + content + "</span>"
  }

  /** A span whose content is the escaped form of `text`. */
  ghost predicate ShowsEscaped(r: string, cls: string, text: string)
  {
    r == Span(cls, EscapeHtml(text))
  }

  const UndefinedToken: string := "<span class=\"ro-undefined\">undefined</span>"
  const NullToken: string := "<span class=\"ro-null\">null</span>"
  const FunctionToken: string := "<span class=\"ro-function\">\U{0192}</span>"

  /** The type tags `_renderRemoteObject` has a case for; any other falls to its default. */
  const RemoteKinds: set<string> := {"undefined", "boolean", "number", "bigint", "string", "symbol", "function", "object"}

  /** The type tags `_renderPreviewValue` has a case for. */
  const PreviewKinds: set<string> := {"string", "number", "bigint", "boolean", "undefined", "function", "object"}

  /** The text a string-typed RemoteObject displays. */
  function StringPayload(o: RemoteObject): string
  {
    if o.value.Present() then o.value.Show() else OrStr(o.description, "")
  }

  /** `_renderRemoteObject`: dispatch on the type tag, `object` handled by `RenderObject`. */
  function RenderRemoteObject(obj: Option<RemoteObject>): (r: string)
    ensures obj.None? ==> r == "undefined"
    ensures obj.Some? && obj.value.kind == "undefined" ==> r == UndefinedToken
    ensures obj.Some? && obj.value.kind == "boolean" ==> r == Span("ro-boolean", obj.value.value.Show())
    ensures obj.Some? && obj.value.kind == "number" ==>
              r == Span("ro-number", OrStr(obj.value.description, obj.value.value.Show()))
    ensures obj.Some? && obj.value.kind == "bigint" ==>
              r == Span("ro-number", OrStr(obj.value.description, obj.value.value.Show()) + "n")
    ensures obj.Some? && obj.value.kind == "string" ==> ShowsEscaped(r, "ro-string", StringPayload(obj.value))
    ensures obj.Some? && obj.value.kind == "bigint" ==> EndsWith(r, "n</span>")
    ensures obj.Some? && obj.value.kind == "symbol" ==> ShowsEscaped(r, "ro-symbol", OrStr(obj.value.description, "Symbol()"))
    ensures obj.Some? && obj.value.kind == "function" ==>
              r == Span("ro-function", "\U{0192} " + EscapeHtml(OrStr(obj.value.description, "anonymous")))
    ensures obj.Some? && obj.value.kind == "object" ==> r == RenderObject(obj.value)
    ensures obj.Some? && obj.value.kind == "object" && obj.value.subtype == "null" ==> r == NullToken
    ensures obj.Some? && obj.value.kind !in RemoteKinds ==> r == EscapeHtml(OrStr(obj.value.description, obj.value.value.Show()))
  {
    match obj
    case None => "undefined"
    case Some(o) =>
      if o.kind == "undefined" then UndefinedToken
      else if o.kind == "boolean" then Span("ro-boolean", o.value.Show())
      else if o.kind == "number" then Span("ro-number", OrStr(o.description, o.value.Show()))
      else if o.kind == "bigint" then
        var r := Span("ro-number", OrStr(o.description, o.value.Show()) + "n");
        assert r[|r| - 8..] == "n</span>";
        r
      else if o.kind == "string" then Span("ro-string", EscapeHtml(StringPayload(o)))
      else if o.kind == "symbol" then Span("ro-symbol", EscapeHtml(OrStr(o.description, "Symbol()")))
      else if o.kind == "function" then Span("ro-function", "\U{0192} " + EscapeHtml(OrStr(o.description, "anonymous")))
      else if o.kind == "object" then RenderObject(o)
      else EscapeHtml(OrStr(o.description, o.value.Show()))
  }

  /**
   * `_renderObjectPreview`: the `null` subtype wins over everything else, then
   * errors, regular expressions and dates show only their description, then
   * the preview, then a label.
   */
  function RenderObject(o: RemoteObject): (r: string)
    ensures o.subtype == "null" ==> r == NullToken
    ensures o.subtype == "error" ==> ShowsEscaped(r, "ro-error", OrStr(o.description, "Error"))
    ensures o.subtype == "regexp" ==> ShowsEscaped(r, "ro-regexp", o.description)
    ensures o.subtype == "date" ==> ShowsEscaped(r, "ro-date", o.description)
    ensures o.subtype !in {"null", "error", "regexp", "date"} && o.preview.None? ==>
              ShowsEscaped(r, "ro-object", OrStr(OrStr(o.description, o.className), "Object"))
    ensures o.subtype !in {"null", "error", "regexp", "date"} && o.preview.Some? ==>
              r == RenderPreview(o.preview.value, o.className)
  {
    if o.subtype == "null" then NullToken
    else if o.subtype == "error" then Span("ro-error", EscapeHtml(OrStr(o.description, "Error")))
    else if o.subtype == "regexp" then Span("ro-regexp", EscapeHtml(OrStr(o.description, "")))
    else if o.subtype == "date" then Span("ro-date", EscapeHtml(OrStr(o.description, "")))
    else if o.preview.Some? then RenderPreview(o.preview.value, o.className)
    else Span("ro-object", EscapeHtml(OrStr(OrStr(o.description, o.className), "Object")))
  }

  /** Opening bracket of a non-empty preview. */
  function OpenBracket(isArray: bool, className: string): string
  {
    if isArray then "[" else if className != "" && className != "Object" then className + " {" else "{"
  }

  /** Closing bracket of a non-empty preview. */
  function CloseBracket(isArray: bool): string
  {
    if isArray then "]" else "}"
  }

  /** What an empty preview renders as; `overflow` plays no part. */
  function EmptyPreview(isArray: bool, className: string): string
  {
    if isArray then "[]" else if className != "" then className + " {}" else "{}"
  }

  /**
   * `_renderPreview`. An empty property list ignores `overflow`; otherwise the
   * items sit between the brackets, followed by `, ...` when `overflow` is set.
   */
  function RenderPreview(pv: ObjectPreview, className: string): (r: string)
    ensures |pv.properties| == 0 ==> r == EmptyPreview(pv.subtype == "array", className)
    ensures |pv.properties| > 0 ==> StartsWith(r, OpenBracket(pv.subtype == "array", className))
    ensures |pv.properties| > 0 ==> EndsWith(r, (if pv.overflow then ", ..." else "") + CloseBracket(pv.subtype == "array"))
    decreases pv, 1
  {
    var isArray := pv.subtype == "array";
    if |pv.properties| == 0 then EmptyPreview(isArray, className)
    else
      var open := OpenBracket(isArray, className);
      var tail := (if pv.overflow then ", ..." else "") + CloseBracket(isArray);
      var body := RenderItems(pv, 0);
      var r := open + body + tail;
      assert r[..|open|] == open;
      assert r[|r| - |tail|..] == tail;
      r
  }

  /** The items from index `i` on, joined by ", ". */
  function RenderItems(pv: ObjectPreview, i: nat): string
    requires i <= |pv.properties|
    decreases pv, 0, |pv.properties| - i
  {
    if i == |pv.properties| then ""
    else
      var item := RenderItem(pv.properties[i], pv.subtype == "array");
      if i + 1 == |pv.properties| then item else item + ", " + RenderItems(pv, i + 1)
  }

  /** One item: a bare value in an array, `name: value` otherwise. */
  function RenderItem(p: PropertyPreview, isArray: bool): string
    decreases p, 2
  {
    var val := RenderPreviewValue(p);
    if isArray then val else Span("ro-prop-name", EscapeHtml(p.name)) + ": " + val
  }

  /**
   * `_renderPreviewValue`: a nested preview recurses (labelled by that
   * preview's own description); otherwise a leaf rendering by type tag.
   */
  function RenderPreviewValue(p: PropertyPreview): (r: string)
    ensures p.valuePreview.Some? ==> r == RenderPreview(p.valuePreview.value, p.valuePreview.value.description)
    ensures p.valuePreview.None? && p.kind == "string" ==>
              r == Span("ro-string", "\"" + EscapeHtml(OrStr(p.value.GetOr(""), "")) + "\"")
    ensures p.valuePreview.None? && p.kind == "object" && p.subtype == "null" ==> r == NullToken
    ensures p.valuePreview.None? && p.kind == "object" && p.subtype != "null" ==>
              ShowsEscaped(r, "ro-object", OrStr(p.value.GetOr(""), "Object"))
    ensures p.valuePreview.None? && (p.kind == "number" || p.kind == "bigint") ==> r == Span("ro-number", ToStr(p.value))
    ensures p.valuePreview.None? && p.kind == "boolean" ==> r == Span("ro-boolean", ToStr(p.value))
    ensures p.valuePreview.None? && p.kind == "undefined" ==> r == UndefinedToken
    ensures p.valuePreview.None? && p.kind == "function" ==> r == FunctionToken
    ensures p.valuePreview.None? && p.kind !in PreviewKinds ==> r == EscapeHtml(OrStr(p.value.GetOr(""), ""))
    decreases p, 1
  {
    match p.valuePreview
    case Some(v) => RenderPreview(v, v.description)
    case None =>
      if p.kind == "string" then Span("ro-string", "\"" + EscapeHtml(OrStr(p.value.GetOr(""), "")) + "\"")
      else if p.kind == "number" || p.kind == "bigint" then Span("ro-number", ToStr(p.value))
      else if p.kind == "boolean" then Span("ro-boolean", ToStr(p.value))
      else if p.kind == "undefined" then UndefinedToken
      else if p.kind == "function" then FunctionToken
      else if p.kind == "object" then
        if p.subtype == "null" then NullToken
        else Span("ro-object", EscapeHtml(OrStr(p.value.GetOr(""), "Object")))
      else EscapeHtml(OrStr(p.value.GetOr(""), ""))
  }

  // ---------------------------------------------------------------------------
  // Properties of the preview renderer
  // ---------------------------------------------------------------------------

  /** An empty preview renders the same with and without `overflow`. */
  lemma EmptyPreviewDropsOverflow(pv: ObjectPreview, className: string)
    requires |pv.properties| == 0
    ensures RenderPreview(pv.(overflow := true), className) == RenderPreview(pv.(overflow := false), className)
  {
  }

  /** The ", ..." marker is the only difference `overflow` makes to a non-empty preview. */
  lemma OverflowMarker(pv: ObjectPreview, className: string)
    requires |pv.properties| > 0
    ensures var close := CloseBracket(pv.subtype == "array");
            var without := RenderPreview(pv.(overflow := false), className);
            |without| >= |close| &&
            RenderPreview(pv.(overflow := true), className) == without[..|without| - |close|] + ", ..." + close
  {
    var isArray := pv.subtype == "array";
    var f, t := pv.(overflow := false), pv.(overflow := true);
    var open, close := OpenBracket(isArray, className), CloseBracket(isArray);
    var body := RenderItems(pv, 0);
    ItemsIgnoreOverflow(pv, 0);
    assert RenderPreview(f, className) == open + body + ("" + close);
    assert RenderPreview(t, className) == open + body + (", ..." + close);
    var without := open + body + ("" + close);
    assert without[..|without| - |close|] == open + body;
  }

  lemma ItemsIgnoreOverflow(pv: ObjectPreview, i: nat)
    requires i <= |pv.properties|
    ensures RenderItems(pv.(overflow := true), i) == RenderItems(pv, i)
    ensures RenderItems(pv.(overflow := false), i) == RenderItems(pv, i)
  {
    SameItems(pv.(overflow := true), pv, i);
    SameItems(pv.(overflow := false), pv, i);
  }

  /** The items read only the property list and the subtype. */
  lemma {:induction false} SameItems(pv: ObjectPreview, qv: ObjectPreview, i: nat)
    requires pv.properties == qv.properties && pv.subtype == qv.subtype
    requires i <= |pv.properties|
    ensures RenderItems(pv, i) == RenderItems(qv, i)
    decreases |pv.properties| - i
  {
    if i < |pv.properties| {
      var item := RenderItem(pv.properties[i], pv.subtype == "array");
      assert RenderItem(qv.properties[i], qv.subtype == "array") == item;
      if i + 1 < |pv.properties| {
        SameItems(pv, qv, i + 1);
        assert RenderItems(pv, i) == item + ", " + RenderItems(pv, i + 1);
        assert RenderItems(qv, i) == item + ", " + RenderItems(qv, i + 1);
      } else {
        assert RenderItems(pv, i) == item;
        assert RenderItems(qv, i) == item;
      }
    }
  }

  /** The rendered items of a preview, one per property, in property order. */
  function ItemTexts(pv: ObjectPreview): (r: seq<string>)
    ensures |r| == |pv.properties|
    ensures forall i :: 0 <= i < |pv.properties| ==> r[i] == RenderItem(pv.properties[i], pv.subtype == "array")
  {
    seq(|pv.properties|, i requires 0 <= i < |pv.properties| => RenderItem(pv.properties[i], pv.subtype == "array"))
  }

  /** The items from index `i` on are the `", "`-join of their renderings. */
  lemma {:induction false} ItemsAreJoin(pv: ObjectPreview, i: nat)
    requires i <= |pv.properties|
    ensures RenderItems(pv, i) == Join(ItemTexts(pv)[i..], ", ")
    decreases |pv.properties| - i
  {
    var ts := ItemTexts(pv);
    if i + 1 < |pv.properties| {
      ItemsAreJoin(pv, i + 1);
      assert ts[i..][1..] == ts[i + 1..];
    }
  }

  /**
   * A non-empty preview is the opening bracket, the items joined by `", "`,
   * the overflow marker and the closing bracket; the join puts every item
   * whole at its `PartStart`, one `", "` between neighbours.
   */
  lemma PreviewIsJoin(pv: ObjectPreview, className: string)
    requires |pv.properties| > 0
    ensures var isArray := pv.subtype == "array";
            RenderPreview(pv, className) ==
              OpenBracket(isArray, className) + Join(ItemTexts(pv), ", ")
              + (if pv.overflow then ", ..." else "") + CloseBracket(isArray)
    ensures JoinedLayout(Join(ItemTexts(pv), ", "), ItemTexts(pv), ", ")
  {
    PreviewShape(pv, className);
    JoinLayout(ItemTexts(pv), ", ");
  }

  lemma PreviewShape(pv: ObjectPreview, className: string)
    requires |pv.properties| > 0
    ensures var isArray := pv.subtype == "array";
            RenderPreview(pv, className) ==
              OpenBracket(isArray, className) + Join(ItemTexts(pv), ", ")
              + (if pv.overflow then ", ..." else "") + CloseBracket(isArray)
  {
    ItemsAreJoin(pv, 0);
    assert ItemTexts(pv)[0..] == ItemTexts(pv);
  }

  /** Two property lists that agree on everything but the names. */
  ghost predicate SameButNames(a: seq<PropertyPreview>, b: seq<PropertyPreview>)
  {
    |a| == |b| && forall i :: 0 <= i < |a| ==> a[i].(name := b[i].name) == b[i]
  }

  /** Array items carry no names: renaming the properties of an array preview changes nothing. */
  lemma ArrayItemsIgnoreNames(pv: ObjectPreview, qv: ObjectPreview, className: string)
    requires pv.subtype == "array" && qv.subtype == "array"
    requires pv.overflow == qv.overflow
    requires SameButNames(pv.properties, qv.properties)
    ensures RenderPreview(pv, className) == RenderPreview(qv, className)
  {
    if |pv.properties| > 0 {
      ArrayItemsAgree(pv, qv, 0);
    }
  }

  lemma {:induction false} ArrayItemsAgree(pv: ObjectPreview, qv: ObjectPreview, i: nat)
    requires pv.subtype == "array" && qv.subtype == "array"
    requires SameButNames(pv.properties, qv.properties)
    requires i <= |pv.properties|
    ensures RenderItems(pv, i) == RenderItems(qv, i)
    decreases |pv.properties| - i
  {
    if i < |pv.properties| {
      var p, q := pv.properties[i], qv.properties[i];
      assert p.(name := q.name) == q;
      assert p.valuePreview == q.valuePreview && p.kind == q.kind && p.subtype == q.subtype && p.value == q.value;
      assert RenderPreviewValue(p) == RenderPreviewValue(q);
      ArrayItemsAgree(pv, qv, i + 1);
    }
  }

  /** For objects the name does show: it is the escaped text before ": ". */
  lemma ObjectItemShowsName(p: PropertyPreview)
    ensures StartsWith(RenderItem(p, false), Span("ro-prop-name", EscapeHtml(p.name)) + ": ")
  {
    var h := Span("ro-prop-name", EscapeHtml(p.name)) + ": ";
    assert RenderItem(p, false) == h + RenderPreviewValue(p);
    assert (h + RenderPreviewValue(p))[..|h|] == h;
  }

  // ---------------------------------------------------------------------------
  // Read-back: what a reader of the markup recovers
  // ---------------------------------------------------------------------------

  /**
   * `r` is `prefix`, then markup-free text that decodes to `text`, then
   * `suffix`: the shown value survives the trip through `_escapeHtml`.
   */
  ghost predicate ReadsBackAs(r: string, prefix: string, suffix: string, text: string)
  {
    && |prefix| + |suffix| <= |r|
    && r[..|prefix|] == prefix
    && r[|r| - |suffix|..] == suffix
    && NoTagChars(r[|prefix|..|r| - |suffix|])
    && UnescapeHtml(r[|prefix|..|r| - |suffix|]) == text
  }

  /** Escaped text between a fixed prefix and suffix reads back as the text. */
  lemma EscapedReadsBack(r: string, prefix: string, text: string, suffix: string)
    requires r == prefix + EscapeHtml(text) + suffix
    ensures ReadsBackAs(r, prefix, suffix, text)
  {
    var e := EscapeHtml(text);
    assert r[..|prefix|] == prefix;
    assert r[|r| - |suffix|..] == suffix;
    assert r[|prefix|..|r| - |suffix|] == e;
  }

  /** Where an escaping branch puts its text: the markup before and after it, and the text itself. */
  datatype Reading = Reading(prefix: string, suffix: string, text: string)

  /** The escaping branches of `_renderRemoteObject` outside objects, and what each one shows. */
  function RemoteReading(o: RemoteObject): Option<Reading>
  {
    if o.kind == "string" then Some(Reading(SpanOpen("ro-string"), "</span>", StringPayload(o)))
    else if o.kind == "symbol" then Some(Reading(SpanOpen("ro-symbol"), "</span>", OrStr(o.description, "Symbol()")))
    else if o.kind == "function" then
      Some(Reading(SpanOpen("ro-function") + "\U{0192} ", "</span>", OrStr(o.description, "anonymous")))
    else if o.kind !in RemoteKinds then Some(Reading("", "", OrStr(o.description, o.value.Show())))
    else None
  }

  /** The escaping branches of `_renderObjectPreview`, and the label each one shows. */
  function ObjectReading(o: RemoteObject): Option<Reading>
  {
    if o.subtype == "error" then Some(Reading(SpanOpen("ro-error"), "</span>", OrStr(o.description, "Error")))
    else if o.subtype == "regexp" then Some(Reading(SpanOpen("ro-regexp"), "</span>", o.description))
    else if o.subtype == "date" then Some(Reading(SpanOpen("ro-date"), "</span>", o.description))
    else if o.subtype != "null" && o.preview.None? then
      Some(Reading(SpanOpen("ro-object"), "</span>", OrStr(OrStr(o.description, o.className), "Object")))
    else None
  }

  /** The escaping leaves of `_renderPreviewValue`, and the value each one shows. */
  function LeafReading(p: PropertyPreview): Option<Reading>
  {
    if p.valuePreview.Some? then None
    else if p.kind == "string" then Some(Reading(SpanOpen("ro-string") + "\"", "\"" + "</span>", OrStr(p.value.GetOr(""), "")))
    else if p.kind == "object" && p.subtype != "null" then
      Some(Reading(SpanOpen("ro-object"), "</span>", OrStr(p.value.GetOr(""), "Object")))
    else if p.kind !in PreviewKinds then Some(Reading("", "", OrStr(p.value.GetOr(""), "")))
    else None
  }

  /** The rendering of an escaping branch is its prefix, the escaped text and its suffix. */
  lemma RemoteShape(o: RemoteObject)
    requires RemoteReading(o).Some?
    ensures var w := RemoteReading(o).value;
            RenderRemoteObject(Some(o)) == w.prefix + EscapeHtml(w.text) + w.suffix
  {
    if o.kind == "string" {
      StringKindShape(o);
    } else if o.kind == "symbol" {
      SymbolKindShape(o);
    } else if o.kind == "function" {
      FunctionKindShape(o);
    } else {
      OtherKindShape(o);
    }
  }

  lemma StringKindShape(o: RemoteObject)
    requires o.kind == "string"
    ensures var w := RemoteReading(o).value;
            RenderRemoteObject(Some(o)) == w.prefix + EscapeHtml(w.text) + w.suffix
  {
  }

  lemma SymbolKindShape(o: RemoteObject)
    requires o.kind == "symbol"
    ensures var w := RemoteReading(o).value;
            RenderRemoteObject(Some(o)) == w.prefix + EscapeHtml(w.text) + w.suffix
  {
  }

  lemma FunctionKindShape(o: RemoteObject)
    requires o.kind == "function"
    ensures var w := RemoteReading(o).value;
            RenderRemoteObject(Some(o)) == w.prefix + EscapeHtml(w.text) + w.suffix
  {
  }

  lemma OtherKindShape(o: RemoteObject)
    requires o.kind !in RemoteKinds
    ensures var w := RemoteReading(o).value;
            RenderRemoteObject(Some(o)) == w.prefix + EscapeHtml(w.text) + w.suffix
  {
  }

  /** Every escaping branch of `_renderRemoteObject` outside objects shows exactly its text, markup-free. */
  lemma RemoteObjectReadsBack(o: RemoteObject)
    requires RemoteReading(o).Some?
    ensures var w := RemoteReading(o).value;
            ReadsBackAs(RenderRemoteObject(Some(o)), w.prefix, w.suffix, w.text)
  {
    var w := RemoteReading(o).value;
    RemoteShape(o);
    EscapedReadsBack(RenderRemoteObject(Some(o)), w.prefix, w.text, w.suffix);
  }

  /** The rendering of an escaping object branch is its prefix, the escaped label and its suffix. */
  lemma ObjectShape(o: RemoteObject)
    requires ObjectReading(o).Some?
    ensures var w := ObjectReading(o).value;
            RenderObject(o) == w.prefix + EscapeHtml(w.text) + w.suffix
  {
  }

  /** Every escaping branch of `_renderObjectPreview` shows exactly its label, markup-free. */
  lemma ObjectReadsBack(o: RemoteObject)
    requires ObjectReading(o).Some?
    ensures var w := ObjectReading(o).value;
            ReadsBackAs(RenderObject(o), w.prefix, w.suffix, w.text)
  {
    var w := ObjectReading(o).value;
    ObjectShape(o);
    EscapedReadsBack(RenderObject(o), w.prefix, w.text, w.suffix);
  }

  /** The rendering of an escaping leaf is its prefix, the escaped value and its suffix. */
  lemma LeafShape(p: PropertyPreview)
    requires LeafReading(p).Some?
    ensures var w := LeafReading(p).value;
            RenderPreviewValue(p) == w.prefix + EscapeHtml(w.text) + w.suffix
  {
    if p.kind == "string" {
      StringLeafShape(p);
      assert LeafReading(p) == Some(Reading(SpanOpen("ro-string") + "\"", "\"" + "</span>", OrStr(p.value.GetOr(""), "")));
    } else if p.kind == "object" {
      ObjectLeafShape(p);
    } else {
      OtherLeafShape(p);
    }
  }

  lemma StringLeafShape(p: PropertyPreview)
    requires p.valuePreview.None? && p.kind == "string"
    ensures RenderPreviewValue(p) == (SpanOpen("ro-string") + "\"") + EscapeHtml(OrStr(p.value.GetOr(""), "")) + ("\"" + "</span>")
  {
    var e := EscapeHtml(OrStr(p.value.GetOr(""), ""));
    QuotedSpan("ro-string", e);
  }

  /** A span around quoted content opens with the tag and the quote, and closes with the quote and the tag. */
  lemma QuotedSpan(cls: string, e: string)
    ensures Span(cls, "\"" + e + "\"") == (SpanOpen(cls) + "\"") + e + ("\"" + "</span>")
  {
  }

  lemma ObjectLeafShape(p: PropertyPreview)
    requires p.valuePreview.None? && p.kind == "object" && p.subtype != "null"
    ensures var w := LeafReading(p).value;
            RenderPreviewValue(p) == w.prefix + EscapeHtml(w.text) + w.suffix
  {
  }

  lemma OtherLeafShape(p: PropertyPreview)
    requires p.valuePreview.None? && p.kind !in PreviewKinds
    ensures var w := LeafReading(p).value;
            RenderPreviewValue(p) == w.prefix + EscapeHtml(w.text) + w.suffix
  {
  }

  /** Every escaping leaf of `_renderPreviewValue` shows exactly its value, markup-free. */
  lemma PreviewValueReadsBack(p: PropertyPreview)
    requires LeafReading(p).Some?
    ensures var w := LeafReading(p).value;
            ReadsBackAs(RenderPreviewValue(p), w.prefix, w.suffix, w.text)
  {
    var w := LeafReading(p).value;
    LeafShape(p);
    EscapedReadsBack(RenderPreviewValue(p), w.prefix, w.text, w.suffix);
  }

  /** The item of a property with a nested preview is its name part (objects only), then that preview. */
  /** What an item shows before its value: nothing in an array, else its escaped name and ": ". */
  function NameHead(pv: ObjectPreview, i: nat): string
    requires i < |pv.properties|
  {
    if pv.subtype == "array" then "" else Span("ro-prop-name", EscapeHtml(pv.properties[i].name)) + ": "
  }

  lemma NestedItem(pv: ObjectPreview, i: nat)
    requires i < |pv.properties| && pv.properties[i].valuePreview.Some?
    ensures var v := pv.properties[i].valuePreview.value;
            ItemTexts(pv)[i] == NameHead(pv, i) + RenderPreview(v, v.description)
  {
  }

  /**
   * A property's nested preview appears whole inside the joined items of its
   * parent (which `PreviewIsJoin` places between the brackets), right after
   * the item's name part at the item's place in the join.
   */
  lemma NestedPreviewInside(pv: ObjectPreview, i: nat)
    requires i < |pv.properties| && pv.properties[i].valuePreview.Some?
    ensures var v := pv.properties[i].valuePreview.value;
            PieceAt(Join(ItemTexts(pv), ", "), PartStart(ItemTexts(pv), ", ", i) + |NameHead(pv, i)|, RenderPreview(v, v.description))
  {
    var v := pv.properties[i].valuePreview.value;
    NestedItem(pv, i);
    PieceInJoin(ItemTexts(pv), ", ", i, NameHead(pv, i), RenderPreview(v, v.description));
  }
}

=== FILE: reveal.dfy ===
/**
 * The time-mapping both panels share in `revealAtTime`: which entries the
 * clock has reached, the last of them (the scroll target) and the entry
 * nearest to the clock (the highlight candidate). Entries are given by their
 * `relativeMs` values; nothing here assumes they are sorted.
 */
module Reveal {

  import opened JsValues

  /** The nearest entry is highlighted only while strictly closer than this. */
  const ActiveWindowMs: int := 1500

  /** `Math.abs(rel - t)`. */
  function Dist(rel: int, t: int): (d: nat)
    ensures d == rel - t || d == t - rel
  {
    if rel <= t then t - rel else rel - t
  }

  /** The facet test of both panels: a row passes when the facet is "all" or equals its tag. */
  predicate Matches(tag: string, filter: string)
  {
    filter == "all" || tag == filter
  }

  /** No entry has been reached by the clock. */
  ghost predicate NoneVisible(rel: seq<int>, t: int)
  {
    forall i :: 0 <= i < |rel| ==> rel[i] > t
  }

  /** The largest index whose entry the clock has reached. */
  function LastVisible(rel: seq<int>, t: int): (r: Option<nat>)
    ensures r.None? <==> NoneVisible(rel, t)
    ensures r.Some? ==> r.value < |rel| && rel[r.value] <= t
    ensures r.Some? ==> forall i :: r.value < i < |rel| ==> rel[i] > t
    decreases |rel|
  {
    if rel == [] then None
    else if rel[|rel| - 1] <= t then Some(|rel| - 1)
    else
      var r := LastVisible(rel[..|rel| - 1], t);
      assert forall i :: 0 <= i < |rel| - 1 ==> rel[..|rel| - 1][i] == rel[i];
      r
  }

  /**
   * `k` is the entry the scan settles on: reached by the clock, at minimal
   * distance among the reached entries, and the first such index (later ties
   * do not replace it because the scan compares with a strict `<`).
   */
  ghost predicate IsNearest(rel: seq<int>, t: int, k: int)
  {
    && 0 <= k < |rel| && rel[k] <= t
    && (forall j :: 0 <= j < |rel| && rel[j] <= t ==> Dist(rel[k], t) <= Dist(rel[j], t))
    && (forall j :: 0 <= j < k && rel[j] <= t ==> Dist(rel[k], t) < Dist(rel[j], t))
  }

  /** The highlight candidate: defined on prefixes, one entry at a time, as the scan visits them. */
  function Nearest(rel: seq<int>, t: int): (r: Option<nat>)
    ensures r.None? <==> NoneVisible(rel, t)
    ensures r.Some? ==> IsNearest(rel, t, r.value)
    decreases |rel|
  {
    if rel == [] then None
    else
      var n := |rel| - 1;
      var p := Nearest(rel[..n], t);
      assert forall i :: 0 <= i < n ==> rel[..n][i] == rel[i];
      if rel[n] <= t && (p.None? || Dist(rel[n], t) < Dist(rel[p.value], t)) then Some(n)
      else p
  }

  /** The highlighted entry: the candidate, if it is within the window. */
  function Active(rel: seq<int>, t: int): (r: Option<nat>)
    ensures r.Some? ==> IsNearest(rel, t, r.value) && Dist(rel[r.value], t) < ActiveWindowMs
    ensures r.None? <==> forall i :: 0 <= i < |rel| && rel[i] <= t ==> Dist(rel[i], t) >= ActiveWindowMs
  {
    match Nearest(rel, t)
    case Some(k) => if Dist(rel[k], t) < ActiveWindowMs then Some(k) else None
    case None => None
  }

  /** Extending the scanned prefix by entry `i`: it becomes the last reached entry if the clock has reached it. */
  lemma LastVisibleStep(rel: seq<int>, t: int, i: nat)
    requires i < |rel|
    ensures LastVisible(rel[..i + 1], t) == if rel[i] <= t then Some(i) else LastVisible(rel[..i], t)
  {
    assert rel[..i + 1][..i] == rel[..i];
  }

  /** Extending the scanned prefix by entry `i`: it replaces the candidate only when reached and strictly closer. */
  lemma NearestStep(rel: seq<int>, t: int, i: nat)
    requires i < |rel|
    ensures var p := Nearest(rel[..i], t);
            && (p.Some? ==> p.value < i)
            && Nearest(rel[..i + 1], t) ==
                 if rel[i] <= t && (p.None? || Dist(rel[i], t) < Dist(rel[p.value], t)) then Some(i) else p
  {
    assert rel[..i + 1][..i] == rel[..i];
  }

  /** Number of entries the clock has reached. */
  function VisibleCount(rel: seq<int>, t: int): (n: nat)
    ensures n <= |rel|
    ensures n == 0 <==> NoneVisible(rel, t)
    decreases |rel|
  {
    if rel == [] then 0
    else
      var m := |rel| - 1;
      assert forall i :: 0 <= i < m ==> rel[..m][i] == rel[i];
      VisibleCount(rel[..m], t) + (if rel[m] <= t then 1 else 0)
  }

  /** Non-decreasing `relativeMs`, the order the normalisers produce. */
  ghost predicate Ascending(rel: seq<int>)
  {
    forall i, j :: 0 <= i < j < |rel| ==> rel[i] <= rel[j]
  }

  /** On a sorted stream the reached entries form a prefix, and the last of them ends it. */
  lemma {:induction false} VisiblePrefix(rel: seq<int>, t: int)
    requires Ascending(rel)
    ensures forall i :: 0 <= i < |rel| ==> (rel[i] <= t <==> i < VisibleCount(rel, t))
    ensures LastVisible(rel, t).Some? ==> LastVisible(rel, t).value == VisibleCount(rel, t) - 1
    decreases |rel|
  {
    if rel != [] {
      var m := |rel| - 1;
      var pre := rel[..m];
      assert forall i :: 0 <= i < m ==> pre[i] == rel[i];
      VisiblePrefix(pre, t);
      if rel[m] <= t {
        assert forall i :: 0 <= i < m ==> rel[i] <= t;
      }
    }
  }

  /** Moving the clock forward never hides an entry. */
  lemma {:induction false} VisibleCountMonotone(rel: seq<int>, t1: int, t2: int)
    requires t1 <= t2
    ensures VisibleCount(rel, t1) <= VisibleCount(rel, t2)
    decreases |rel|
  {
    if rel != [] {
      VisibleCountMonotone(rel[..|rel| - 1], t1, t2);
    }
  }

  /**
   * Seeking from `t2` back to `t1` strictly shrinks the revealed set when some
   * entry lies in `(t1, t2]`; seeking forward across it strictly grows it.
   */
  lemma {:induction false} SeekAcrossEntryChangesCount(rel: seq<int>, t1: int, t2: int, k: nat)
    requires t1 < t2 && k < |rel| && t1 < rel[k] <= t2
    ensures VisibleCount(rel, t1) < VisibleCount(rel, t2)
    decreases |rel|
  {
    var m := |rel| - 1;
    var pre := rel[..m];
    if k == m {
      VisibleCountMonotone(pre, t1, t2);
    } else {
      assert pre[k] == rel[k];
      SeekAcrossEntryChangesCount(pre, t1, t2, k);
    }
  }
}

=== FILE: stable_sort.dfy ===
/**
 * The stable ascending sort both panels rely on (`Array.prototype.sort` with a
 * subtracting comparator, which ECMA-262 2019 and later, section 22.1.3.27,
 * requires to be stable). Modelled as insertion sort by an integer key.
 */
module StableSort {

  /** Non-decreasing by `key`. */
  ghost predicate Sorted<T>(s: seq<T>, key: T -> int)
  {
    forall i, j :: 0 <= i < j < |s| ==> key(s[i]) <= key(s[j])
  }

  /** The subsequence of elements whose key is `k`, in their original order. */
  function WithKey<T>(s: seq<T>, key: T -> int, k: int): (r: seq<T>)
    ensures |r| <= |s|
  {
    if s == [] then []
    else (if key(s[0]) == k then [s[0]] else []) + WithKey(s[1..], key, k)
  }

  lemma WithKeyCons<T>(y: T, s: seq<T>, key: T -> int, k: int)
    ensures WithKey([y] + s, key, k) == (if key(y) == k then [y] else []) + WithKey(s, key, k)
  {
    assert ([y] + s)[1..] == s;
  }

  /** Places `x` before the first element whose key is not smaller than its own. */
  function Insert<T>(x: T, s: seq<T>, key: T -> int): (r: seq<T>)
    ensures |r| == |s| + 1
    ensures multiset(r) == multiset(s) + multiset{x}
  {
    if s == [] then [x]
    else if key(s[0]) >= key(x) then [x] + s
    else
      assert s == [s[0]] + s[1..];
      [s[0]] + Insert(x, s[1..], key)
  }

  /** Within every key, the inserted element comes before the ones already there. */
  lemma InsertWithKey<T>(x: T, s: seq<T>, key: T -> int)
    ensures forall k :: WithKey(Insert(x, s, key), key, k) == (if key(x) == k then [x] else []) + WithKey(s, key, k)
  {
    forall k {
      InsertWithKeyAt(x, s, key, k);
    }
  }

  lemma {:induction false} InsertWithKeyAt<T>(x: T, s: seq<T>, key: T -> int, k: int)
    ensures WithKey(Insert(x, s, key), key, k) == (if key(x) == k then [x] else []) + WithKey(s, key, k)
  {
    if s == [] {
      WithKeyCons(x, [], key, k);
    } else if key(s[0]) >= key(x) {
      WithKeyCons(x, s, key, k);
    } else {
      InsertWithKeyAt(x, s[1..], key, k);
      WithKeyCons(s[0], Insert(x, s[1..], key), key, k);
    }
  }

  lemma {:induction false} InsertSorted<T>(x: T, s: seq<T>, key: T -> int)
    requires Sorted(s, key)
    ensures Sorted(Insert(x, s, key), key)
  {
    if s != [] && key(s[0]) < key(x) {
      var tail := Insert(x, s[1..], key);
      InsertSorted(x, s[1..], key);
      InsertBound(x, s[1..], key, key(s[0]));
      var r := [s[0]] + tail;
      forall i, j | 0 <= i < j < |r| ensures key(r[i]) <= key(r[j]) {
        assert r[j] == tail[j - 1];
        if i > 0 {
          assert r[i] == tail[i - 1];
        }
      }
    }
  }

  /** A lower bound on `x` and on every element of `s` bounds every element of the insertion. */
  lemma InsertBound<T>(x: T, s: seq<T>, key: T -> int, b: int)
    requires b <= key(x)
    requires forall k :: 0 <= k < |s| ==> b <= key(s[k])
    ensures forall k :: 0 <= k < |s| + 1 ==> b <= key(Insert(x, s, key)[k])
  {
    var r := Insert(x, s, key);
    forall k | 0 <= k < |r| ensures b <= key(r[k]) {
      assert r[k] in multiset(r);
      if r[k] != x {
        assert r[k] in s;
      }
    }
  }

  /** The stable sort: ascending, a permutation, and the same order among equal keys. */
  function Sort<T>(s: seq<T>, key: T -> int): (r: seq<T>)
    ensures |r| == |s|
    ensures multiset(r) == multiset(s)
    ensures Sorted(r, key)
    ensures forall k :: WithKey(r, key, k) == WithKey(s, key, k)
  {
    if s == [] then []
    else
      var rest := Sort(s[1..], key);
      assert s == [s[0]] + s[1..];
      InsertSorted(s[0], rest, key);
      InsertWithKey(s[0], rest, key);
      assert forall k :: WithKey(s, key, k) == (if key(s[0]) == k then [s[0]] else []) + WithKey(s[1..], key, k) by {
        forall k { WithKeyCons(s[0], s[1..], key, k); }
      }
      Insert(s[0], rest, key)
  }

  lemma {:induction false} WithKeyMember<T>(s: seq<T>, key: T -> int, i: nat)
    requires i < |s|
    ensures s[i] in WithKey(s, key, key(s[i]))
  {
    if i > 0 {
      WithKeyMember(s[1..], key, i - 1);
    }
  }

  lemma {:induction false} WithKeyIn<T>(s: seq<T>, key: T -> int, k: int, x: T)
    requires x in WithKey(s, key, k)
    ensures x in s && key(x) == k
  {
    if s != [] {
      if key(s[0]) == k && x == s[0] {
      } else {
        WithKeyIn(s[1..], key, k, x);
      }
    }
  }

  lemma WithKeyHead<T>(s: seq<T>, key: T -> int)
    requires s != []
    ensures WithKey(s, key, key(s[0])) != []
  {
  }

  /**
   * Stability pins the result down: two sorted sequences with the same
   * elements in the same order within every key are equal. So `Sort` is the
   * only order a stable ascending sort may produce.
   */
  lemma {:induction false} SortedByKeyUnique<T>(a: seq<T>, b: seq<T>, key: T -> int)
    requires Sorted(a, key) && Sorted(b, key)
    requires forall k :: WithKey(a, key, k) == WithKey(b, key, k)
    ensures a == b
    decreases |a| + |b|
  {
    if a == [] && b != [] {
      assert false;
    } else if a != [] && b == [] {
      WithKeyHead(a, key);
      assert false;
    } else if a != [] {
      var ka, kb := key(a[0]), key(b[0]);
      WithKeyMember(b, key, 0);
      WithKeyIn(a, key, kb, b[0]);
      WithKeyMember(a, key, 0);
      WithKeyIn(b, key, ka, a[0]);
      assert ka == kb;
      assert WithKey(a, key, ka)[0] == a[0];
      assert WithKey(b, key, kb)[0] == b[0];
      assert a == [a[0]] + a[1..];
      assert b == [b[0]] + b[1..];
      forall k ensures WithKey(a[1..], key, k) == WithKey(b[1..], key, k) {
        var wa, wb := WithKey(a, key, k), WithKey(b, key, k);
        assert wa == wb;
        assert wa == (if ka == k then [a[0]] else []) + WithKey(a[1..], key, k);
        assert wb == (if kb == k then [b[0]] else []) + WithKey(b[1..], key, k);
        if ka == k {
          assert WithKey(a[1..], key, k) == wa[1..];
          assert WithKey(b[1..], key, k) == wb[1..];
        } else {
          assert [] + WithKey(a[1..], key, k) == WithKey(a[1..], key, k);
          assert [] + WithKey(b[1..], key, k) == WithKey(b[1..], key, k);
        }
      }
      SortedByKeyUnique(a[1..], b[1..], key);
      assert a == [a[0]] + a[1..];
      assert b == [b[0]] + b[1..];
    }
  }

  /** Any sort that is stable and ascending agrees with `Sort`. */
  lemma StableSortIsUnique<T>(s: seq<T>, r: seq<T>, key: T -> int)
    requires Sorted(r, key)
    requires forall k :: WithKey(r, key, k) == WithKey(s, key, k)
    ensures r == Sort(s, key)
  {
    SortedByKeyUnique(r, Sort(s, key), key);
  }
}

=== FILE: stack_frames.dfy ===
/**
 * Rendering of captured call stacks: the console panel's collapsible stack
 * trace (frames may be async-boundary markers) and the network panel's
 * initiator stack (a chain of async parents). Source-mapped `original*`
 * fields take precedence over the raw ones.
 */
module StackFrames {

  import opened JsValues
  import opened Text

  /**
   * One captured frame. `asyncBoundary`, `url` and `originalSource` are only
   * checked for truthiness ("" when absent); the names may be `undefined`,
   * which shows as "undefined"; the 0-based positions may be missing.
   */
  datatype CallFrame = CallFrame(
    asyncBoundary: string,
    functionName: Option<string>,
    url: string,
    lineNumber: Option<int>,
    columnNumber: Option<int>,
    originalName: Option<string>,
    originalSource: string,
    originalLine: Option<int>,
    originalColumn: Option<int>)

  /** `n + 1` on a position that may be `undefined` (which yields NaN). */
  function PlusOne(n: Option<int>): (r: string)
    ensures n.None? ==> r == "NaN"
    ensures n.Some? ==> r == IntToString(n.value + 1)
    ensures n.Some? && n.value >= -1 ==> AllDigits(r) && ParseNat(r) == n.value + 1
    ensures n.Some? && n.value < -1 ==> r[0] == '-'
  {
    match n
    case Some(v) => IntToString(v + 1)
    case None => "NaN"
  }

  /** `(n || 0) + 1`: a missing position counts as the first one. */
  function PlusOneOrFirst(n: Option<int>): (r: string)
    ensures n.None? ==> r == "1"
    ensures n.GetOr(0) >= -1 ==> AllDigits(r) && ParseNat(r) == n.GetOr(0) + 1
  {
    IntToString(n.GetOr(0) + 1)
  }

  const AsyncOpen: string := "<div class=\"stack-frame async-boundary\">--- "
  const AsyncClose: string := " ---</div>"

  const FrameOpen: string := "<div class=\"stack-frame\">at <span class=\"stack-fn\">"
  const LocationSpan: string := " <span class=\"stack-location\">("

  /** `at <name>` followed by the location in parentheses, when there is one. */
  function FrameLine(fnName: string, location: string): (r: string)
    ensures StartsWith(r, FrameOpen + EscapeHtml(fnName) + "</span>") && EndsWith(r, "</div>")
    ensures location == "" ==> |r| == |FrameOpen| + |EscapeHtml(fnName)| + |"</span></div>"|
    ensures |FrameOpen + EscapeHtml(fnName) + "</span>"| + |"</div>"| <= |r|
    ensures location != "" ==>
              r[|FrameOpen + EscapeHtml(fnName) + "</span>"|..|r| - |"</div>"|]
              == LocationSpan + EscapeHtml(location) + ")</span>"
  {
    var head := FrameOpen + EscapeHtml(fnName) + "</span>";
    var loc := if location != "" then LocationSpan + EscapeHtml(location) + ")</span>" else "";
    assert (head + loc + "</div>")[..|head|] == head;
    assert (head + loc + "</div>")[|head|..|head| + |loc|] == loc;
    Enclosed(head, loc, "</div>");
    head + loc + "</div>"
  }

  // ---------------------------------------------------------------------------
  // Console stack traces
  // ---------------------------------------------------------------------------

  /** Location of a console frame: source-mapped if possible, else the raw URL, else nothing. */
  function ConsoleLocation(f: CallFrame): (r: string)
    ensures f.originalSource != "" ==>
              r == f.originalSource + ":" + PlusOne(f.originalLine) + ":" + PlusOne(f.originalColumn)
    ensures f.originalSource == "" && f.url != "" ==> r == f.url + ":" + PlusOne(f.lineNumber) + ":" + PlusOne(f.columnNumber)
    ensures f.originalSource == "" && f.url == "" ==> r == ""
  {
    if f.originalSource != "" then f.originalSource + ":" + PlusOne(f.originalLine) + ":" + PlusOne(f.originalColumn)
    else if f.url != "" then f.url + ":" + PlusOne(f.lineNumber) + ":" + PlusOne(f.columnNumber)
    else ""
  }

  /** One console frame: an async marker, or `at name (location)`; the source-mapped name wins. */
  function ConsoleFrame(f: CallFrame): (r: string)
    ensures f.asyncBoundary != "" ==> r == AsyncOpen + EscapeHtml(f.asyncBoundary) + AsyncClose
    ensures f.asyncBoundary == "" ==> r == FrameLine(ToStr(Or(f.originalName, f.functionName)), ConsoleLocation(f))
  {
    if f.asyncBoundary != "" then AsyncOpen + EscapeHtml(f.asyncBoundary) + AsyncClose
    else FrameLine(ToStr(Or(f.originalName, f.functionName)), ConsoleLocation(f))
  }

  const TraceOpen: string := "<details class=\"stack-trace\"><summary>Stack trace</summary><div class=\"stack-frames\">"
  const TraceClose: string := "</div></details>"

  function ConsoleFrameTexts(frames: seq<CallFrame>): (r: seq<string>)
    ensures |r| == |frames| && forall i :: 0 <= i < |frames| ==> r[i] == ConsoleFrame(frames[i])
  {
    seq(|frames|, i requires 0 <= i < |frames| => ConsoleFrame(frames[i]))
  }

  /** `_renderStackTrace`: nothing for an empty trace, otherwise one collapsible block of the frames in order. */
  function RenderStackTrace(frames: seq<CallFrame>): (r: string)
    ensures |frames| == 0 <==> r == ""
    ensures |frames| > 0 ==> StartsWith(r, TraceOpen) && EndsWith(r, TraceClose)
    ensures |frames| > 0 ==> r == TraceOpen + Join(ConsoleFrameTexts(frames), "") + TraceClose
  {
    if |frames| == 0 then ""
    else
      var body := Join(ConsoleFrameTexts(frames), "");
      Enclosed(TraceOpen, body, TraceClose);
      TraceOpen + body + TraceClose
  }

  /**
   * Frame `i` of a trace is rendered right after the frames before it: at
   * the sum of their lengths past the opening tag, with nothing in between.
   */
  lemma StackTraceInOrder(frames: seq<CallFrame>)
    requires |frames| > 0
    ensures |RenderStackTrace(frames)| == |TraceOpen| + PartStart(ConsoleFrameTexts(frames), "", |frames|) + |TraceClose|
    ensures BackToBack(RenderStackTrace(frames), |TraceOpen|, ConsoleFrameTexts(frames))
  {
    var texts := ConsoleFrameTexts(frames);
    assert RenderStackTrace(frames) == TraceOpen + Join(texts, "") + TraceClose;
    EnclosedJoinLayout(TraceOpen, texts, TraceClose);
  }

  /** The line a location shows: the source-mapped one when there is a mapped source. */
  function LineOf(f: CallFrame): Option<int>
  {
    if f.originalSource != "" then f.originalLine else f.lineNumber
  }

  /** The column a location shows, chosen the same way. */
  function ColumnOf(f: CallFrame): Option<int>
  {
    if f.originalSource != "" then f.originalColumn else f.columnNumber
  }

  /** The location's last two colon-separated fields read back as the 1-based line and column. */
  lemma PositionsReadBack(base: string, line: string, column: string, l: nat, c: nat)
    requires AllDigits(line) && ParseNat(line) == l
    requires AllDigits(column) && ParseNat(column) == c
    ensures var parts := Split(base + ":" + line + ":" + column, ':');
            && |parts| >= 3 && parts[|parts| - 2] == line && parts[|parts| - 1] == column
  {
    assert ':' !in line by { forall i | 0 <= i < |line| ensures line[i] != ':' { assert IsDigit(line[i]); } }
    assert ':' !in column by { forall i | 0 <= i < |column| ensures column[i] != ':' { assert IsDigit(column[i]); } }
    SplitBeforeSuffix(base, line, ':');
    assert base + ":" + line == base + [':'] + line;
    SplitBeforeSuffix(base + ":" + line, column, ':');
    assert base + ":" + line + ":" + column == (base + ":" + line) + [':'] + column;
  }

  /** A console location, mapped or raw, ends in the 1-based line and column it shows. */
  lemma ConsoleLocationReadsBack(f: CallFrame)
    requires f.originalSource != "" || f.url != ""
    requires LineOf(f).Some? && LineOf(f).value >= 0 && ColumnOf(f).Some? && ColumnOf(f).value >= 0
    ensures var parts := Split(ConsoleLocation(f), ':');
            && |parts| >= 3
            && AllDigits(parts[|parts| - 2])
            && AllDigits(parts[|parts| - 1])
            && ParseNat(parts[|parts| - 2]) == LineOf(f).value + 1
            && ParseNat(parts[|parts| - 1]) == ColumnOf(f).value + 1
  {
    var base := if f.originalSource != "" then f.originalSource else f.url;
    PositionsReadBack(base, PlusOne(LineOf(f)), PlusOne(ColumnOf(f)), LineOf(f).value + 1, ColumnOf(f).value + 1);
  }

  /** A frame with a source-mapped location ignores its raw URL and position. */
  lemma SourceMapWins(f: CallFrame, url: string, line: Option<int>, column: Option<int>)
    requires f.originalSource != ""
    ensures ConsoleFrame(f) == ConsoleFrame(f.(url := url, lineNumber := line, columnNumber := column))
  {
  }

  // ---------------------------------------------------------------------------
  // Network initiator stacks
  // ---------------------------------------------------------------------------

  /** A `Runtime.StackTrace`: frames plus an optional async parent with its description. */
  datatype InitiatorStack = InitiatorStack(
    callFrames: seq<CallFrame>,        // an absent list reads as empty
    description: string,
    parent: Option<InitiatorStack>)

  /** Location of an initiator frame: missing positions count as 0. */
  function InitiatorLocation(f: CallFrame): (r: string)
    ensures f.originalSource != "" ==>
              r == f.originalSource + ":" + PlusOneOrFirst(f.originalLine) + ":" + PlusOneOrFirst(f.originalColumn)
    ensures f.originalSource == "" && f.url != "" ==>
              r == f.url + ":" + PlusOneOrFirst(f.lineNumber) + ":" + PlusOneOrFirst(f.columnNumber)
    ensures f.originalSource == "" && f.url == "" ==> r == ""
  {
    if f.originalSource != "" then f.originalSource + ":" + PlusOneOrFirst(f.originalLine) + ":" + PlusOneOrFirst(f.originalColumn)
    else if f.url != "" then f.url + ":" + PlusOneOrFirst(f.lineNumber) + ":" + PlusOneOrFirst(f.columnNumber)
    else ""
  }

  /** One initiator frame; a nameless frame shows "(anonymous)". */
  function InitiatorFrame(f: CallFrame): string
  {
    var name := Or(Or(f.originalName, f.functionName), Some("(anonymous)"));
    FrameLine(ToStr(name), InitiatorLocation(f))
  }

  /** An initiator location, mapped or raw, ends in the 1-based line and column; missing positions read back as 1. */
  lemma InitiatorLocationReadsBack(f: CallFrame)
    requires f.originalSource != "" || f.url != ""
    requires LineOf(f).GetOr(0) >= 0 && ColumnOf(f).GetOr(0) >= 0
    ensures var parts := Split(InitiatorLocation(f), ':');
            && |parts| >= 3
            && AllDigits(parts[|parts| - 2])
            && AllDigits(parts[|parts| - 1])
            && ParseNat(parts[|parts| - 2]) == LineOf(f).GetOr(0) + 1
            && ParseNat(parts[|parts| - 1]) == ColumnOf(f).GetOr(0) + 1
  {
    var base := if f.originalSource != "" then f.originalSource else f.url;
    PositionsReadBack(base, PlusOneOrFirst(LineOf(f)), PlusOneOrFirst(ColumnOf(f)),
                      LineOf(f).GetOr(0) + 1, ColumnOf(f).GetOr(0) + 1);
  }

  function InitiatorFrameTexts(frames: seq<CallFrame>): (r: seq<string>)
    ensures |r| == |frames| && forall i :: 0 <= i < |frames| ==> r[i] == InitiatorFrame(frames[i])
  {
    seq(|frames|, i requires 0 <= i < |frames| => InitiatorFrame(frames[i]))
  }

  /** The frames of one level, in order. */
  function InitiatorFrames(frames: seq<CallFrame>): string
  {
    Join(InitiatorFrameTexts(frames), "")
  }

  const FramesOpen: string := "<div class=\"stack-frames\">"

  /**
   * `_renderInitiatorStack`: empty only for a stack with no frames and no
   * parent; otherwise its frames, then for a parent a boundary marker and the
   * parent's own rendering, nested in the same block.
   */
  function RenderInitiatorStack(stack: InitiatorStack): (r: string)
    ensures r == "" <==> |stack.callFrames| == 0 && stack.parent.None?
    ensures r != "" ==> StartsWith(r, FramesOpen) && EndsWith(r, "</div>")
    ensures stack.parent.None? && |stack.callFrames| > 0 ==> r == FramesOpen + InitiatorFrames(stack.callFrames) + "</div>"
    ensures stack.parent.Some? ==>
              var marker := AsyncOpen + EscapeHtml(OrStr(stack.parent.value.description, "async")) + AsyncClose;
              r == FramesOpen + (InitiatorFrames(stack.callFrames) + (marker
                   + RenderInitiatorStack(stack.parent.value))) + "</div>"
    decreases stack
  {
    if |stack.callFrames| == 0 && stack.parent.None? then ""
    else
      var frames := InitiatorFrames(stack.callFrames);
      var tail := match stack.parent
        case None => ""
        case Some(p) => AsyncOpen + EscapeHtml(OrStr(p.description, "async")) + AsyncClose + RenderInitiatorStack(p);
      assert stack.parent.None? ==> frames + tail == frames;
      Enclosed(FramesOpen, frames + tail, "</div>");
      FramesOpen + (frames + tail) + "</div>"
  }

  /** Number of async parents above a stack. */
  function ParentDepth(stack: InitiatorStack): nat
    decreases stack
  {
    match stack.parent
    case None => 0
    case Some(p) => 1 + ParentDepth(p)
  }

  /** Length of one async boundary marker without its description. */
  const MarkerLength: nat := 54

  /** The whole chain is rendered, however deep: no depth cap truncates it. */
  lemma {:induction false} InitiatorStackLength(stack: InitiatorStack)
    ensures |RenderInitiatorStack(stack)| >= MarkerLength * ParentDepth(stack)
    decreases stack
  {
    if stack.parent.Some? {
      var p := stack.parent.value;
      InitiatorStackLength(p);
      var marker := AsyncOpen + EscapeHtml(OrStr(p.description, "async")) + AsyncClose;
      var rest := RenderInitiatorStack(p);
      var mid := InitiatorFrames(stack.callFrames) + (marker + rest);
      assert RenderInitiatorStack(stack) == FramesOpen + mid + "</div>";
      assert |mid| >= |marker| + |rest|;
      assert |marker| >= |AsyncOpen| + |AsyncClose| == MarkerLength;
    }
  }
}

=== FILE: text.dfy ===
/**
 * String helpers shared by both viewer panels: the HTML escaping routine,
 * POSIX single-quote escaping for generated shell commands, `split`/`join`,
 * `slice(0, n)`, `padStart` and decimal rendering of integers.
 */
module Text {

  import opened JsValues

  // ---------------------------------------------------------------------------
  // Global single-character replacement (`s.replace(/c/g, rep)`)
  // ---------------------------------------------------------------------------

  /** Replaces every occurrence of `c` in `s` with `rep`, left to right. */
  function ReplaceAll(s: string, c: char, rep: string): (r: string)
    ensures c !in rep ==> c !in r
    ensures c !in s ==> r == s
  {
    if s == [] then []
    else (if s[0] == c then rep else [s[0]]) + ReplaceAll(s[1..], c, rep)
  }

  lemma {:induction false} ReplaceAllAppend(a: string, b: string, c: char, rep: string)
    ensures ReplaceAll(a + b, c, rep) == ReplaceAll(a, c, rep) + ReplaceAll(b, c, rep)
  {
    if a == [] {
      assert a + b == b;
    } else {
      assert (a + b)[0] == a[0];
      assert (a + b)[1..] == a[1..] + b;
      ReplaceAllAppend(a[1..], b, c, rep);
    }
  }

  // ---------------------------------------------------------------------------
  // HTML escaping
  // ---------------------------------------------------------------------------

  /** The characters the escaping routine rewrites. */
  predicate Special(c: char)
  {
    c == '&' || c == '<' || c == '>' || c == '"'
  }

  /** The entity written for one character (the character itself when it is not special). */
  function EscapeChar(c: char): string
  {
    if c == '&' then "&amp;"
    else if c == '<' then "&lt;"
    else if c == '>' then "&gt;"
    else if c == '"' then "&quot;"
    else [c]
  }

  /** Reference definition: escape character by character. */
  function EscapeEach(s: string): string
  {
    if s == [] then [] else EscapeChar(s[0]) + EscapeEach(s[1..])
  }

  /**
   * The viewers' `_escapeHtml`: four global replacements applied in order,
   * `&` first so that the entities introduced later are not escaped again.
   */
  function EscapeHtml(s: string): (r: string)
    ensures r == EscapeEach(s)
    ensures forall i :: 0 <= i < |r| ==> r[i] != '<' && r[i] != '>' && r[i] != '"'
    ensures (forall i :: 0 <= i < |s| ==> !Special(s[i])) ==> r == s
    ensures UnescapeHtml(r) == s
  {
    var r := ReplaceChain(s);
    EscapeHtmlCharwise(s);
    EscapeEachSafe(s);
    EscapeEachIdentity(s);
    UnescapeEscape(s);
    r
  }

  /** The four replacements of `_escapeHtml`, in source order. */
  function ReplaceChain(s: string): string
  {
    ReplaceAll(ReplaceAll(ReplaceAll(ReplaceAll(s, '&', "&amp;"), '<', "&lt;"), '>', "&gt;"), '"', "&quot;")
  }

  lemma ReplaceChainAppend(a: string, b: string)
    ensures ReplaceChain(a + b) == ReplaceChain(a) + ReplaceChain(b)
  {
    ReplaceAllAppend(a, b, '&', "&amp;");
    var a1, b1 := ReplaceAll(a, '&', "&amp;"), ReplaceAll(b, '&', "&amp;");
    ReplaceAllAppend(a1, b1, '<', "&lt;");
    var a2, b2 := ReplaceAll(a1, '<', "&lt;"), ReplaceAll(b1, '<', "&lt;");
    ReplaceAllAppend(a2, b2, '>', "&gt;");
    var a3, b3 := ReplaceAll(a2, '>', "&gt;"), ReplaceAll(b2, '>', "&gt;");
    ReplaceAllAppend(a3, b3, '"', "&quot;");
  }

  lemma ReplaceAllOne(c: char, x: char, rep: string)
    ensures ReplaceAll([c], x, rep) == if c == x then rep else [c]
  {
    assert [c][1..] == [];
  }

  lemma ReplaceChainChar(c: char)
    ensures ReplaceChain([c]) == EscapeChar(c)
  {
    if c == '&' {
      ChainAmp();
    } else if c == '<' {
      ChainLt();
    } else if c == '>' {
      ChainGt();
    } else if c == '"' {
      ChainQuot();
    } else {
      ChainPlain(c);
    }
  }

  lemma ChainAmp()
    ensures ReplaceChain("&") == "&amp;"
  {
    ReplaceAllOne('&', '&', "&amp;");
    LaterPassesOver("&amp;");
  }

  /** Text free of `<`, `>` and `"` passes the last three replacements unchanged. */
  lemma LaterPassesOver(e: string)
    requires '<' !in e && '>' !in e && '"' !in e
    ensures ReplaceAll(ReplaceAll(ReplaceAll(e, '<', "&lt;"), '>', "&gt;"), '"', "&quot;") == e
  {
  }

  /** Text free of `>` and `"` passes the last two replacements unchanged. */
  lemma LastTwoPassOver(e: string)
    requires '>' !in e && '"' !in e
    ensures ReplaceAll(ReplaceAll(e, '>', "&gt;"), '"', "&quot;") == e
  {
  }

  lemma ChainLt()
    ensures ReplaceChain("<") == "&lt;"
  {
    ReplaceAllOne('<', '&', "&amp;");
    ReplaceAllOne('<', '<', "&lt;");
    LastTwoPassOver("&lt;");
  }

  lemma ChainGt()
    ensures ReplaceChain(">") == "&gt;"
  {
    ReplaceAllOne('>', '&', "&amp;");
    ReplaceAllOne('>', '<', "&lt;");
    ReplaceAllOne('>', '>', "&gt;");
    LastTwoPassOver("&gt;");
  }

  lemma ChainQuot()
    ensures ReplaceChain("\"") == "&quot;"
  {
    ReplaceAllOne('"', '&', "&amp;");
    ReplaceAllOne('"', '<', "&lt;");
    ReplaceAllOne('"', '>', "&gt;");
    ReplaceAllOne('"', '"', "&quot;");
  }

  lemma ChainPlain(c: char)
    requires !Special(c)
    ensures ReplaceChain([c]) == [c]
  {
    ReplaceAllOne(c, '&', "&amp;");
    ReplaceAllOne(c, '<', "&lt;");
    ReplaceAllOne(c, '>', "&gt;");
    ReplaceAllOne(c, '"', "&quot;");
  }

  lemma {:induction false} EscapeHtmlCharwise(s: string)
    ensures ReplaceChain(s) == EscapeEach(s)
  {
    if s != [] {
      assert s == [s[0]] + s[1..];
      ReplaceChainAppend([s[0]], s[1..]);
      ReplaceChainChar(s[0]);
      EscapeHtmlCharwise(s[1..]);
    }
  }

  lemma {:induction false} EscapeEachSafe(s: string)
    ensures forall i :: 0 <= i < |EscapeEach(s)| ==> EscapeEach(s)[i] != '<' && EscapeEach(s)[i] != '>' && EscapeEach(s)[i] != '"'
  {
    if s != [] {
      EscapeEachSafe(s[1..]);
      var h := EscapeChar(s[0]);
      var t := EscapeEach(s[1..]);
      assert EscapeEach(s) == h + t;
      forall i | 0 <= i < |h + t|
        ensures (h + t)[i] != '<' && (h + t)[i] != '>' && (h + t)[i] != '"'
      {
        if i >= |h| {
          assert (h + t)[i] == t[i - |h|];
        }
      }
    }
  }

  lemma {:induction false} EscapeEachIdentity(s: string)
    ensures (forall i :: 0 <= i < |s| ==> !Special(s[i])) ==> EscapeEach(s) == s
  {
    if s != [] && (forall i :: 0 <= i < |s| ==> !Special(s[i])) {
      assert forall i :: 0 <= i < |s[1..]| ==> s[1..][i] == s[i + 1];
      EscapeEachIdentity(s[1..]);
      assert s == [s[0]] + s[1..];
    }
  }

  /** The partner of `EscapeHtml`: decodes the four entities it writes. */
  function UnescapeHtml(r: string): string
    decreases |r|
  {
    if r == [] then []
    else if |r| >= 5 && r[..5] == "&amp;" then "&" + UnescapeHtml(r[5..])
    else if |r| >= 4 && r[..4] == "&lt;" then "<" + UnescapeHtml(r[4..])
    else if |r| >= 4 && r[..4] == "&gt;" then ">" + UnescapeHtml(r[4..])
    else if |r| >= 6 && r[..6] == "&quot;" then "\"" + UnescapeHtml(r[6..])
    else [r[0]] + UnescapeHtml(r[1..])
  }

  lemma {:induction false} UnescapeEscape(s: string)
    ensures UnescapeHtml(EscapeEach(s)) == s
  {
    if s != [] {
      var c := s[0];
      var t := EscapeEach(s[1..]);
      var h := EscapeChar(c);
      assert EscapeEach(s) == h + t;
      UnescapeEscape(s[1..]);
      UnescapeOne(c, t);
      assert s == [c] + s[1..];
    }
  }

  lemma UnescapeOne(c: char, t: string)
    ensures UnescapeHtml(EscapeChar(c) + t) == [c] + UnescapeHtml(t)
  {
    var h := EscapeChar(c);
    var r := h + t;
    assert r[|h|..] == t;
    if c == '&' {
      assert r[..5] == "&amp;";
    } else if c == '<' {
      assert r[..4] == "&lt;";
      if |r| >= 5 { assert r[..5][1] == 'l'; }
    } else if c == '>' {
      assert r[..4] == "&gt;";
      if |r| >= 5 { assert r[..5][1] == 'g'; }
      assert r[..4][1] == 'g';
    } else if c == '"' {
      assert r[..6] == "&quot;";
      assert r[..5][1] == 'q';
      assert r[..4][1] == 'q';
    } else {
      assert r[0] == c;
      if |r| >= 5 { assert r[..5][0] == c; }
      if |r| >= 4 { assert r[..4][0] == c; }
      if |r| >= 6 { assert r[..6][0] == c; }
    }
  }

  // ---------------------------------------------------------------------------
  // POSIX single-quote escaping (POSIX.1-2017 Shell Command Language, 2.2.2)
  // ---------------------------------------------------------------------------

  /**
   * `s.replace(/'/g, "'\\''")`: close the quoted string, emit a backslash-escaped
   * quote, reopen the quoted string.
   */
  function QuoteBody(s: string): (r: string)
    ensures |r| == |s| + 3 * Count(s, '\'')
  {
    CountAppendOne(s);
    ReplaceAll(s, '\'', "'\\''")
  }

  /** Number of occurrences of `c` in `s`. */
  function Count(s: string, c: char): nat
  {
    if s == [] then 0 else (if s[0] == c then 1 else 0) + Count(s[1..], c)
  }

  lemma {:induction false} CountAppendOne(s: string)
    ensures |ReplaceAll(s, '\'', "'\\''")| == |s| + 3 * Count(s, '\'')
  {
    if s != [] {
      CountAppendOne(s[1..]);
    }
  }

  /** `'` + QuoteBody(s) + `'`: one shell word whose value is `s`. */
  function SingleQuoted(s: string): string
  {
    "'" + QuoteBody(s) + "'"
  }

  /**
   * The value of a shell word made of single-quoted runs and backslash-escaped
   * characters (POSIX.1-2017 Shell Command Language, sections 2.2.1 and
   * 2.2.2): outside quotes a backslash takes the
   * next character literally and a quote opens a run; inside a run every
   * character but the closing quote is literal. `None` for an unterminated run.
   */
  function WordValue(w: string, quoted: bool): Option<string>
    decreases |w|
  {
    if w == [] then (if quoted then None else Some([]))
    else if quoted then
      if w[0] == '\'' then WordValue(w[1..], false)
      else Prepend(w[0], WordValue(w[1..], true))
    else if w[0] == '\'' then WordValue(w[1..], true)
    else if w[0] == '\\' && |w| >= 2 then Prepend(w[1], WordValue(w[2..], false))
    else Prepend(w[0], WordValue(w[1..], false))
  }

  function Prepend(c: char, o: Option<string>): Option<string>
  {
    match o
    case None => None
    case Some(s) => Some([c] + s)
  }

  /** Quoting round trip: the shell reads back exactly the original text. */
  lemma {:induction false} SingleQuotedRoundTrip(s: string)
    ensures WordValue(SingleQuoted(s), false) == Some(s)
  {
    assert SingleQuoted(s)[1..] == QuoteBody(s) + "'";
    QuotedRunValue(s);
  }

  lemma {:induction false} QuotedRunValue(s: string)
    ensures WordValue(QuoteBody(s) + "'", true) == Some(s)
  {
    if s == [] {
      assert QuoteBody(s) + "'" == "'";
    } else {
      var rest := QuoteBody(s[1..]) + "'";
      ReplaceAllAppend([s[0]], s[1..], '\'', "'\\''");
      ReplaceAllOne(s[0], '\'', "'\\''");
      assert s == [s[0]] + s[1..];
      QuotedRunValue(s[1..]);
      if s[0] == '\'' {
        assert QuoteBody(s) + "'" == "'\\''" + rest;
        EscapedQuoteValue(rest);
      } else {
        var w := [s[0]] + rest;
        assert QuoteBody(s) + "'" == w;
        assert w[1..] == rest;
      }
    }
  }

  /** Inside a quoted run, the four characters `'\''` contribute one literal quote. */
  lemma EscapedQuoteValue(rest: string)
    ensures WordValue("'\\''" + rest, true) == Prepend('\'', WordValue(rest, true))
  {
    var w := "'\\''" + rest;
    var w1 := w[1..];
    assert w1 == "\\''" + rest;
    var w2 := w1[2..];
    assert w2 == "'" + rest;
    assert w2[1..] == rest;
    assert WordValue(w2, false) == WordValue(rest, true);
    assert WordValue(w1, false) == Prepend('\'', WordValue(w2, false));
  }

  // ---------------------------------------------------------------------------
  // split / join / slice
  // ---------------------------------------------------------------------------

  /** `parts.join(sep)`. */
  function Join(parts: seq<string>, sep: string): string
  {
    if |parts| == 0 then ""
    else if |parts| == 1 then parts[0]
    else parts[0] + sep + Join(parts[1..], sep)
  }

  /** Where part `i` begins in `Join(parts, sep)`: the lengths of the earlier parts, each with its separator. */
  function PartStart(parts: seq<string>, sep: string, i: nat): nat
    requires i <= |parts|
    decreases i
  {
    if i == 0 then 0 else |parts[0]| + |sep| + PartStart(parts[1..], sep, i - 1)
  }

  /**
   * `r` is `parts` laid end to end with `sep` between neighbours: part `i`
   * sits at `PartStart(parts, sep, i)`, and a separator fills each gap.
   */
  ghost predicate JoinedLayout(r: string, parts: seq<string>, sep: string)
    requires |parts| >= 1
  {
    && |r| + |sep| == PartStart(parts, sep, |parts|)
    && (forall i :: 0 <= i < |parts| ==> PartStart(parts, sep, i + 1) == PartStart(parts, sep, i) + |parts[i]| + |sep|)
    && (forall i :: 0 <= i < |parts| ==> PartStart(parts, sep, i) + |parts[i]| <= |r|)
    && (forall i :: 0 <= i < |parts| ==> r[PartStart(parts, sep, i)..PartStart(parts, sep, i) + |parts[i]|] == parts[i])
    && (forall i :: 0 <= i < |parts| - 1 ==> r[PartStart(parts, sep, i) + |parts[i]|..PartStart(parts, sep, i + 1)] == sep)
  }

  /** A join lays its parts out in order, part `i` at `PartStart(i)` and one separator between neighbours. */
  lemma JoinLayout(parts: seq<string>, sep: string)
    requires |parts| >= 1
    ensures JoinedLayout(Join(parts, sep), parts, sep)
    ensures |Join(parts, sep)| + |sep| == PartStart(parts, sep, |parts|)
    ensures forall i :: 0 <= i < |parts| ==> PartStart(parts, sep, i + 1) == PartStart(parts, sep, i) + |parts[i]| + |sep|
    ensures forall i :: 0 <= i < |parts| ==> PartStart(parts, sep, i) + |parts[i]| <= |Join(parts, sep)|
    ensures forall i :: 0 <= i < |parts| ==>
              Join(parts, sep)[PartStart(parts, sep, i)..PartStart(parts, sep, i) + |parts[i]|] == parts[i]
    ensures forall i :: 0 <= i < |parts| - 1 ==>
              Join(parts, sep)[PartStart(parts, sep, i) + |parts[i]|..PartStart(parts, sep, i + 1)] == sep
  {
    JoinLength(parts, sep);
    forall i | 0 <= i < |parts| ensures PartStart(parts, sep, i + 1) == PartStart(parts, sep, i) + |parts[i]| + |sep| {
      PartStartStep(parts, sep, i);
    }
    forall i | 0 <= i < |parts|
      ensures PartStart(parts, sep, i) + |parts[i]| <= |Join(parts, sep)|
      ensures Join(parts, sep)[PartStart(parts, sep, i)..PartStart(parts, sep, i) + |parts[i]|] == parts[i]
    {
      JoinPartAt(parts, sep, i);
    }
    forall i | 0 <= i < |parts| - 1
      ensures Join(parts, sep)[PartStart(parts, sep, i) + |parts[i]|..PartStart(parts, sep, i + 1)] == sep
    {
      JoinSepAt(parts, sep, i);
    }
  }

  /**
   * From offset `k` on, `r` holds `parts` back to back: part `i` starts `k`
   * plus the total length of the parts before it.
   */
  ghost predicate BackToBack(r: string, k: nat, parts: seq<string>)
  {
    && (forall i :: 0 <= i < |parts| ==> PartStart(parts, "", i + 1) == PartStart(parts, "", i) + |parts[i]|)
    && (forall i :: 0 <= i < |parts| ==> k + PartStart(parts, "", i) + |parts[i]| <= |r|)
    && (forall i :: 0 <= i < |parts| ==> r[k + PartStart(parts, "", i)..k + PartStart(parts, "", i) + |parts[i]|] == parts[i])
  }

  /**
   * The parts of `open + Join(parts, "") + close` sit back to back after
   * `open`, part `i` starting at the total length of the parts before it.
   */
  lemma EnclosedJoinLayout(open: string, parts: seq<string>, close: string)
    requires |parts| >= 1
    ensures |open + Join(parts, "") + close| == |open| + PartStart(parts, "", |parts|) + |close|
    ensures BackToBack(open + Join(parts, "") + close, |open|, parts)
  {
    var r := open + Join(parts, "") + close;
    JoinLength(parts, "");
    forall i | 0 <= i < |parts|
      ensures PartStart(parts, "", i + 1) == PartStart(parts, "", i) + |parts[i]|
    {
      PartStartStep(parts, "", i);
    }
    forall i | 0 <= i < |parts|
      ensures |open| + PartStart(parts, "", i) + |parts[i]| <= |r|
      ensures r[|open| + PartStart(parts, "", i)..|open| + PartStart(parts, "", i) + |parts[i]|] == parts[i]
    {
      JoinPartAt(parts, "", i);
      InfixShift(open, Join(parts, ""), close, PartStart(parts, "", i), parts[i]);
    }
  }

  lemma {:induction false} PartStartStep(parts: seq<string>, sep: string, i: nat)
    requires i < |parts|
    ensures PartStart(parts, sep, i + 1) == PartStart(parts, sep, i) + |parts[i]| + |sep|
    decreases i
  {
    assert PartStart(parts, sep, i + 1) == |parts[0]| + |sep| + PartStart(parts[1..], sep, i);
    if i > 0 {
      PartStartStep(parts[1..], sep, i - 1);
    }
  }

  lemma {:induction false} JoinLength(parts: seq<string>, sep: string)
    requires |parts| >= 1
    ensures |Join(parts, sep)| + |sep| == PartStart(parts, sep, |parts|)
    decreases |parts|
  {
    assert PartStart(parts, sep, |parts|) == |parts[0]| + |sep| + PartStart(parts[1..], sep, |parts| - 1);
    if |parts| > 1 {
      JoinLength(parts[1..], sep);
    }
  }

  lemma {:induction false} JoinPartAt(parts: seq<string>, sep: string, i: nat)
    requires i < |parts|
    ensures PartStart(parts, sep, i) + |parts[i]| <= |Join(parts, sep)|
    ensures Join(parts, sep)[PartStart(parts, sep, i)..PartStart(parts, sep, i) + |parts[i]|] == parts[i]
    decreases i
  {
    var j := Join(parts, sep);
    if i == 0 {
      if |parts| > 1 {
        assert j == parts[0] + sep + Join(parts[1..], sep);
      }
      assert j[..|parts[0]|] == parts[0];
    } else {
      var t := parts[1..];
      var d := |parts[0]| + |sep|;
      JoinPartAt(t, sep, i - 1);
      var k := PartStart(t, sep, i - 1);
      assert j == parts[0] + sep + Join(t, sep);
      assert PartStart(parts, sep, i) == d + k && parts[i] == t[i - 1];
      assert j[d + k..d + k + |t[i - 1]|] == Join(t, sep)[k..k + |t[i - 1]|];
    }
  }

  lemma {:induction false} JoinSepAt(parts: seq<string>, sep: string, i: nat)
    requires i < |parts| - 1
    ensures PartStart(parts, sep, i + 1) <= |Join(parts, sep)|
    ensures PartStart(parts, sep, i + 1) == PartStart(parts, sep, i) + |parts[i]| + |sep|
    ensures Join(parts, sep)[PartStart(parts, sep, i) + |parts[i]|..PartStart(parts, sep, i + 1)] == sep
    decreases i
  {
    var j, t := Join(parts, sep), parts[1..];
    var d := |parts[0]| + |sep|;
    assert j == parts[0] + sep + Join(t, sep);
    PartStartStep(parts, sep, i);
    if i == 0 {
      assert PartStart(parts, sep, 1) == d + PartStart(t, sep, 0);
      assert j[|parts[0]|..d] == sep;
    } else {
      JoinSepAt(t, sep, i - 1);
      var k := PartStart(t, sep, i - 1);
      assert PartStart(parts, sep, i) == d + k && parts[i] == t[i - 1];
      assert PartStart(parts, sep, i + 1) == d + PartStart(t, sep, i);
      assert j[d + k + |t[i - 1]|..d + PartStart(t, sep, i)] == Join(t, sep)[k + |t[i - 1]|..PartStart(t, sep, i)];
    }
  }

  /** No character that could open a tag or close an attribute. */
  predicate NoTagChars(s: string)
  {
    forall i :: 0 <= i < |s| ==> s[i] != '<' && s[i] != '>' && s[i] != '"'
  }

  lemma {:induction false} JoinNoTagChars(parts: seq<string>, sep: string)
    requires forall i :: 0 <= i < |parts| ==> NoTagChars(parts[i])
    requires NoTagChars(sep)
    ensures NoTagChars(Join(parts, sep))
  {
    if |parts| > 1 {
      JoinNoTagChars(parts[1..], sep);
      var rest := Join(parts[1..], sep);
      var r := parts[0] + sep + rest;
      forall i | 0 <= i < |r| ensures r[i] != '<' && r[i] != '>' && r[i] != '"' {
        if i < |parts[0]| {
          assert r[i] == parts[0][i];
        } else if i < |parts[0]| + |sep| {
          assert r[i] == sep[i - |parts[0]|];
        } else {
          assert r[i] == rest[i - |parts[0]| - |sep|];
        }
      }
    }
  }

  /** `s.split(c)` for a one-character separator: never empty, no part contains `c`. */
  function Split(s: string, c: char): (r: seq<string>)
    ensures |r| >= 1
    ensures forall i :: 0 <= i < |r| ==> c !in r[i]
    ensures |r| == Count(s, c) + 1
  {
    if s == [] then [""]
    else
      var rest := Split(s[1..], c);
      if s[0] == c then [""] + rest
      else [[s[0]] + rest[0]] + rest[1..]
  }

  lemma {:induction false} JoinSplit(s: string, c: char)
    ensures Join(Split(s, c), [c]) == s
  {
    if s != [] {
      var rest := Split(s[1..], c);
      JoinSplit(s[1..], c);
      if s[0] == c {
        assert Split(s, c) == [""] + rest;
        assert ([""] + rest)[1..] == rest;
      } else {
        var r := [[s[0]] + rest[0]] + rest[1..];
        assert Split(s, c) == r;
        if |rest| == 1 {
          assert r == [[s[0]] + rest[0]];
        } else {
          assert r[1..] == rest[1..];
          assert Join(rest, [c]) == rest[0] + [c] + Join(rest[1..], [c]);
        }
        assert s == [s[0]] + s[1..];
      }
    }
  }

  lemma {:induction false} SplitJoin(parts: seq<string>, c: char)
    requires |parts| >= 1
    requires forall i :: 0 <= i < |parts| ==> c !in parts[i]
    ensures Split(Join(parts, [c]), c) == parts
  {
    if |parts| == 1 {
      SplitNoSep(parts[0], c);
    } else {
      SplitJoin(parts[1..], c);
      SplitAfterPrefix(parts[0], Join(parts[1..], [c]), c);
    }
  }

  lemma {:induction false} SplitNoSep(s: string, c: char)
    requires c !in s
    ensures Split(s, c) == [s]
  {
    if s != [] {
      assert c !in s[1..] by {
        forall i | 0 <= i < |s[1..]| ensures s[1..][i] != c { assert s[1..][i] == s[i + 1]; }
      }
      SplitNoSep(s[1..], c);
      assert s == [s[0]] + s[1..];
    }
  }

  lemma {:induction false} SplitAfterPrefix(p: string, t: string, c: char)
    requires c !in p
    ensures Split(p + [c] + t, c) == [p] + Split(t, c)
  {
    if p == [] {
      assert p + [c] + t == [c] + t;
      assert ([c] + t)[1..] == t;
    } else {
      assert c !in p[1..] by {
        forall i | 0 <= i < |p[1..]| ensures p[1..][i] != c { assert p[1..][i] == p[i + 1]; }
      }
      SplitAfterPrefix(p[1..], t, c);
      assert (p + [c] + t)[1..] == p[1..] + [c] + t;
      assert p == [p[0]] + p[1..];
    }
  }

  lemma {:induction false} SplitBeforeSuffix(s: string, t: string, c: char)
    requires c !in t
    ensures Split(s + [c] + t, c) == Split(s, c) + [t]
  {
    if s == [] {
      assert s + [c] + t == [c] + t;
      assert ([c] + t)[1..] == t;
      SplitNoSep(t, c);
    } else {
      SplitBeforeSuffix(s[1..], t, c);
      assert (s + [c] + t)[1..] == s[1..] + [c] + t;
      assert (s + [c] + t)[0] == s[0];
    }
  }

  /** `s.slice(0, n)`. */
  function Take(s: string, n: nat): (r: string)
    ensures |r| <= n && |r| <= |s|
    ensures |s| <= n ==> r == s
    ensures |s| > n ==> |r| == n
    ensures r <= s
  {
    if |s| <= n then s else s[..n]
  }

  predicate StartsWith(s: string, p: string)
  {
    |p| <= |s| && s[..|p|] == p
  }

  predicate EndsWith(s: string, p: string)
  {
    |p| <= |s| && s[|s| - |p|..] == p
  }

  /** Markup built as opening tag, content, closing tag starts and ends with the tags. */
  lemma Enclosed(open: string, body: string, close: string)
    ensures StartsWith(open + body + close, open)
    ensures EndsWith(open + body + close, close)
  {
    var s := open + body + close;
    assert s[..|open|] == open;
    assert s[|s| - |close|..] == close;
  }

  // ---------------------------------------------------------------------------
  // Decimal numbers
  // ---------------------------------------------------------------------------

  predicate IsDigit(c: char)
  {
    '0' <= c <= '9'
  }

  predicate AllDigits(s: string)
  {
    forall i :: 0 <= i < |s| ==> IsDigit(s[i])
  }

  /** A piece found at `k` inside `m` is found `|a|` further on inside `a + m + b`. */
  lemma InfixShift(a: string, m: string, b: string, k: nat, x: string)
    requires k + |x| <= |m| && m[k..k + |x|] == x
    ensures |a| + k + |x| <= |a + m + b| && (a + m + b)[|a| + k..|a| + k + |x|] == x
  {
    assert (a + m + b)[|a| + k..|a| + k + |x|] == m[k..k + |x|];
  }

  /** Part `i` of a join sits whole inside any text that wraps the join, after the text before it. */
  lemma PartInside(r: string, a: string, parts: seq<string>, sep: string, b: string, c: string, i: nat)
    requires r == a + Join(parts, sep) + b + c
    requires i < |parts|
    ensures var k := |a| + PartStart(parts, sep, i);
            k + |parts[i]| <= |r| && r[k..k + |parts[i]|] == parts[i]
  {
    var j := Join(parts, sep);
    var ps := PartStart(parts, sep, i);
    JoinLayout(parts, sep);
    assert ps + |parts[i]| <= |j| && j[ps..ps + |parts[i]|] == parts[i];
    InfixShift(a, j, b + c, ps, parts[i]);
    assert r == a + j + (b + c);
  }

  /** `y` sits whole in `s` starting at index `k`. */
  ghost predicate PieceAt(s: string, k: nat, y: string)
  {
    k + |y| <= |s| && s[k..k + |y|] == y
  }

  /** The tail `y` of part `i` of a join, after a head `h`, sits whole in the join right after `h`. */
  lemma PieceInJoin(parts: seq<string>, sep: string, i: nat, h: string, y: string)
    requires i < |parts| && parts[i] == h + y
    ensures PieceAt(Join(parts, sep), PartStart(parts, sep, i) + |h|, y)
  {
    var j := Join(parts, sep);
    PartInside(j, "", parts, sep, "", "", i);
    SliceOfConcat(j, PartStart(parts, sep, i), h, y);
  }

  /** When `h + y` sits at `k` in `s`, `y` sits at `k + |h|`. */
  lemma SliceOfConcat(s: string, k: nat, h: string, y: string)
    requires k + |h + y| <= |s| && s[k..k + |h + y|] == h + y
    ensures k + |h| + |y| <= |s| && s[k + |h|..k + |h| + |y|] == y
  {
    assert s[k + |h|..k + |h| + |y|] == s[k..k + |h + y|][|h|..];
  }

  function DigitChar(d: nat): (c: char)
    requires d < 10
    ensures IsDigit(c) && (c as int) - ('0' as int) == d
  {
    "0123456789"[d]
  }

  /** `String(n)` for a natural number: shortest decimal form. */
  function NatToString(n: nat): (r: string)
    ensures |r| >= 1
    ensures forall i :: 0 <= i < |r| ==> IsDigit(r[i])
    ensures r[0] == '0' ==> n == 0 && r == "0"
    decreases n
  {
    if n < 10 then [DigitChar(n)] else NatToString(n / 10) + [DigitChar(n % 10)]
  }

  /** Value of a string of decimal digits. */
  function ParseNat(s: string): nat
    requires forall i :: 0 <= i < |s| ==> IsDigit(s[i])
  {
    if s == [] then 0
    else ParseNat(s[..|s| - 1]) * 10 + DigitValue(s[|s| - 1])
  }

  function DigitValue(c: char): (d: nat)
    requires IsDigit(c)
    ensures d < 10
  {
    (c as int) - ('0' as int)
  }

  lemma {:induction false} ParseNatToString(n: nat)
    ensures ParseNat(NatToString(n)) == n
    decreases n
  {
    if n >= 10 {
      var r := NatToString(n);
      assert r[..|r| - 1] == NatToString(n / 10);
      ParseNatToString(n / 10);
    }
  }

  /** `String(i)` for an integer. */
  function IntToString(i: int): (r: string)
    ensures i >= 0 ==> r == NatToString(i)
    ensures i < 0 ==> r == "-" + NatToString(-i)
    ensures i >= 0 ==> (forall k :: 0 <= k < |r| ==> IsDigit(r[k])) && ParseNat(r) == i
    ensures i < 0 ==> |r| >= 2 && r[0] == '-' && (forall k :: 1 <= k < |r| ==> IsDigit(r[k])) && ParseNat(r[1..]) == -i
  {
    if i >= 0 then
      ParseNatToString(i);
      NatToString(i)
    else
      var m := NatToString(-i);
      ParseNatToString(-i);
      assert ("-" + m)[1..] == m;
      "-" + m
  }

  /** `s.padStart(n, c)`: left-pad to width `n`, never truncating. */
  function PadStart(s: string, n: nat, c: char): (r: string)
    ensures |r| == if |s| >= n then |s| else n
    ensures EndsWith(r, s)
    ensures forall i :: 0 <= i < |r| - |s| ==> r[i] == c
  {
    if |s| >= n then s else Repeat(c, n - |s|) + s
  }

  function Repeat(c: char, k: nat): (r: string)
    ensures |r| == k && forall i :: 0 <= i < k ==> r[i] == c
  {
    if k == 0 then [] else [c] + Repeat(c, k - 1)
  }

  /** Leading zeros do not change the value of a numeral. */
  lemma {:induction false} ParseNatLeadingZeros(s: string, k: nat)
    requires forall i :: 0 <= i < |s| ==> IsDigit(s[i])
    ensures forall i :: 0 <= i < |Repeat('0', k) + s| ==> IsDigit((Repeat('0', k) + s)[i])
    ensures ParseNat(Repeat('0', k) + s) == ParseNat(s)
    decreases |s|
  {
    var z := Repeat('0', k);
    assert forall i :: 0 <= i < |z + s| ==> IsDigit((z + s)[i]) by {
      forall i | 0 <= i < |z + s| ensures IsDigit((z + s)[i]) {
        if i < |z| { assert (z + s)[i] == z[i]; } else { assert (z + s)[i] == s[i - |z|]; }
      }
    }
    if s == [] {
      assert z + s == z;
      ZerosParse(k);
    } else {
      var s' := s[..|s| - 1];
      ParseNatLeadingZeros(s', k);
      assert (z + s)[..|z + s| - 1] == z + s';
    }
  }

  lemma {:induction false} ZerosParse(k: nat)
    ensures ParseNat(Repeat('0', k)) == 0
  {
    if k > 0 {
      var z := Repeat('0', k);
      assert z[..|z| - 1] == Repeat('0', k - 1);
      ZerosParse(k - 1);
    }
  }

  /** A zero-padded numeral reads back as the number it was made from. */
  lemma PaddedNumeralRoundTrip(n: nat, width: nat)
    ensures forall i :: 0 <= i < |PadStart(NatToString(n), width, '0')| ==> IsDigit(PadStart(NatToString(n), width, '0')[i])
    ensures ParseNat(PadStart(NatToString(n), width, '0')) == n
  {
    var s := NatToString(n);
    ParseNatToString(n);
    if |s| < width {
      ParseNatLeadingZeros(s, width - |s|);
    }
  }

  // ---------------------------------------------------------------------------
  // Case
  // ---------------------------------------------------------------------------

  /** `toUpperCase` on the ASCII letters (other characters are kept). */
  function UpperAscii(s: string): (r: string)
    ensures |r| == |s|
    ensures forall i :: 0 <= i < |s| ==> r[i] == (if 'a' <= s[i] <= 'z' then (s[i] as int - 32) as char else s[i])
  {
    if s == [] then []
    else [if 'a' <= s[0] <= 'z' then (s[0] as int - 32) as char else s[0]] + UpperAscii(s[1..])
  }
}

=== FILE: time_format.dfy ===
/**
 * Clock labels: "mm:ss" (network rows and the player) and "mm:ss.mmm"
 * (console rows). Negative times show as zero; minutes are not capped, so
 * from 100 minutes on the minute field grows beyond two digits, and only
 * then: a field wider than two digits never starts with '0'.
 */
module TimeFormat {

  import opened Text

  /** `Math.max(0, ms)`. */
  function Clamp(ms: int): (r: nat)
    ensures ms >= 0 ==> r == ms
    ensures ms < 0 ==> r == 0
  {
    if ms < 0 then 0 else ms
  }

  function Pow10(k: nat): (p: nat)
    ensures p >= 1
  {
    if k == 0 then 1 else 10 * Pow10(k - 1)
  }

  /** A number below `10^k` needs at most `k` digits. */
  lemma {:induction false} NumeralWidth(n: nat, k: nat)
    requires k >= 1 && n < Pow10(k)
    ensures |NatToString(n)| <= k
  {
    if n >= 10 {
      assert k >= 2;
      assert n / 10 < Pow10(k - 1);
      NumeralWidth(n / 10, k - 1);
    }
  }

  /** `String(n).padStart(width, "0")`, which reads back as `n`. */
  function Field(n: nat, width: nat): (r: string)
    ensures |r| >= width
    ensures width >= 1 && n < Pow10(width) ==> |r| == width
    ensures width >= 1 ==> |r| == width || r[0] != '0'
    ensures forall i :: 0 <= i < |r| ==> IsDigit(r[i])
    ensures ParseNat(r) == n
  {
    PaddedNumeralRoundTrip(n, width);
    assert width >= 1 && n < Pow10(width) ==> |NatToString(n)| <= width by {
      if width >= 1 && n < Pow10(width) { NumeralWidth(n, width); }
    }
    PadStart(NatToString(n), width, '0')
  }

  /** Both sides of a separator can be cut back out of the joined string. */
  lemma Joined(a: string, sep: char, b: string)
    ensures |a + [sep] + b| == |a| + 1 + |b|
    ensures (a + [sep] + b)[..|a|] == a
    ensures (a + [sep] + b)[|a|] == sep
    ensures (a + [sep] + b)[|a| + 1..] == b
  {
  }

  /** "mm:ss": whole minutes and the seconds within the minute of `Math.max(0, ms)`. */
  function MinSec(ms: int): (r: string)
    ensures MinSecOf(r, Clamp(ms) / 1000)
  {
    var totalSec := Clamp(ms) / 1000;
    var m, s := totalSec / 60, totalSec % 60;
    assert m * 60 + s == totalSec && s < 60;
    var min := Field(m, 2);
    var sec := Field(s, 2);
    assert |sec| == 2 by { assert Pow10(2) == 100; }
    ColonJoin(min, sec, totalSec);
    min + [':'] + sec
  }

  /**
   * `r` reads "minutes:seconds" with 2-digit seconds below 60, all other
   * characters digits, and the two fields add up to `total` seconds. The
   * minute field is exactly two digits unless it has no leading zero.
   */
  ghost predicate MinSecOf(r: string, total: nat)
  {
    && |r| >= 5 && r[|r| - 3] == ':'
    && (|r| == 5 || r[0] != '0')
    && (forall i :: 0 <= i < |r| && i != |r| - 3 ==> IsDigit(r[i]))
    && ParseNat(r[..|r| - 3]) * 60 + ParseNat(r[|r| - 2..]) == total
    && ParseNat(r[|r| - 2..]) < 60
  }

  /** Two digit fields joined by ':' read back as minutes and seconds. */
  lemma ColonJoin(a: string, b: string, total: nat)
    requires |a| >= 2 && |b| == 2
    requires |a| == 2 || a[0] != '0'
    requires forall i :: 0 <= i < |a| ==> IsDigit(a[i])
    requires forall i :: 0 <= i < |b| ==> IsDigit(b[i])
    requires ParseNat(a) * 60 + ParseNat(b) == total && ParseNat(b) < 60
    ensures MinSecOf(a + [':'] + b, total)
  {
    var r := a + [':'] + b;
    Joined(a, ':', b);
    forall i | 0 <= i < |r| && i != |r| - 3 ensures IsDigit(r[i]) {
      if i < |a| { assert r[i] == a[i]; } else { assert r[i] == b[i - |a| - 1]; }
    }
    assert r[..|r| - 3] == a && r[|r| - 2..] == b;
  }

  lemma Rescale(minutes: int, seconds: int, m: nat)
    requires minutes * 60 + seconds == m / 1000
    ensures minutes * 60000 + seconds * 1000 + m % 1000 == m
  {
    assert minutes * 60000 + seconds * 1000 == (minutes * 60 + seconds) * 1000;
  }

  /**
   * `r` reads "minutes:seconds.millis" with 2-digit seconds and 3-digit
   * milliseconds, and the three fields add up to `m` milliseconds. The
   * minute field is exactly two digits unless it has no leading zero.
   */
  ghost predicate MillisLabelOf(r: string, m: nat)
  {
    && |r| >= 9 && r[|r| - 7] == ':' && r[|r| - 4] == '.'
    && (|r| == 9 || r[0] != '0')
    && (forall i :: 0 <= i < |r| && i != |r| - 7 && i != |r| - 4 ==> IsDigit(r[i]))
    && ParseNat(r[..|r| - 7]) * 60000 + ParseNat(r[|r| - 6..|r| - 4]) * 1000 + ParseNat(r[|r| - 3..]) == m
    && ParseNat(r[|r| - 6..|r| - 4]) < 60
  }

  lemma MillisField(m: nat)
    ensures var f := Field(m % 1000, 3); |f| == 3 && ParseNat(f) == m % 1000
  {
    assert Pow10(3) == 1000;
  }

  lemma MillisLabel(head: string, millis: string, m: nat)
    requires MinSecOf(head, m / 1000)
    requires |millis| == 3 && (forall i :: 0 <= i < 3 ==> IsDigit(millis[i])) && ParseNat(millis) == m % 1000
    ensures MillisLabelOf(head + "." + millis, m)
  {
    var r := head + "." + millis;
    assert r[..|head|] == head;
    assert r[0] == head[0];
    assert r[..|r| - 7] == head[..|head| - 3];
    assert r[|r| - 6..|r| - 4] == head[|head| - 2..];
    assert r[|r| - 3..] == millis;
    Rescale(ParseNat(head[..|head| - 3]), ParseNat(head[|head| - 2..]), m);
  }
}

=== FILE: timeline_sync.dfy ===
/**
 * The glue between the player and the two panels: every time update and
 * every seek reveals both panels at the player's time, console first.
 */
module TimelineSync {

  import ConsoleViewer
  import NetworkViewer

  /** The two panels the glue drives. */
  datatype Panels = Panels(console: ConsoleViewer.Panel, network: NetworkViewer.Panel)

  /** What the player reports: a (throttled) time update or a finished seek, both in milliseconds. */
  datatype PlayerEvent = TimeUpdate(timeMs: int) | Seeked(timeMs: int)

  /** One panel call the glue makes. */
  datatype Call = RevealConsole(timeMs: int) | RevealNetwork(timeMs: int)

  /** The calls one player event triggers; both kinds of event install the same handler. */
  function Calls(e: PlayerEvent): (r: seq<Call>)
    ensures |r| == 2 && r[0].RevealConsole? && r[1].RevealNetwork?
    ensures forall k :: 0 <= k < |r| ==> r[k].timeMs == e.timeMs
  {
    [RevealConsole(e.timeMs), RevealNetwork(e.timeMs)]
  }

  /** A tick and a seek to the same time trigger the same calls. */
  lemma SameHandler(t: int)
    ensures Calls(TimeUpdate(t)) == Calls(Seeked(t))
  {
  }

  function Perform(v: Panels, c: Call): Panels
  {
    match c
    case RevealConsole(t) => v.(console := ConsoleViewer.RevealAtTime(v.console, t).panel)
    case RevealNetwork(t) => v.(network := NetworkViewer.RevealAtTime(v.network, t).panel)
  }

  function PerformAll(v: Panels, cs: seq<Call>): Panels
    decreases |cs|
  {
    if cs == [] then v else PerformAll(Perform(v, cs[0]), cs[1..])
  }

  /** One player event: both panels revealed at the event's time. */
  function Step(v: Panels, e: PlayerEvent): (r: Panels)
    ensures r.console == ConsoleViewer.RevealAtTime(v.console, e.timeMs).panel
    ensures r.network == NetworkViewer.RevealAtTime(v.network, e.timeMs).panel
  {
    var cs := Calls(e);
    var v1 := Perform(v, cs[0]);
    var v2 := Perform(v1, cs[1]);
    assert cs[1..][1..] == [];
    assert PerformAll(v1, cs[1..]) == PerformAll(v2, cs[1..][1..]) == v2;
    PerformAll(v, cs)
  }

  /** A run of player events, handled in order. */
  function Run(v: Panels, es: seq<PlayerEvent>): Panels
    decreases |es|
  {
    if es == [] then v else Step(Run(v, es[..|es| - 1]), es[|es| - 1])
  }

  /**
   * The console panel after any run of events shows exactly what one reveal
   * at the last event's time shows: earlier ticks and seeks leave no trace.
   */
  lemma {:induction false} ConsoleLastEventWins(v: Panels, es: seq<PlayerEvent>)
    requires |es| >= 1
    ensures ConsoleViewer.SameFrame(Run(v, es).console, v.console)
    ensures ConsoleViewer.SameFlags(Run(v, es).console, ConsoleViewer.RevealAtTime(v.console, es[|es| - 1].timeMs).panel)
  {
    var prev := Run(v, es[..|es| - 1]);
    var t := es[|es| - 1].timeMs;
    if |es| == 1 {
      assert prev == v;
      ConsoleViewer.RevealByFrame(v.console, v.console, t);
    } else {
      ConsoleLastEventWins(v, es[..|es| - 1]);
      ConsoleViewer.RevealByFrame(prev.console, v.console, t);
    }
  }

  /**
   * The same for the network panel while no request detail is open. With an
   * open detail the panel remembers earlier reveals (a seek back keeps the
   * open row visible), so the premise cannot be dropped.
   */
  lemma {:induction false} NetworkLastEventWins(v: Panels, es: seq<PlayerEvent>)
    requires |es| >= 1
    requires NetworkViewer.NoOpenDetail(v.network)
    ensures NetworkViewer.SameFrame(Run(v, es).network, v.network)
    ensures NetworkViewer.SameFlags(Run(v, es).network, NetworkViewer.RevealAtTime(v.network, es[|es| - 1].timeMs).panel)
  {
    var prev := Run(v, es[..|es| - 1]);
    var t := es[|es| - 1].timeMs;
    if |es| == 1 {
      assert prev == v;
      NetworkViewer.RevealByFrame(v.network, v.network, t);
    } else {
      NetworkLastEventWins(v, es[..|es| - 1]);
      assert NetworkViewer.NoOpenDetail(prev.network);
      NetworkViewer.RevealByFrame(prev.network, v.network, t);
    }
  }
}

=== FILE: video_player.dfy ===
/**
 * The player's time plumbing: the throttled time-update fan-out, the
 * unthrottled seek fan-out, keyboard seeking, the effective duration and the
 * timeline marker dots. Times are whole milliseconds.
 */
module VideoPlayer {

  import opened JsValues
  import opened TimeFormat

  /** Minimum gap between two time-update fan-outs. */
  const ThrottleMs: int := 250

  /** Arrow-key seek steps, plain and with Shift. */
  const StepMs: nat := 5000
  const ShiftStepMs: nat := 10000

  /**
   * The state the fan-outs read: the playhead, the instant of the last
   * time-update fan-out (0 at construction) and how many listeners of each
   * kind are registered.
   */
  datatype Player = Player(currentMs: int, lastEmit: int, timeListeners: nat, seekListeners: nat)

  /** One listener call: the listener's registration index and the time passed to it. */
  datatype Emit = Emit(listener: nat, timeMs: int)

  /** The outcome of one media event: the new state and the listener calls, in order. */
  datatype Handled = Handled(player: Player, emits: seq<Emit>)

  /** Every registered listener, in registration order, called with the same time. */
  function FanOut(n: nat, t: int): (r: seq<Emit>)
    ensures |r| == n
    ensures forall i :: 0 <= i < n ==> r[i].listener == i && r[i].timeMs == t
  {
    seq(n, i requires 0 <= i < n => Emit(i, t))
  }

  predicate Emits(lastEmit: int, now: int)
  {
    now - lastEmit >= ThrottleMs
  }

  /** A `timeupdate` at clock reading `now`: dropped within 250 ms of the last fan-out, else a fan-out. */
  function OnTimeUpdate(p: Player, now: int): (r: Handled)
    ensures now - p.lastEmit < ThrottleMs ==> r == Handled(p, [])
    ensures now - p.lastEmit >= ThrottleMs ==> r.player == p.(lastEmit := now)
    ensures now - p.lastEmit >= ThrottleMs ==> |r.emits| == p.timeListeners
    ensures forall k :: 0 <= k < |r.emits| ==> r.emits[k] == Emit(k, p.currentMs)
  {
    if Emits(p.lastEmit, now) then Handled(p.(lastEmit := now), FanOut(p.timeListeners, p.currentMs))
    else Handled(p, [])
  }

  /** A `seeked` event: never throttled, every seek listener called with the playhead. */
  function OnSeeked(p: Player): (r: Handled)
    ensures r.player == p
    ensures |r.emits| == p.seekListeners
    ensures forall k :: 0 <= k < |r.emits| ==> r.emits[k] == Emit(k, p.currentMs)
  {
    Handled(p, FanOut(p.seekListeners, p.currentMs))
  }

  /**
   * The instants, among the clock readings `nows` of successive `timeupdate`
   * events, at which a fan-out happens, starting from `lastEmit`.
   */
  function Emissions(lastEmit: int, nows: seq<int>): (r: seq<int>)
    ensures forall k :: 0 <= k < |r| ==> r[k] in nows
    ensures |r| > 0 ==> r[0] - lastEmit >= ThrottleMs
    ensures forall k :: 0 <= k < |r| - 1 ==> r[k + 1] - r[k] >= ThrottleMs
    ensures |r| > 0 <==> exists i :: 0 <= i < |nows| && nows[i] - lastEmit >= ThrottleMs
    decreases |nows|
  {
    if nows == [] then []
    else if Emits(lastEmit, nows[0]) then [nows[0]] + Emissions(nows[0], nows[1..])
    else
      var rest := Emissions(lastEmit, nows[1..]);
      assert forall i :: 1 <= i < |nows| ==> nows[i] == nows[1..][i - 1];
      rest
  }

  /** The clock readings at which a run of `timeupdate` events, fed through `OnTimeUpdate`, fans out. */
  function Fired(p: Player, nows: seq<int>): seq<int>
    decreases |nows|
  {
    if nows == [] then []
    else
      var h := OnTimeUpdate(p, nows[0]);
      (if h.player.lastEmit != p.lastEmit then [nows[0]] else []) + Fired(h.player, nows[1..])
  }

  /** Driving the handler event by event fans out exactly at `Emissions`. */
  lemma {:induction false} FiredAreEmissions(p: Player, nows: seq<int>)
    ensures Fired(p, nows) == Emissions(p.lastEmit, nows)
    decreases |nows|
  {
    if nows != [] {
      var h := OnTimeUpdate(p, nows[0]);
      FiredAreEmissions(h.player, nows[1..]);
    }
  }

  /** `seekTo`: negative targets clamp to the start. */
  function SeekTo(ms: int): (r: nat)
    ensures ms >= 0 ==> r == ms
    ensures ms < 0 ==> r == 0
  {
    Clamp(ms)
  }

  /** ArrowLeft / ArrowRight: five seconds back or forward, ten with Shift, from the playhead. */
  function ArrowSeek(currentMs: int, forward: bool, shift: bool): (r: nat)
    ensures var step := if shift then ShiftStepMs else StepMs;
            forward && currentMs + step >= 0 ==> r == currentMs + step
    ensures var step := if shift then ShiftStepMs else StepMs;
            forward && currentMs + step < 0 ==> r == 0
    ensures var step := if shift then ShiftStepMs else StepMs;
            !forward ==> r == (if currentMs >= step then currentMs - step else 0)
  {
    var step := if shift then ShiftStepMs else StepMs;
    SeekTo(if forward then currentMs + step else currentMs - step)
  }

  /** Forward then back returns to the playhead; back then forward does unless the start was hit. */
  lemma ArrowRoundTrip(currentMs: nat, shift: bool)
    ensures ArrowSeek(ArrowSeek(currentMs, true, shift), false, shift) == currentMs
    ensures var step := if shift then ShiftStepMs else StepMs;
            ArrowSeek(ArrowSeek(currentMs, false, shift), true, shift) == if currentMs >= step then currentMs else step
  {
  }

  /**
   * `_getDurationSec`, in milliseconds: the media's own duration when it is
   * finite and positive (`None` stands for infinite or unknown), else the
   * duration from the recording's metadata.
   */
  function DurationMs(native: Option<int>, knownMs: int): (r: int)
    ensures native.Some? && native.value > 0 ==> r == native.value
    ensures (native.None? || native.value <= 0) ==> r == knownMs
  {
    if native.Some? && native.value > 0 then native.value else knownMs
  }

  /**
   * The effective duration is positive exactly when one of its sources is,
   * and once the media knows its length the metadata no longer matters.
   */
  lemma DurationSources(native: Option<int>, knownMs: int, otherKnownMs: int)
    ensures DurationMs(native, knownMs) > 0 <==> (native.Some? && native.value > 0) || knownMs > 0
    ensures native.Some? && native.value > 0 ==> DurationMs(native, knownMs) == DurationMs(native, otherKnownMs)
    ensures DurationMs(native, knownMs) == knownMs || (native.Some? && DurationMs(native, knownMs) == native.value)
  {
  }

  // ---------------------------------------------------------------------------
  // Timeline markers (`_renderMarkers`)
  // ---------------------------------------------------------------------------

  datatype Marker = Marker(timeMs: int, color: string, title: string)

  /** A dot on the progress bar: its left offset in percent, colour and tooltip. */
  datatype Dot = Dot(leftPct: real, color: string, title: string)

  function Pct(timeMs: int, durMs: int): real
    requires durMs > 0
  {
    (timeMs as real / durMs as real) * 100.0
  }

  function DotOf(m: Marker, durMs: int): Dot
    requires durMs > 0
  {
    Dot(Pct(m.timeMs, durMs), m.color, m.title)
  }

  /** The source's test, `pct < 0 || pct > 100`, skips exactly the markers outside the recording. */
  lemma OnBar(timeMs: int, durMs: int)
    requires durMs > 0
    ensures !(Pct(timeMs, durMs) < 0.0 || Pct(timeMs, durMs) > 100.0) <==> 0 <= timeMs <= durMs
  {
    var q := timeMs as real / durMs as real;
    assert q * (durMs as real) == timeMs as real;
    if timeMs > durMs {
      assert q > 1.0;
    }
    if timeMs < 0 {
      assert q < 0.0;
    }
    if 0 <= timeMs <= durMs {
      assert 0.0 <= q <= 1.0;
    }
  }

  function Dots(markers: seq<Marker>, durMs: int): (r: seq<Dot>)
    requires durMs > 0
    ensures |r| <= |markers|
    ensures forall m :: m in markers && 0 <= m.timeMs <= durMs ==> DotOf(m, durMs) in r
    ensures forall d :: d in r ==> exists m :: m in markers && 0 <= m.timeMs <= durMs && d == DotOf(m, durMs)
    ensures forall d :: d in r ==> 0.0 <= d.leftPct <= 100.0
    decreases |markers|
  {
    if markers == [] then []
    else
      var m := markers[0];
      var rest := Dots(markers[1..], durMs);
      assert forall x :: x in markers ==> x == m || x in markers[1..];
      OnBar(m.timeMs, durMs);
      var pct := Pct(m.timeMs, durMs);
      if pct < 0.0 || pct > 100.0 then rest else [DotOf(m, durMs)] + rest
  }

  /**
   * `_renderMarkers`: nothing without a positive duration or without markers;
   * otherwise a dot for each marker inside the recording, and only those.
   */
  function RenderMarkers(markers: seq<Marker>, durMs: int): (r: seq<Dot>)
    ensures durMs <= 0 || markers == [] ==> r == []
    ensures |r| <= |markers|
    ensures durMs > 0 ==> forall m :: m in markers && 0 <= m.timeMs <= durMs ==> DotOf(m, durMs) in r
    ensures forall d :: d in r ==> exists m :: m in markers && 0 <= m.timeMs <= durMs && d == DotOf(m, durMs)
  {
    if durMs <= 0 || markers == [] then [] else Dots(markers, durMs)
  }
}

=== FILE: viewer.dfy ===
/**
 * The page script: the recording id taken from the address, the duration
 * label in the header, and the timeline markers built from both panels.
 */
module Viewer {

  import opened JsValues
  import opened Text
  import RemoteObjects
  import ConsoleViewer
  import NetworkViewer
  import NetworkDetail
  import VideoPlayer

  // ---------------------------------------------------------------------------
  // Recording id
  // ---------------------------------------------------------------------------

  /**
   * The last path segment, or the one before it when the path ends in a
   * slash; `None` (the error view) when that is empty too.
   */
  function RecordingId(path: string): (r: Option<string>)
    ensures r.Some? ==> r.value != "" && '/' !in r.value
    ensures r.Some? ==> r.value in Split(path, '/')
    ensures var parts := Split(path, '/');
            r.None? <==> parts[|parts| - 1] == "" && (|parts| < 2 || parts[|parts| - 2] == "")
  {
    var parts := Split(path, '/');
    var last := parts[|parts| - 1];
    if last != "" then Some(last)
    else if |parts| >= 2 && parts[|parts| - 2] != "" then Some(parts[|parts| - 2])
    else None
  }

  /** A viewer address `/view/<id>`, with or without a trailing slash, yields `<id>`. */
  lemma RecordingIdOfViewPath(prefix: string, id: string)
    requires id != "" && '/' !in id
    ensures RecordingId(prefix + "/" + id) == Some(id)
    ensures RecordingId(prefix + "/" + id + "/") == Some(id)
  {
    SplitBeforeSuffix(prefix, id, '/');
    assert prefix + "/" + id == prefix + ['/'] + id;
    SplitBeforeSuffix(prefix + "/" + id, "", '/');
    assert prefix + "/" + id + "/" == (prefix + "/" + id) + ['/'] + "";
  }

  // ---------------------------------------------------------------------------
  // Duration label (`formatDuration`)
  // ---------------------------------------------------------------------------

  /** "{min}m {sec}s" of whole seconds; "" for a missing (zero) duration. */
  function FormatDuration(ms: int): (r: string)
    ensures ms == 0 <==> r == ""
  {
    if ms == 0 then ""
    else
      var totalSec := FloorDiv(ms, 1000);
      var min := FloorDiv(totalSec, 60);
      var sec := JsRem(totalSec, 60);
      IntToString(min) + "m " + IntToString(sec) + "s"
  }

  /**
   * `r` is an "Nm Ns" label of `totalSec` seconds: two space-separated
   * numerals tagged "m" and "s" that recompose the seconds, the second below 60.
   */
  ghost predicate DurationLabelOf(r: string, totalSec: int)
  {
    var parts := Split(r, ' ');
    && |parts| == 2
    && |parts[0]| >= 2 && parts[0][|parts[0]| - 1] == 'm' && AllDigits(parts[0][..|parts[0]| - 1])
    && |parts[1]| >= 2 && parts[1][|parts[1]| - 1] == 's' && AllDigits(parts[1][..|parts[1]| - 1])
    && ParseNat(parts[0][..|parts[0]| - 1]) * 60 + ParseNat(parts[1][..|parts[1]| - 1]) == totalSec
    && ParseNat(parts[1][..|parts[1]| - 1]) < 60
  }

  /**
   * A positive duration reads back: the label splits at its space into a
   * minute and a second field whose values add up to the whole seconds, with
   * the seconds below 60.
   */
  lemma DurationReadsBack(ms: int)
    requires ms > 0
    ensures DurationLabelOf(FormatDuration(ms), ms / 1000)
  {
    var min, sec := DurationFields(ms);
    var shown, total := FormatDuration(ms), ms / 1000;
    LabelSplits(min, sec);
    assert shown == NatToString(min) + "m" + [' '] + (NatToString(sec) + "s");
    assert total == min * 60 + sec;
  }

  lemma DurationFields(ms: int) returns (min: nat, sec: nat)
    requires ms > 0
    ensures FormatDuration(ms) == NatToString(min) + "m" + [' '] + (NatToString(sec) + "s")
    ensures min * 60 + sec == ms / 1000 && sec < 60
  {
    var totalSec := FloorDiv(ms, 1000);
    assert totalSec == ms / 1000;
    min := FloorDiv(totalSec, 60);
    sec := JsRem(totalSec, 60);
  }

  lemma LabelSplits(min: nat, sec: nat)
    requires sec < 60
    ensures DurationLabelOf(NatToString(min) + "m" + [' '] + (NatToString(sec) + "s"), min * 60 + sec)
  {
    var a := NatToString(min) + "m";
    var b := NatToString(sec) + "s";
    assert ' ' !in a by {
      forall i | 0 <= i < |a| ensures a[i] != ' ' { if i < |a| - 1 { assert IsDigit(a[i]); } }
    }
    assert ' ' !in b by {
      forall i | 0 <= i < |b| ensures b[i] != ' ' { if i < |b| - 1 { assert IsDigit(b[i]); } }
    }
    SplitAfterPrefix(a, b, ' ');
    SplitNoSep(b, ' ');
    var parts := Split(a + [' '] + b, ' ');
    assert parts == [a, b];
    assert a[..|a| - 1] == NatToString(min);
    assert b[..|b| - 1] == NatToString(sec);
    ParseNatToString(min);
    ParseNatToString(sec);
    assert ParseNat(parts[0][..|parts[0]| - 1]) == min && ParseNat(parts[1][..|parts[1]| - 1]) == sec;
  }

  // ---------------------------------------------------------------------------
  // Timeline markers
  // ---------------------------------------------------------------------------

  const ErrorColor: string := "#f85149"
  const RequestColor: string := "#58a6ff"

  /** Characters of marker text kept. */
  const MarkerTextMax: nat := 80

  /** Every link of `entry.args?.[0]` is present. */
  predicate HasFirstArg(rec: ConsoleViewer.ConsoleRecord)
  {
    rec.format.Protocol? && rec.format.remote.Items? && |rec.format.remote.items| > 0 && rec.format.remote.items[0].Some?
  }

  /** `entry.args?.[0]?.description`, "" when any link is missing. */
  function FirstArgDescription(rec: ConsoleViewer.ConsoleRecord): (r: string)
    ensures HasFirstArg(rec) ==> r == rec.format.remote.items[0].value.description
    ensures !HasFirstArg(rec) ==> r == ""
  {
    if HasFirstArg(rec) then rec.format.remote.items[0].value.description else ""
  }

  /** "Error: " and the first 80 characters of the message, or else of the first argument's description. */
  function ErrorText(rec: ConsoleViewer.ConsoleRecord): (r: string)
    ensures |r| >= 7 && r[..7] == "Error: "
    ensures var t := OrStr(rec.message, FirstArgDescription(rec));
            |r| == 7 + (if |t| < MarkerTextMax then |t| else MarkerTextMax)
    ensures rec.message != "" ==> r[7..] <= rec.message
    ensures rec.message == "" ==> r[7..] <= FirstArgDescription(rec)
  {
    var t := Take(OrStr(rec.message, FirstArgDescription(rec)), MarkerTextMax);
    assert ("Error: " + t)[7..] == t;
    "Error: " + t
  }

  function ErrorMarker(e: ConsoleViewer.ConsoleEntry): VideoPlayer.Marker
  {
    VideoPlayer.Marker(e.relativeMs, ErrorColor, ErrorText(e.record))
  }

  /** One red marker per console entry whose level is "error" (exceptions included), in entry order. */
  function ConsoleMarkers(entries: seq<ConsoleViewer.ConsoleEntry>): (r: seq<VideoPlayer.Marker>)
    ensures |r| <= |entries|
    ensures forall i :: 0 <= i < |entries| && ConsoleViewer.Level(entries[i].record) == "error" ==> ErrorMarker(entries[i]) in r
    ensures forall m :: m in r ==> exists i :: 0 <= i < |entries| && ConsoleViewer.Level(entries[i].record) == "error" && m == ErrorMarker(entries[i])
    decreases |entries|
  {
    if entries == [] then []
    else
      var rest := ConsoleMarkers(entries[1..]);
      assert forall i :: 1 <= i < |entries| ==> entries[i] == entries[1..][i - 1];
      if ConsoleViewer.Level(entries[0].record) == "error" then [ErrorMarker(entries[0])] + rest else rest
  }

  /** The request text: method (GET by default) and URL, cut to 80 characters. */
  function RequestText(rec: NetworkViewer.NetworkRecord): (r: string)
    ensures var t := NetworkDetail.CurlMethod(rec) + " " + NetworkDetail.CurlUrl(rec);
            |r| == (if |t| < MarkerTextMax then |t| else MarkerTextMax)
    ensures r <= NetworkDetail.CurlMethod(rec) + " " + NetworkDetail.CurlUrl(rec)
  {
    Take(NetworkDetail.CurlMethod(rec) + " " + NetworkDetail.CurlUrl(rec), MarkerTextMax)
  }

  function RequestMarker(e: NetworkViewer.NetworkEntry): VideoPlayer.Marker
  {
    VideoPlayer.Marker(e.relativeMs, RequestColor, RequestText(e.record))
  }

  /** One blue marker per request, in entry order. */
  function NetworkMarkers(entries: seq<NetworkViewer.NetworkEntry>): (r: seq<VideoPlayer.Marker>)
    ensures |r| == |entries|
    ensures forall i :: 0 <= i < |entries| ==> r[i] == RequestMarker(entries[i])
  {
    seq(|entries|, i requires 0 <= i < |entries| => RequestMarker(entries[i]))
  }

  /** The marker list handed to the player: console errors first, then requests. */
  function Markers(console: seq<ConsoleViewer.ConsoleEntry>, network: seq<NetworkViewer.NetworkEntry>): (r: seq<VideoPlayer.Marker>)
    ensures |r| == |ConsoleMarkers(console)| + |network|
    ensures r[..|ConsoleMarkers(console)|] == ConsoleMarkers(console)
    ensures forall i :: 0 <= i < |network| ==> r[|ConsoleMarkers(console)| + i] == RequestMarker(network[i])
  {
    var errors, requests := ConsoleMarkers(console), NetworkMarkers(network);
    assert (errors + requests)[..|errors|] == errors;
    assert forall i :: 0 <= i < |requests| ==> (errors + requests)[|errors| + i] == requests[i];
    errors + requests
  }

  /**
   * On a timeline of positive length, every request and every error inside
   * the recording gets a dot, and every dot is red (an error) or blue (a
   * request).
   */
  lemma TimelineDots(console: seq<ConsoleViewer.ConsoleEntry>, network: seq<NetworkViewer.NetworkEntry>, durMs: int)
    requires durMs > 0
    ensures var dots := VideoPlayer.RenderMarkers(Markers(console, network), durMs);
            && (forall i :: 0 <= i < |network| && 0 <= network[i].relativeMs <= durMs ==>
                  VideoPlayer.DotOf(RequestMarker(network[i]), durMs) in dots)
            && (forall i ::
                  (0 <= i < |console| && ConsoleViewer.Level(console[i].record) == "error" && 0 <= console[i].relativeMs <= durMs) ==>
                  VideoPlayer.DotOf(ErrorMarker(console[i]), durMs) in dots)
            && (forall d :: d in dots ==> d.color == ErrorColor || d.color == RequestColor)
  {
    var ms := Markers(console, network);
    var dots := VideoPlayer.RenderMarkers(ms, durMs);
    MarkersContents(console, network);
    forall i | 0 <= i < |network| && 0 <= network[i].relativeMs <= durMs
      ensures VideoPlayer.DotOf(RequestMarker(network[i]), durMs) in dots
    {
      assert RequestMarker(network[i]) in ms;
      DotIn(ms, RequestMarker(network[i]), durMs);
    }
    forall i | 0 <= i < |console| && ConsoleViewer.Level(console[i].record) == "error" && 0 <= console[i].relativeMs <= durMs
      ensures VideoPlayer.DotOf(ErrorMarker(console[i]), durMs) in dots
    {
      assert ErrorMarker(console[i]) in ms;
      DotIn(ms, ErrorMarker(console[i]), durMs);
    }
    DotColors(ms, durMs);
  }

  /** A marker inside the recording has its dot. */
  lemma DotIn(ms: seq<VideoPlayer.Marker>, m: VideoPlayer.Marker, durMs: int)
    requires durMs > 0 && m in ms && 0 <= m.timeMs <= durMs
    ensures VideoPlayer.DotOf(m, durMs) in VideoPlayer.RenderMarkers(ms, durMs)
  {
  }

  /** A dot takes the color of its marker, so red-or-blue markers give red-or-blue dots. */
  lemma DotColors(ms: seq<VideoPlayer.Marker>, durMs: int)
    requires forall m :: m in ms ==> m.color == ErrorColor || m.color == RequestColor
    ensures forall d :: d in VideoPlayer.RenderMarkers(ms, durMs) ==> d.color == ErrorColor || d.color == RequestColor
  {
    forall d | d in VideoPlayer.RenderMarkers(ms, durMs) ensures d.color == ErrorColor || d.color == RequestColor {
      var m :| m in ms && 0 <= m.timeMs <= durMs && d == VideoPlayer.DotOf(m, durMs);
    }
  }

  /** Every request and every error has its marker, and every marker is an error's or a request's. */
  lemma MarkersContents(console: seq<ConsoleViewer.ConsoleEntry>, network: seq<NetworkViewer.NetworkEntry>)
    ensures var ms := Markers(console, network);
            && (forall i :: 0 <= i < |network| ==> RequestMarker(network[i]) in ms)
            && (forall i :: 0 <= i < |console| && ConsoleViewer.Level(console[i].record) == "error" ==> ErrorMarker(console[i]) in ms)
            && (forall m :: m in ms ==> m.color == ErrorColor || m.color == RequestColor)
  {
    var cm, nm := ConsoleMarkers(console), NetworkMarkers(network);
    var ms := cm + nm;
    forall i | 0 <= i < |network| ensures RequestMarker(network[i]) in ms {
      assert ms[|cm| + i] == nm[i];
    }
    forall i | 0 <= i < |console| && ConsoleViewer.Level(console[i].record) == "error" ensures ErrorMarker(console[i]) in ms {
      assert ErrorMarker(console[i]) in cm;
    }
    ErrorMarkersAreRed(console);
    forall m | m in ms ensures m.color == ErrorColor || m.color == RequestColor {
      if m !in cm {
        assert m in nm;
      }
    }
  }

  lemma ErrorMarkersAreRed(console: seq<ConsoleViewer.ConsoleEntry>)
    ensures forall m :: m in ConsoleMarkers(console) ==> m.color == ErrorColor
  {
    forall m | m in ConsoleMarkers(console) ensures m.color == ErrorColor {
      var i :| 0 <= i < |console| && ConsoleViewer.Level(console[i].record) == "error" && m == ErrorMarker(console[i]);
    }
  }
}
